=== FILE: README.md ===
# gitlab-deploy in Dafny

A model of the core of `gitlab-deploy`, a command-line tool that deploys GitLab
projects to a fleet of hosts over SSH and controls the releases it deployed
there. The model covers the pieces every flow rests on, and the flows themselves:

- **Input parsing.** The lifecycle command (`up`, `stop`, `down`, `logs`,
  `down_up` and their aliases) and `user@host[:port]` host literals. The
  validators for names, image names, public names, API tokens, commit SHAs and
  SSH URL prefixes.
- **Phase file.** Reading `~/.gitlab-deploy/<phase>` into the set of hosts of
  one project id. This covers comments, blank lines, the `u64` project id,
  host literals, duplicate detection within a line, the last definition
  winning, and the error for each failure with its line number.
- **Remote release layout.** Where a release lives:
  `{home}/{PROJECT_DIRECTORY}/{name}-{id}/{ref}-{short_sha}`. The shared
  `control.log` and `last-up` files sit next to it through `/..`. The html
  directory of a front-end project is `{home}/{SERVICE_DIRECTORY}/{public}/html`.
  The public name is read from `public-name.txt` as a `Name`, so it may hold
  `.`; the name `..` gives the html path `{home}/{SERVICE_DIRECTORY}/../html`.
  The stricter `PublicName` pattern is modelled but no flow uses it.
- **The remote calls.** The `ssh`/`scp` argument vectors, the home-directory
  query, and the `test -f`/`test -d` existence checks. Also the pre-flight check
  of `deploy/` files on a host (`check_back_deploy_via_ssh`), including the
  multi-line `image:` pattern match on `docker-compose.yml`.
- **The seven flows.** `back_deploy`, `front_deploy`, `simple_deploy`,
  `back_control` (with the `down_up` handover through `last-up`),
  `front_control`, `simple_control` (with the optional injection of the
  project directory), and `back_develop`.

The remote side is an **oracle**, a function from the calls issued so far and
the next call to that call's reply. A reply is an exit status plus stdout: exit
code, killed by a signal, or a process that could not be started. A run of a
flow is the list of calls it issued plus its result. So every statement about
a flow holds for every possible behaviour of the hosts. Shell `&&` chains are
modelled by `Remote.Started`: given which stages succeed, it says how many
stages ran.

Three parts of the environment are fields of an `Env` record and stay
unconstrained:

- the compile-time constants `PROJECT_DIRECTORY` and `SERVICE_DIRECTORY`;
- Rust's `{:?}` string quoting;
- the timestamp clock, a function of the calls made so far.

Hosts come from a hash set, so the flows take them as any sequence.

Modules follow the source: `Text` (string helpers: `trim`, `split_whitespace`,
`strip_suffix`, ASCII case), `Decimal` (`u64`/`u16` parsing), `Commands`,
`Validators`, `SshUserHosts`, `Remote`, `Runs` (fail-fast step and host
loops), `Layout`, `PhaseFile`, `DeployCheck`, and one module per flow.

Several validator files share one pattern, so one predicate models all of them:

- `src/parse/name.rs`, `src/models/name.rs` and `src/parse/phase.rs` are `Validators.IsName`;
- `src/parse/image_name.rs` and `src/models/build_target.rs` are `Validators.IsImageName`;
- `src/parse/api_token.rs` and `src/models/api_token.rs` are `Validators.IsApiToken`.

Two behaviours of the code are easy to miss:

- `back_control` appends its audit line to `control.log` *before* running the
  docker-compose snippet, in one `&&` chain. So a failing lifecycle command is
  still logged, provided `cd` and the append succeed (`BackControl.AuditBeforeSnippet`).
- The phase file has no `.` back-reference token. A `.` on a line is read as a
  host literal, and it fails to parse as one.

## Model

| member | source | states |
|---|---|---|
| Commands.Parse | src/parse/command.rs:12-25 | a command is recognised exactly when the ASCII-lowercased input is one of its spellings; no other input parses |
| Commands.ParseAsStr | src/parse/command.rs:12-36 | parsing the canonical name of any command gives that command back |
| Commands.AsStrInjective | src/parse/command.rs:28-36 | distinct commands have distinct canonical names |
| Commands.ParseIgnoresCase | src/parse/command.rs:15 | two inputs that differ only in ASCII case parse to the same result |
| Commands.ParseExamples | src/parse/command.rs:15-22 | `RESTART` is `down_up`, `Start` is `up`, and `restarts` is rejected |
| Commands.ParseSpellings | src/parse/command.rs:16-21 | every listed alias parses to its command, so the alias sets are disjoint |
| Commands.SnippetShapes | src/parse/command.rs:39-47 | `up` and `down_up` share the start-then-tail-logs snippet; the other commands run `docker-compose <name>` |
| Validators.NameBoundaries | src/parse/name.rs:4 | names are 1 to 80 characters with no `/` or blank, and `.` and `..` are accepted names |
| Validators.PublicNameIsDotFreeName | src/parse/public_name.rs:4 | a public name is exactly a name without a `.` |
| Validators.ImageNameIsLowerPublicName | src/parse/image_name.rs:4 | an image name is exactly a public name without ASCII capitals |
| Validators.ApiTokenUnbounded | src/parse/api_token.rs:4 | a token is any non-empty run of non-blank characters, of any length, and every name is a token |
| Validators.CommitShaNotHex | src/parse/commit_sha.rs:4 | a SHA is exactly 40 ASCII letters or digits, not necessarily hexadecimal |
| Validators.ShortSha | src/parse/commit_sha.rs:14-16 | the short SHA is the eight-character alphanumeric prefix of the SHA |
| Validators.SshUrlPrefixWidened | src/models/ssh_url_prefix.rs:4 | every prefix the command-line pattern accepts is also accepted by the model-level pattern |
| Validators.SshUrlPrefixHasNoPath | src/parse/ssh_url_prefix.rs:4 | a `user@host[:port]` match contains no `/` and no blank, so appending `/{path}.git` adds one path |
| Validators.SshUrlPrefixUncheckedPort | src/parse/ssh_url_prefix.rs:4 | the URL-prefix pattern accepts a five-digit port above 65535 |
| Validators.SshUrlPrefixWithScheme | src/parse/ssh_url_prefix.rs:4 | the pattern accepts an `ssh://` scheme before `user@host:port` |
| Validators.SshUrlPrefixFreeSuffix | src/models/ssh_url_prefix.rs:4 | `git@host:group` is rejected by the command-line pattern but accepted by the model-level one |
| SshUserHosts.Parse | src/parse/ssh_user_host.rs:11-30 | the result holds the pattern's captures with the longest possible user; parsing fails exactly when the pattern does not match or the port does not fit in 16 bits |
| SshUserHosts.ParsedPort | src/parse/ssh_user_host.rs:44-47 | the effective port is 22 when the literal has no port, and otherwise the value of its digits |
| SshUserHosts.ReparseUserHost | src/parse/ssh_user_host.rs:49-52 | parsing the `user@host` form of a parsed host gives the same user and host, without a port |
| SshUserHosts.RejectsLargePort | src/parse/ssh_user_host.rs:20-23 | `a@h:99999` matches the pattern but is rejected because its port overflows `u16` |
| SshUserHosts.GreedyUser | src/parse/ssh_user_host.rs:14-19 | in `a@b@c` the user is `a@b` and the host is `c`: the user group is greedy |
| SshUserHosts.ParsedIsSshUrlPrefix | src/parse/ssh_url_prefix.rs:4 | every parsed host literal is also a valid SSH URL prefix |
| Decimal.ParseUnsigned | src/parse/ssh_user_host.rs:21 | parsing succeeds exactly for an optional `+` and then digits whose value is below the bound |
| Decimal.ParseU64OfNatToString | src/functions.rs:449-455 | the decimal spelling of any `u64` parses back to the same number |
| Remote.SshArgvNamesTarget | src/functions.rs:218-234 | the `ssh` argv carries the command last, and its `-p` value and `user@host` argument parse back to the host's port, user and host |
| Remote.ScpArgvNamesTarget | src/functions.rs:236-253 | the `scp` argv carries the source, and `user@host:dest`; its `-P` value parses back to the host's port |
| Remote.GetSshHome | src/functions.rs:255-280 | exactly one `echo $HOME` call; succeeds exactly when it exits 0, giving the trimmed output with at most one trailing `/` removed; a process that cannot start is an I/O error |
| Remote.ExistAnswer | src/functions.rs:304-331 | exit 0 means present, exit 1 means absent, and any other outcome is an error naming the path |
| Remote.StartedIffPredecessorsSucceed | src/back_develop.rs:53 | in an `&&` chain a stage runs exactly when every stage before it succeeded |
| DeployCheck.ImageLineIffShape | src/functions.rs:188-194 | the line test accepts exactly the lines that are spaces, `image:`, at least one space, the image name and trailing spaces |
| DeployCheck.CheckBackDeploy | src/functions.rs:101-197 | the calls issued are a non-empty prefix of the five checks, in their fixed order |
| DeployCheck.CheckBackDeployOk | src/functions.rs:101-197 | the check passes exactly when all five calls exit 0, the trimmed `image-name.txt` is a valid image name, and the compose file has an `image:` line for it; it then returns that name |
| DeployCheck.CheckBackDeployMissing | src/functions.rs:107-186 | when the first failing call exits 1, the check stops there and names that script or file as missing |
| DeployCheck.ScriptAnswer | src/functions.rs:107-117 | a script check passes exactly when `test -f` exits 0; exit 1 names the script as missing |
| DeployCheck.CatAnswer | src/functions.rs:128-153 | a read succeeds exactly when `cat` exits 0 and gives the trimmed output; otherwise the file is reported missing, or an I/O error when the process cannot start |
| PhaseFile.StripComment | src/functions.rs:441-445 | the kept text is the prefix of the line before its first `#` (or the whole line when it has none) |
| PhaseFile.CommentIgnored | src/functions.rs:441-445 | appending a comment to a line does not change how the line parses |
| PhaseFile.BlankLineSkipped | src/functions.rs:447-455 | a line that is blank after its comment is dropped defines nothing |
| PhaseFile.BadProjectIdNamesLine | src/functions.rs:449-466 | a line whose first word is not a `u64` fails with the project-id error for that line number |
| PhaseFile.IdOnlyLine | src/functions.rs:473-500 | a line holding only a project id defines that project with no hosts |
| PhaseFile.RepeatedHostRejected | src/functions.rs:489-497 | repeating a host literal on one line fails with the duplicate error naming the line and literal |
| PhaseFile.ParseHostsSpec | src/functions.rs:475-498 | a line's hosts parse exactly when every literal parses and no host repeats; the result is the set they denote; otherwise the error names the first offending literal |
| PhaseFile.ParseLine | src/functions.rs:441-500 | every error a line produces carries that line's number |
| PhaseFile.ParsedLinesAt | src/functions.rs:431-439 | line `k` of the file is parsed with line number `k + 1` |
| PhaseFile.FoldFailsAtFirstBadLine | src/functions.rs:431-501 | the file parses exactly when every line does, and otherwise fails with the first bad line's error |
| PhaseFile.LastDefinitionWins | src/functions.rs:500 | a project is defined exactly when some line defines it, and its hosts are those of the last such line |
| PhaseFile.LookupSpec | src/functions.rs:503-512 | the lookup succeeds exactly when every line parses and some line defines the project; otherwise it gives "project not set" or the first bad line's error |
| PhaseFile.Resolve | src/functions.rs:405-513 | a missing phase file is an unsupported phase and an unreadable one is an error; for a readable file, with line `k` parsed as line number `k + 1`, the answer is Ok exactly when every line parses and some line names the project, its hosts are those of the last such line, and otherwise it is "project not set" or the first bad line's error |
| Layout.ReleaseDirInsideProjectDir | src/back_control.rs:34-52 | a release directory lies inside the directory of its own project and of no other project |
| Layout.ProjectFolderInjective | src/back_control.rs:45-52 | different (name, id) pairs never share a project directory |
| Layout.ReleaseDirDeterminedByShortSha | src/simple_control.rs:49-54 | releases of the same project share a directory exactly when their references and first eight SHA characters agree |
| Layout.ParentOfReleaseDir | src/back_control.rs:94-108 | `{dir}/..` of a release directory is always its project directory, where `control.log` and `last-up` live |
| Layout.HtmlPathInjective | src/front_control.rs:101-106 | different public names never share an html directory |
| Runs.RunStepsOutcomes | src/back_deploy.rs:77-166 | every step before the last one issued passed; the run is Ok exactly when all steps ran and passed; a failure is the last step's failure |
| Runs.AllFatalRunOk | src/simple_deploy.rs:69-107 | when every step's failure is fatal, the run is Ok exactly when all steps were issued and each exited 0 |
| Runs.Outcome | src/back_deploy.rs:83-93 | a step passes when it exits 0, or fails only with a warning; a process that cannot start is always an I/O error |
| Runs.ForEachHostOk | src/back_deploy.rs:54-167 | the host loop is Ok exactly when every host succeeds after the calls of the hosts before it; otherwise it carries the first failing host's error |
| Runs.NoRollbackFailFast | src/front_deploy.rs:52-124 | calls made for earlier hosts stay in the trace, and after a failing host no later host is contacted |
| Runs.ForEachHostCalls | src/simple_control.rs:38-107 | host `i`'s calls come right after the calls of the hosts before it, in the loop's trace |
| Runs.WithHomeOk | src/simple_deploy.rs:49-107 | a host succeeds exactly when its home directory is read and every step then exits 0; a home-query failure ends the host with that error |
| Runs.HomeLoopDone | src/back_deploy.rs:54-167 | after a successful loop every host had its home read and all its steps issued, in order, each exiting 0 |
| Runs.Deploy | src/back_deploy.rs:38-52 | an empty host set succeeds without any call; a failed local preparation fails before any call |
| BackControl.BackControl | src/back_control.rs:26-29 | an empty host set succeeds without any call |
| BackControl.Handover | src/back_control.rs:56-92 | other commands make no handover calls; `down_up` reads `last-up` first; a failed read issues no shutdown and succeeds; after a good read it issues exactly the shutdown of the trimmed folder, which fails the handover only when it cannot start, so a non-zero exit only warns |
| BackControl.HostRunOk | src/back_control.rs:31-137 | a host succeeds exactly when the handover does not fail, the control command exits 0, and the `last-up` write starts; its calls are then home query, handover, control, `last-up` write |
| BackControl.ControlStepsRun | src/back_control.rs:94-136 | a failing control command stops the host with `ControlFailed` before `last-up`; the write's own failure only warns |
| BackControl.ControlFailureStops | src/back_control.rs:110-114 | a control command that exits non-zero ends the host with `ControlFailed`, and `last-up` is not written |
| BackControl.AuditBeforeSnippet | src/back_control.rs:94-108 | the audit line is appended exactly when `cd` succeeds, and the snippet runs exactly when the append also succeeded |
| BackControl.HandoverFollowsLastUp | src/back_control.rs:56-127 | given the `last-up` text written by an earlier `up`, `down_up` shuts down exactly that earlier release |
| BackControl.HandoverTarget | src/back_control.rs:74-83 | `{dir}/../{prev}` is the directory of the previous release of the same project |
| BackControl.ControlledEverywhere | src/back_control.rs:31-137 | after a successful control every host read its home, passed the handover and ran the control command with exit 0 |
| SimpleControl.InjectedArguments | src/simple_control.rs:57-78 | injection inserts the quoted directory as one extra word after the program (or after `sudo` and its program) and keeps every other word, leaving a trailing blank when nothing follows it; a lone `sudo` becomes `sudo ` with no directory; without injection the words are joined unchanged |
| SimpleControl.HostRunOk | src/simple_control.rs:56-106 | a host succeeds exactly when the command and then the audit append exit 0; both were then issued, in that order |
| SimpleControl.CommandFailureSkipsAudit | src/simple_control.rs:80-86 | a failing command ends the host with `ControlFailed` and no audit line is appended |
| SimpleControl.ControlStepsRun | src/simple_control.rs:80-106 | the audit append is issued only after the command exits 0, and either failure stops with `ControlFailed` |
| SimpleControl.ControlledEverywhere | src/simple_control.rs:38-107 | after a successful control every host ran the command and appended its audit line, both with exit 0 |
| SimpleControl.SimpleControl | src/simple_control.rs:33-36 | an empty host set succeeds without any call |
| FrontControl.FileName | src/front_control.rs:98 | a file name is non-empty, has no `/`, and is neither `.` nor `..` |
| FrontControl.ArchiveName | src/front_control.rs:98-99 | the archive name is found exactly when the path has a file name ending in `.tar.zst`, and the public name is that file name minus the suffix |
| FrontControl.ArchiveNameOfDeployed | src/front_deploy.rs:94-101 | the path of the archive `front_deploy` copies reads back as its file name and the public name it was built for |
| FrontControl.UppercaseArchivePanics | src/front_control.rs:59-99 | an archive named `*.TAR.ZST`, which `find -iname` lists, makes the suffix strip fail |
| FrontControl.HostRunOutcomes | src/front_control.rs:38-126 | a host succeeds exactly when `find` names an archive with the exact suffix and the apply command exits 0; a failed or empty `find` names the release directory |
| FrontControl.AppliesDeployedArchive | src/front_control.rs:98-117 | given the archive `front_deploy` copied, the apply command unpacks it and replaces the html directory of its public name |
| FrontControl.ApplyOrder | src/front_control.rs:108-117 | the old html directory is removed only after the archive was unpacked, and the `apply` line is logged exactly when every earlier stage succeeded; as the two stages with a `true` fallback always succeed, that is exactly when `cd`, the unpack, `mkdir -p`, the copy and the removal of `public` succeed |
| FrontControl.AppliedEverywhere | src/front_control.rs:35-127 | after a successful control every host ran `find` and the apply command with exit 0 |
| FrontControl.FrontControl | src/front_control.rs:30-33 | an empty host set succeeds without any call |
| BackDeploy.BackDeploy | src/back_deploy.rs:38-52 | an empty host set succeeds without any call; a failed preparation fails before any remote call |
| BackDeploy.Steps | src/back_deploy.rs:77-166 | four steps per host, each of whose failure stops the deployment |
| BackDeploy.StepsShape | src/back_deploy.rs:96-166 | the compose text is the compose step's input; the image archive is copied into the release directory; the load step decompresses the same local archive |
| BackDeploy.DeployedEverywhere | src/back_deploy.rs:54-167 | after a successful deployment every host had its home read and all four steps issued with exit 0 |
| FrontDeploy.FrontDeploy | src/front_deploy.rs:37-50 | an empty host set succeeds without any call; a failed preparation fails before any remote call |
| FrontDeploy.StepsShape | src/front_deploy.rs:94-123 | the copy keeps the archive's file name and lands in the directory the first call created, on the current host |
| FrontDeploy.MkdirFailureStops | src/front_deploy.rs:75-92 | a directory that cannot be created stops the deployment, naming it, and nothing is copied |
| FrontDeploy.DeployedEverywhere | src/front_deploy.rs:52-124 | after a successful deployment every host created the release directory and received the archive, both calls exiting 0 |
| SimpleDeploy.SimpleDeploy | src/simple_deploy.rs:34-44 | an empty host set succeeds without any call; a failed download fails before any remote call |
| SimpleDeploy.StepsShape | src/simple_deploy.rs:69-100 | both calls go to the current host and name the same directory, and `tar` reads the downloaded archive |
| SimpleDeploy.UnpackFailureStops | src/simple_deploy.rs:90-107 | a failed unpack stops the deployment with `CannotDeployProject` after both calls |
| SimpleDeploy.DeployedEverywhere | src/simple_deploy.rs:46-108 | after a successful deployment every host created the release directory and unpacked the archive into it, both calls exiting 0 |
| BackDevelop.CloneIffNoCheckout | src/back_develop.rs:42-92 | the project is cloned exactly when the root has no `.git` directory; otherwise the deploy files are checked first |
| BackDevelop.DevelopOk | src/back_develop.rs:42-107 | the run succeeds exactly when the `.git` test, the pull or clone, and the up part all succeed; its calls are those parts in order; a failed `.git` test or fetch ends the run there, with that error and before the up part |
| BackDevelop.UpOk | src/back_develop.rs:94-107 | `develop-up.sh` runs only after the deploy files pass the second check: a failed check ends the run with its own calls and error; the run is Ok exactly when the script exits 0 |
| BackDevelop.PullOk | src/back_develop.rs:47-66 | a checkout is pulled only after the deploy files pass: a failed check ends the run with its own calls and error; a failing pull names the reference |
| BackDevelop.StageOrder | src/back_develop.rs:53-80 | as the `develop-down.sh` stage has a `true` fallback and always succeeds, checkout and pull run exactly when `cd` succeeds; nothing is checked out unless the clone succeeded |
| Text.TrimIsInfix | src/functions.rs:273-275 | the trimmed text is a slice of the input with only blanks cut from each end, and it neither starts nor ends with a blank |
| Text.StripSuffix | src/front_control.rs:99 | stripping succeeds exactly when the text ends with the suffix, and the result plus the suffix is the text |

## Left out

- Command-line parsing and environment plumbing: clap arguments, environment variables, logging and `process::exit`. The flows receive already-parsed arguments.
- SimpleControl.CommandInSsh: requires a non-empty command. The command-line layer guarantees at least one word, and the code indexes `command[0]` without a check.
- Local preparation is an input `Result` to each deploy flow, and its internals are not modelled: tool checks (`check_ssh`, `check_zstd`, …), the archive download and extraction (`download_and_extract_archive`, `download_archive`), `check_front_deploy`, `check_back_deploy`, `run_front_build` and `run_back_build`. They run local processes and HTTP requests, and the model covers only the hosts' side.
- `list_ssh_files`: it only logs a listing and always succeeds, so it changes no outcome.
- `front_develop`: the flow has no logic beyond its argument parsing.
- `api_url_prefix`, project paths and build targets: their validation rules live in a crate that is not part of this model. In `back_develop` the project path and the reference are free strings.
- Rust's `{:?}` quoting, `PROJECT_DIRECTORY`/`SERVICE_DIRECTORY` and `current_timestamp()` are `Env` parameters and left unconstrained.
- UTF-8 decoding of remote output (`from_utf8` failures) and the stderr lines logged on failure are not modelled. Outputs are strings.
- Hash-set iteration order: hosts are taken in any order. `SshUserHost` equality is structural, as with the derived hash.
- Remote.DeleteEndSlash: states only that at most one trailing `/` is removed, and only from text longer than one character. `delete_end_slash_in_place` comes from a crate that is not part of this model.
- FrontControl.FileName: models `Path::file_name` on `/`-separated text. It drops trailing slashes and trailing `/.` components and rejects `.`, a trailing `..`, the root and the empty path; `./` components inside the path are not normalised, which cannot change the last component.
- Shell semantics: a stage's success is a parameter (`ok: nat -> bool`) of `Remote.Started`, not a model of the shell; `Remote.ShellOutcomes` only fixes the stages with a `true` fallback as successful.
- PhaseFile.ParseLine: assumes that the scanner crate's `ScannerStr::next` and `next_u64` split a line exactly as `Text.Words` does (at Unicode White_Space) and read a `u64` exactly as `Decimal.ParseU64` does (`u64::from_str`, an optional `+` then digits). That crate is not part of this model.
- Phase-file lines are split by the caller; `\r\n` endings are not stripped. Reading the phase file's lines is an input (`PhaseFileRead`), and a missing `HOME` variable is not modelled.
- A spawn error (`execute*()?`) is `NotStarted` and yields `Io`. This also covers `File::open` of the downloaded archive in `simple_deploy`.
- FrontControl.UppercaseArchivePanics: `find -iname` accepts upper-case suffixes that the case-sensitive strip then rejects, a panic in the tool. The model keeps the panic as an error result.
- Timeouts and hung connections: every remote call returns a reply.

=== FILE: back_control.dfy ===
/** `back_control`: runs one docker-compose command in the release directory
    of a back-end project on every host of the phase. `down_up` first shuts
    down the release recorded in `last-up`; every command appends an audit
    line to `control.log`; `up` and `down_up` record the release they started
    in `last-up`. */
module BackControl {
  import opened Text
  import opened Validators
  import opened SshUserHosts
  import opened Remote
  import opened Runs
  import opened Layout
  import opened Commands

  /** `cat {dir:?}/../last-up`. */
  function CatLastUp(env: Env, h: SshUserHost, dir: string): Call {
    SshCall(h, "cat " + env.quote(dir) + "/../last-up")
  }

  /** `cd {dir:?}/../{folder} && docker-compose down`; the folder is the
      trimmed `last-up` text, interpolated unquoted. */
  function DownCall(env: Env, h: SshUserHost, dir: string, folder: string): Call {
    SshCall(h, "cd " + env.quote(dir) + "/../" + folder + " && " + Snippet(Down))
  }

  /** The shutdown of the previously started release that `down_up` attempts
      first. A failed `last-up` read issues no shutdown, and a shutdown that
      exits non-zero only warns: neither stops the control; only a process
      that cannot be started does. */
  function Handover(env: Env, o: Oracle, t: seq<Call>, h: SshUserHost, dir: string, c: Command): (r: Run<()>)
    ensures c != DownAndUp ==> r == Run([], Ok(()))
    ensures c == DownAndUp ==> 0 < |r.calls| <= 2 && r.calls[0] == CatLastUp(env, h, dir)
    ensures r.result.Err? ==> r.result.error == Io
    ensures c == DownAndUp && o(t, CatLastUp(env, h, dir)).status !in {Exited(0), NotStarted} ==>
      r == Run([CatLastUp(env, h, dir)], Ok(()))
    ensures c == DownAndUp && Succeeded(o(t, CatLastUp(env, h, dir)).status) ==>
      var down := DownCall(env, h, dir, Trim(o(t, CatLastUp(env, h, dir)).stdout));
      && r.calls == [CatLastUp(env, h, dir), down]
      && (r.result.Ok? <==> o(t + [CatLastUp(env, h, dir)], down).status != NotStarted)
  {
    if c != DownAndUp then Run([], Ok(()))
    else
      var cat := CatLastUp(env, h, dir);
      var reply := o(t, cat);
      if reply.status == NotStarted then Run([cat], Err(Io))
      else if !Succeeded(reply.status) then Run([cat], Ok(()))
      else
        var down := DownCall(env, h, dir, Trim(reply.stdout));
        Run([cat, down], Outcome(o(t + [cat], down).status, None))
  }

  /** `{timestamp} {command} {ref}-{short_sha}`, the line `control.log` gets. */
  function AuditLine(env: Env, t: seq<Call>, r: Release, c: Command): string {
    env.clock(t) + " " + AsStr(c) + " " + ReleaseName(r)
  }

  /** `cd`, then the audit line, then the command's snippet. */
  function MainStages(env: Env, t: seq<Call>, dir: string, r: Release, c: Command): (s: seq<string>)
    ensures |s| == 3 && s[0] == "cd " + env.quote(dir) && s[2] == Snippet(c)
  {
    [ "cd " + env.quote(dir),
      "echo \"" + AuditLine(env, t, r, c) + "\" >> " + env.quote(dir) + "/../control.log",
      Snippet(c) ]
  }

  function MainCall(env: Env, t: seq<Call>, h: SshUserHost, dir: string, r: Release, c: Command): Call {
    SshCall(h, Chain(MainStages(env, t, dir, r, c)))
  }

  /** `cd {dir:?} && echo "{ref}-{short_sha}" > {dir:?}/../last-up`. */
  function LastUpCall(env: Env, h: SshUserHost, dir: string, r: Release): Call {
    SshCall(h, Chain(["cd " + env.quote(dir), "echo \"" + ReleaseName(r) + "\" > " + env.quote(dir) + "/../last-up"]))
  }

  predicate WritesLastUp(c: Command) {
    c == Up || c == DownAndUp
  }

  /** The control command, whose failure stops the run, and for `up` and
      `down_up` the `last-up` write, whose failure only warns. The timestamp is
      read when the control command is built. */
  function ControlSteps(env: Env, t: seq<Call>, h: SshUserHost, dir: string, r: Release, c: Command): (s: seq<Step>)
    ensures |s| == if WritesLastUp(c) then 2 else 1
    ensures s[0] == Step(MainCall(env, t, h, dir, r, c), Some(ControlFailed))
  {
    [Step(MainCall(env, t, h, dir, r, c), Some(ControlFailed))]
      + if WritesLastUp(c) then [Step(LastUpCall(env, h, dir, r), None)] else []
  }

  /** One host: home directory, handover, control command, `last-up`. */
  function HostRun(env: Env, o: Oracle, r: Release, c: Command, t: seq<Call>, h: SshUserHost): (run: Run<()>)
    ensures |run.calls| > 0 && run.calls[0] == SshCall(h, "echo $HOME")
  {
    var home := GetSshHome(o, t, h);
    match home.result
    case Err(e) => Run(home.calls, Err(e))
    case Ok(dirHome) =>
      var dir := ReleaseDir(env, dirHome, r);
      var t1 := t + home.calls;
      var hand := Handover(env, o, t1, h, dir, c);
      if hand.result.Err? then Run(home.calls + hand.calls, hand.result)
      else
        var t2 := t1 + hand.calls;
        var rest := RunSteps(o, t2, ControlSteps(env, t2, h, dir, r, c));
        Run(home.calls + hand.calls + rest.calls, rest.result)
  }

  function OnHost(env: Env, o: Oracle, r: Release, c: Command): HostStep {
    (t, h) => HostRun(env, o, r, c, t, h)
  }

  function BackControl(env: Env, o: Oracle, hosts: seq<SshUserHost>, r: Release, c: Command, t: seq<Call>): (run: Run<()>)
    ensures hosts == [] ==> run == Run([], Ok(()))
  {
    ForEachHost(hosts, OnHost(env, o, r, c), t)
  }

  /** Once the handover is through, a host's run is its home query, the
      handover and the run of the control steps. */
  lemma AfterHandover(env: Env, o: Oracle, r: Release, c: Command, t: seq<Call>, h: SshUserHost)
    requires GetSshHome(o, t, h).result.Ok?
    requires var home := GetSshHome(o, t, h);
      Handover(env, o, t + home.calls, h, ReleaseDir(env, home.result.value, r), c).result.Ok?
    ensures var home := GetSshHome(o, t, h);
      var dir := ReleaseDir(env, home.result.value, r);
      var hand := Handover(env, o, t + home.calls, h, dir, c);
      var t2 := t + home.calls + hand.calls;
      var rest := RunSteps(o, t2, ControlSteps(env, t2, h, dir, r, c));
      HostRun(env, o, r, c, t, h) == Run(home.calls + hand.calls + rest.calls, rest.result)
  {
  }

  lemma HandoverFails(env: Env, o: Oracle, r: Release, c: Command, t: seq<Call>, h: SshUserHost)
    requires GetSshHome(o, t, h).result.Ok?
    requires var home := GetSshHome(o, t, h);
      Handover(env, o, t + home.calls, h, ReleaseDir(env, home.result.value, r), c).result.Err?
    ensures HostRun(env, o, r, c, t, h).result.Err?
  {
  }

  /** The control steps on their own: a failing control command stops them
      with `ControlFailed`; otherwise the `last-up` write follows for `up` and
      `down_up`, and only a write that cannot start fails them. */
  lemma ControlStepsRun(env: Env, o: Oracle, t2: seq<Call>, h: SshUserHost, dir: string, r: Release, c: Command)
    ensures var main := MainCall(env, t2, h, dir, r, c);
      var last := LastUpCall(env, h, dir, r);
      var s := o(t2, main).status;
      RunSteps(o, t2, ControlSteps(env, t2, h, dir, r, c)) ==
        if !Succeeded(s) then Run([main], Outcome(s, Some(ControlFailed)))
        else if WritesLastUp(c) then Run([main, last], Outcome(o(t2 + [main], last).status, None))
        else Run([main], Ok(()))
  {
    var steps := ControlSteps(env, t2, h, dir, r, c);
    var main := steps[0].call;
    var tail := RunSteps(o, t2 + [main], steps[1..]);
    if WritesLastUp(c) {
      var last := LastUpCall(env, h, dir, r);
      assert steps[1..] == [Step(last, None)];
      SingleStep(o, t2 + [main], Step(last, None));
      assert [main] + [last] == [main, last];
    } else {
      assert steps[1..] == [];
      assert tail == Run([], Ok(()));
      assert [main] + [] == [main];
    }
    assert RunSteps(o, t2, steps) == if !Succeeded(o(t2, main).status) then Run([main], Outcome(o(t2, main).status, Some(ControlFailed)))
      else Run([main] + tail.calls, tail.result);
  }

  lemma ControlStepsOk(env: Env, o: Oracle, t2: seq<Call>, h: SshUserHost, dir: string, r: Release, c: Command)
    ensures var main := MainCall(env, t2, h, dir, r, c);
      var last := LastUpCall(env, h, dir, r);
      var rest := RunSteps(o, t2, ControlSteps(env, t2, h, dir, r, c));
      && (rest.result.Ok? <==>
            Succeeded(o(t2, main).status) && (WritesLastUp(c) ==> o(t2 + [main], last).status != NotStarted))
      && (rest.result.Ok? ==> rest.calls == if WritesLastUp(c) then [main, last] else [main])
  {
    ControlStepsRun(env, o, t2, h, dir, r, c);
  }

  lemma AppendControlCalls(pre: seq<Call>, rest: Run<()>, main: Call, last: Call, writes: bool)
    requires rest.result.Ok? ==> rest.calls == if writes then [main, last] else [main]
    ensures rest.result.Ok? ==> pre + rest.calls == pre + [main] + (if writes then [last] else [])
  {
    if writes {
      assert [main, last] == [main] + [last];
    }
  }

  /** A host ends `Ok` exactly when its home directory is read, the handover
      does not hit a process that cannot start, the control command exits 0,
      and the `last-up` write (for `up` and `down_up`) at least starts. Its
      calls are then the home query, the handover, the control command and the
      `last-up` write, in that order. */
  lemma HostRunOk(env: Env, o: Oracle, r: Release, c: Command, t: seq<Call>, h: SshUserHost)
    requires GetSshHome(o, t, h).result.Ok?
    ensures var home := GetSshHome(o, t, h);
      var dir := ReleaseDir(env, home.result.value, r);
      var t1 := t + home.calls;
      var hand := Handover(env, o, t1, h, dir, c);
      var t2 := t1 + hand.calls;
      var main := MainCall(env, t2, h, dir, r, c);
      var last := LastUpCall(env, h, dir, r);
      var run := HostRun(env, o, r, c, t, h);
      && (run.result.Ok? <==>
            && hand.result.Ok?
            && Succeeded(o(t2, main).status)
            && (WritesLastUp(c) ==> o(t2 + [main], last).status != NotStarted))
      && (run.result.Ok? ==>
            run.calls == home.calls + hand.calls + [main] + (if WritesLastUp(c) then [last] else []))
  {
    var home := GetSshHome(o, t, h);
    var dir := ReleaseDir(env, home.result.value, r);
    var hand := Handover(env, o, t + home.calls, h, dir, c);
    if hand.result.Ok? {
      HandoverPassed(env, o, r, c, t, h, home, dir, hand);
    } else {
      HandoverFails(env, o, r, c, t, h);
    }
  }

  lemma HandoverPassed(env: Env, o: Oracle, r: Release, c: Command, t: seq<Call>, h: SshUserHost,
                       home: Run<string>, dir: string, hand: Run<()>)
    requires home == GetSshHome(o, t, h) && home.result.Ok?
    requires dir == ReleaseDir(env, home.result.value, r)
    requires hand == Handover(env, o, t + home.calls, h, dir, c) && hand.result.Ok?
    ensures var t2 := t + home.calls + hand.calls;
      var main := MainCall(env, t2, h, dir, r, c);
      var last := LastUpCall(env, h, dir, r);
      var run := HostRun(env, o, r, c, t, h);
      && (run.result.Ok? <==>
            Succeeded(o(t2, main).status) && (WritesLastUp(c) ==> o(t2 + [main], last).status != NotStarted))
      && (run.result.Ok? ==>
            run.calls == home.calls + hand.calls + [main] + (if WritesLastUp(c) then [last] else []))
  {
    var t2 := t + home.calls + hand.calls;
    AfterHandover(env, o, r, c, t, h);
    ControlStepsOk(env, o, t2, h, dir, r, c);
    var rest := RunSteps(o, t2, ControlSteps(env, t2, h, dir, r, c));
    AppendControlCalls(home.calls + hand.calls, rest, MainCall(env, t2, h, dir, r, c), LastUpCall(env, h, dir, r), WritesLastUp(c));
  }

  /** A control command that fails stops the run on that host right after it:
      `last-up` is not touched, and the failure is `ControlFailed`. */
  lemma ControlFailureStops(env: Env, o: Oracle, r: Release, c: Command, t: seq<Call>, h: SshUserHost)
    requires GetSshHome(o, t, h).result.Ok?
    requires var home := GetSshHome(o, t, h);
      var dir := ReleaseDir(env, home.result.value, r);
      var hand := Handover(env, o, t + home.calls, h, dir, c);
      && hand.result.Ok?
      && o(t + home.calls + hand.calls, MainCall(env, t + home.calls + hand.calls, h, dir, r, c)).status !in {Exited(0), NotStarted}
    ensures var home := GetSshHome(o, t, h);
      var dir := ReleaseDir(env, home.result.value, r);
      var hand := Handover(env, o, t + home.calls, h, dir, c);
      HostRun(env, o, r, c, t, h) ==
        Run(home.calls + hand.calls + [MainCall(env, t + home.calls + hand.calls, h, dir, r, c)], Err(ControlFailed))
  {
    var home := GetSshHome(o, t, h);
    var dir := ReleaseDir(env, home.result.value, r);
    var hand := Handover(env, o, t + home.calls, h, dir, c);
    AfterHandover(env, o, r, c, t, h);
    ControlStepsRun(env, o, t + home.calls + hand.calls, h, dir, r, c);
  }

  /** Within the control command the audit line is appended exactly when the
      `cd` into the release directory succeeds, and the docker-compose snippet
      runs exactly when the audit line was appended too: the log records every
      attempt that reached the release directory, successful or not. These
      are instances of `StartedIffPredecessorsSucceed` at fixed chain
      positions; `ok` is a hypothesis about the stages, not tied to the ssh
      call's exit status. */
  lemma AuditBeforeSnippet(env: Env, t: seq<Call>, dir: string, r: Release, c: Command, ok: nat -> bool)
    ensures var stages := MainStages(env, t, dir, r, c);
      && (1 < Started(stages, ok) <==> ok(0))
      && (2 < Started(stages, ok) <==> ok(0) && ok(1))
  {
    var stages := MainStages(env, t, dir, r, c);
    StartedIffPredecessorsSucceed(stages, ok, 1);
    StartedIffPredecessorsSucceed(stages, ok, 2);
  }

  /** What an `up` of release `prev` writes to `last-up` is the folder a later
      `down_up` shuts down: reading back the echoed line (with its newline)
      gives `cd {dir:?}/../{ref}-{short_sha} && docker-compose down` for
      `prev`. The trim leaves the name intact because a release name holds
      no blank. */
  lemma HandoverFollowsLastUp(env: Env, o: Oracle, t: seq<Call>, h: SshUserHost, dir: string, prev: Release)
    requires o(t, CatLastUp(env, h, dir)) == Reply(Exited(0), ReleaseName(prev) + "\n")
    ensures Handover(env, o, t, h, dir, DownAndUp).calls == [CatLastUp(env, h, dir), DownCall(env, h, dir, ReleaseName(prev))]
  {
    var name := ReleaseName(prev);
    ReleaseNameClean(prev);
    assert !IsSpace(name[0]) && !IsSpace(name[|name| - 1]);
    TrimEchoed(name);
  }

  lemma TrimEchoed(x: string)
    requires |x| > 0 && !IsSpace(x[0]) && !IsSpace(x[|x| - 1])
    ensures Trim(x + "\n") == x
  {
    var y := x + "\n";
    assert y[0] == x[0];
    assert TrimStart(y) == y;
    assert y[..|y| - 1] == x;
    assert TrimEnd(y) == TrimEnd(x);
  }

  /** The folder the handover reaches through `{dir}/..` is the release
      directory of `prev`. */
  lemma HandoverTarget(env: Env, home: string, r: Release, prev: Release)
    requires prev.name == r.name && prev.projectId == r.projectId
    ensures var parent := DirName(ReleaseDir(env, home, r));
      parent.Some? && parent.value + "/" + ReleaseName(prev) == ReleaseDir(env, home, prev)
  {
    ParentOfReleaseDir(env, home, r);
  }

  /** A successful control has, on every host, run the control command with
      exit 0 after the calls of the hosts before it. */
  lemma ControlledEverywhere(env: Env, o: Oracle, hosts: seq<SshUserHost>, r: Release, c: Command, t: seq<Call>, i: nat)
    requires i < |hosts|
    requires BackControl(env, o, hosts, r, c, t).result.Ok?
    ensures var t0 := t + CallsBefore(hosts, OnHost(env, o, r, c), t, i);
      var home := GetSshHome(o, t0, hosts[i]);
      && home.result.Ok?
      && var dir := ReleaseDir(env, home.result.value, r);
         var hand := Handover(env, o, t0 + home.calls, hosts[i], dir, c);
         var t2 := t0 + home.calls + hand.calls;
         && hand.result.Ok?
         && Succeeded(o(t2, MainCall(env, t2, hosts[i], dir, r, c)).status)
  {
    var step := OnHost(env, o, r, c);
    ForEachHostOk(hosts, step, t);
    var t0 := t + CallsBefore(hosts, step, t, i);
    assert step(t0, hosts[i]).result.Ok?;
    HostRunOk(env, o, r, c, t0, hosts[i]);
  }
}

=== FILE: back_deploy.dfy ===
/** `back_deploy`: the release of a back-end project is prepared once on this
    machine (archive download, validation, image build), then every host of
    the phase gets the release directory, the compose file, the image archive,
    and loads the image into docker. */
module BackDeploy {
  import opened Text
  import opened Validators
  import opened SshUserHosts
  import opened Remote
  import opened Runs
  import opened Layout

  /** What the local preparation hands to the host loop: the image name and
      the compose file text from `deploy/`. */
  datatype Prepared = Prepared(image: ImageName, compose: string)

  /** `deploy/{image}.tar.zst`, relative to the temporary directory. */
  function LocalTarball(image: ImageName): string {
    "deploy/" + image + ".tar.zst"
  }

  function ComposePath(dir: string): string {
    dir + "/docker-compose.yml"
  }

  function RemoteTarball(dir: string, image: ImageName): string {
    dir + "/" + image + ".tar.zst"
  }

  /** The four calls made on a host once its home directory is known. The
      compose path is interpolated unquoted, as the tool does. */
  function Steps(env: Env, r: Release, p: Prepared, h: SshUserHost, home: string): (s: seq<Step>)
    ensures |s| == 4 && AllFatal(s)
  {
    var dir := ReleaseDir(env, home, r);
    [ Step(SshCall(h, "mkdir -p " + env.quote(dir)), Some(CannotCreateDirectory(dir))),
      Step(Call(SshArgv(h, "cat - > " + ComposePath(dir)), Text(p.compose)),
           Some(CannotCreateComposeFile(ComposePath(dir)))),
      Step(Call(ScpArgv(h, LocalTarball(p.image), RemoteTarball(dir, p.image)), Inherited),
           Some(CannotCopy(LocalTarball(p.image), RemoteTarball(dir, p.image)))),
      Step(Call(SshArgv(h, "docker image load"), PipedFrom(["zstd", "-d", "-c", "-f", LocalTarball(p.image)])),
           Some(CannotDeployImage)) ]
  }

  function StepsFor(env: Env, r: Release, p: Prepared): (SshUserHost, string) -> seq<Step> {
    (h, home) => Steps(env, r, p, h, home)
  }

  function OnHost(env: Env, o: Oracle, r: Release, p: Prepared): HostStep {
    HomeStep(o, StepsFor(env, r, p))
  }

  function BackDeploy(env: Env, o: Oracle, hosts: seq<SshUserHost>, r: Release, prepared: Result<Prepared, Failure>, t: seq<Call>): (run: Run<()>)
    ensures hosts == [] ==> run == Run([], Ok(()))
    ensures hosts != [] && prepared.Err? ==> run == Run([], Err(prepared.error))
  {
    Deploy(hosts, prepared, p => OnHost(env, o, r, p), t)
  }

  /** The image load is the last call on a host, and it streams the same
      archive that was copied to the release directory. */
  lemma StepsShape(env: Env, r: Release, p: Prepared, h: SshUserHost, home: string)
    ensures var s := Steps(env, r, p, h, home);
      var dir := ReleaseDir(env, home, r);
      && s[1].call.stdin == Text(p.compose)
      && s[2].call.argv[7] == LocalTarball(p.image)
      && s[2].call.argv[8] == UserHost(h) + ":" + RemoteTarball(dir, p.image)
      && s[3].call.stdin == PipedFrom(["zstd", "-d", "-c", "-f", s[2].call.argv[7]])
      && StartsWith(RemoteTarball(dir, p.image), dir + "/")
  {
    var dir := ReleaseDir(env, home, r);
    ScpArgvFields(h, LocalTarball(p.image), RemoteTarball(dir, p.image));
    assert RemoteTarball(dir, p.image)[..|dir| + 1] == dir + "/";
  }

  /** A successful deployment has, on every host, read the home directory and
      then issued all four steps, each exiting 0; in particular each host
      loaded the image. */
  lemma DeployedEverywhere(env: Env, o: Oracle, hosts: seq<SshUserHost>, r: Release, p: Prepared, t: seq<Call>, i: nat)
    requires i < |hosts|
    requires BackDeploy(env, o, hosts, r, Ok(p), t).result.Ok?
    ensures var before := CallsBefore(hosts, OnHost(env, o, r, p), t, i);
      var home := GetSshHome(o, t + before, hosts[i]);
      && home.result.Ok?
      && before + home.calls + CallsOf(Steps(env, r, p, hosts[i], home.result.value)) <= BackDeploy(env, o, hosts, r, Ok(p), t).calls
      && var list := CallsOf(Steps(env, r, p, hosts[i], home.result.value));
         forall k | 0 <= k < |list| :: Succeeded(StatusAt(o, t + before + home.calls, list, k))
  {
    HomeLoopDone(o, hosts, StepsFor(env, r, p), t, i);
  }
}

=== FILE: back_develop.dfy ===
/** `back_develop`: brings up a develop environment of a back-end project on
    one host. The project is cloned into its develop root on first use and
    pulled afterwards; the `deploy/` files are checked before
    `deploy/develop-up.sh` runs. */
module BackDevelop {
  import opened Text
  import opened Validators
  import opened SshUserHosts
  import opened Remote
  import opened Runs
  import opened Layout
  import opened DeployCheck

  /** What the command line supplies. The project path and the reference are
      free-form lines; the URL prefix is `git@host[:port]`-shaped. */
  datatype Develop = Develop(name: Name, projectId: nat, projectPath: string, reference: string, urlPrefix: string)

  /** `{prefix}/{path}.git`. */
  function RepositoryUrl(d: Develop): string {
    d.urlPrefix + "/" + d.projectPath + ".git"
  }

  /** `cd`, run `develop-down.sh` ignoring its failure, check out, pull. */
  function PullStages(env: Env, root: string, d: Develop): seq<string> {
    [ "cd " + env.quote(root),
      "(bash 'deploy/develop-down.sh' || true)",
      "git checkout " + env.quote(d.reference),
      "git pull origin " + env.quote(d.reference) ]
  }

  /** Create the root, enter it, clone into it, check out. */
  function CloneStages(env: Env, root: string, d: Develop): seq<string> {
    [ "mkdir -p " + env.quote(root),
      "cd " + env.quote(root),
      "git clone --recursive " + env.quote(RepositoryUrl(d)) + " .",
      "git checkout " + env.quote(d.reference) ]
  }

  function PullCall(env: Env, h: SshUserHost, root: string, d: Develop): Call {
    SshCall(h, Chain(PullStages(env, root, d)))
  }

  function CloneCall(env: Env, h: SshUserHost, root: string, d: Develop): Call {
    SshCall(h, Chain(CloneStages(env, root, d)))
  }

  function UpCall(env: Env, h: SshUserHost, root: string): Call {
    SshCall(h, "cd " + env.quote(root) + " && bash 'deploy/develop-up.sh'")
  }

  /** An existing checkout is first checked, then pulled. */
  function Pull(env: Env, o: Oracle, t: seq<Call>, h: SshUserHost, root: string, d: Develop): (r: Run<()>)
    ensures |r.calls| > 0 && r.calls[0] == CheckCalls(env, h, root)[0]
  {
    var check := CheckBackDeploy(env, o, t, h, root);
    if check.result.Err? then Run(check.calls, Err(check.result.error))
    else
      var pull := PullCall(env, h, root, d);
      Run(check.calls + [pull], Outcome(o(t + check.calls, pull).status, Some(CannotPull(d.reference))))
  }

  /** A missing checkout is cloned. */
  function Clone(env: Env, o: Oracle, t: seq<Call>, h: SshUserHost, root: string, d: Develop): (r: Run<()>)
    ensures r.calls == [CloneCall(env, h, root, d)]
  {
    var clone := CloneCall(env, h, root, d);
    Run([clone], Outcome(o(t, clone).status, Some(CannotClone(RepositoryUrl(d), d.reference))))
  }

  /** After the checkout: check the deploy files again and run `develop-up.sh`. */
  function Up(env: Env, o: Oracle, t: seq<Call>, h: SshUserHost, root: string): (r: Run<()>)
    ensures |r.calls| > 0 && r.calls[0] == CheckCalls(env, h, root)[0]
  {
    var check := CheckBackDeploy(env, o, t, h, root);
    if check.result.Err? then Run(check.calls, Err(check.result.error))
    else
      var up := UpCall(env, h, root);
      Run(check.calls + [up], Outcome(o(t + check.calls, up).status, Some(DevelopUpFailed)))
  }

  /** An existing checkout is pulled, a missing one cloned. */
  function Fetch(env: Env, o: Oracle, t: seq<Call>, h: SshUserHost, root: string, d: Develop, present: bool): (r: Run<()>)
    ensures |r.calls| > 0
    ensures r.calls[0] == if present then CheckCalls(env, h, root)[0] else CloneCall(env, h, root, d)
  {
    if present then Pull(env, o, t, h, root, d) else Clone(env, o, t, h, root, d)
  }

  /** Everything after the home directory is known. */
  function AtRoot(env: Env, o: Oracle, t: seq<Call>, h: SshUserHost, root: string, d: Develop): (r: Run<()>)
    ensures |r.calls| > 0 && r.calls[0] == SshCall(h, TestCommand(env, IsDirectory, root + "/.git"))
  {
    var exist := CheckExist(env, o, t, h, IsDirectory, root + "/.git");
    match exist.result
    case Err(e) => Run(exist.calls, Err(e))
    case Ok(present) =>
      var fetch := Fetch(env, o, t + exist.calls, h, root, d, present);
      if fetch.result.Err? then Run(exist.calls + fetch.calls, fetch.result)
      else
        var up := Up(env, o, t + exist.calls + fetch.calls, h, root);
        Run(exist.calls + fetch.calls + up.calls, up.result)
  }

  function BackDevelop(env: Env, o: Oracle, h: SshUserHost, d: Develop, t: seq<Call>): (r: Run<()>)
    ensures |r.calls| > 0 && r.calls[0] == SshCall(h, "echo $HOME")
  {
    var home := GetSshHome(o, t, h);
    match home.result
    case Err(e) => Run(home.calls, Err(e))
    case Ok(dirHome) =>
      var rest := AtRoot(env, o, t + home.calls, h, ProjectDir(env, dirHome, d.name, d.projectId), d);
      Run(home.calls + rest.calls, rest.result)
  }

  /** The project is cloned exactly when its develop root has no `.git`
      directory; otherwise the deploy files are checked before anything else
      happens to the checkout. Either way the call after the `.git` test
      decides it. */
  lemma CloneIffNoCheckout(env: Env, o: Oracle, t: seq<Call>, h: SshUserHost, root: string, d: Develop)
    ensures var exist := CheckExist(env, o, t, h, IsDirectory, root + "/.git");
      var r := AtRoot(env, o, t, h, root, d);
      && (exist.result.Ok? ==> |r.calls| > 1)
      && (exist.result == Ok(false) <==> exist.result.Ok? && r.calls[1] == CloneCall(env, h, root, d))
      && (exist.result == Ok(true) ==> r.calls[1] == CheckCalls(env, h, root)[0])
  {
    var exist := CheckExist(env, o, t, h, IsDirectory, root + "/.git");
    if exist.result == Ok(true) {
      assert CheckCalls(env, h, root)[0].argv[8] != CloneCall(env, h, root, d).argv[8] by {
        assert CheckCalls(env, h, root)[0].argv[8][0] == 't';
        assert CloneCall(env, h, root, d).argv[8][0] == 'm';
      }
    }
  }

  /** A develop run succeeds exactly when the root is inspected, the checkout
      is pulled or cloned, and the up part (see `UpOk`) succeeds; its calls are
      then those three parts in that order. A failed `.git` test or fetch
      ends the run there, before the up part. */
  lemma DevelopOk(env: Env, o: Oracle, t: seq<Call>, h: SshUserHost, root: string, d: Develop)
    ensures var exist := CheckExist(env, o, t, h, IsDirectory, root + "/.git");
      var t2 := t + exist.calls;
      var fetch := Fetch(env, o, t2, h, root, d, exist.result == Ok(true));
      var up := Up(env, o, t2 + fetch.calls, h, root);
      var r := AtRoot(env, o, t, h, root, d);
      && (r.result.Ok? <==> exist.result.Ok? && fetch.result.Ok? && up.result.Ok?)
      && (r.result.Ok? ==> r.calls == exist.calls + fetch.calls + up.calls)
      && (r.result.Err? && exist.result.Ok? && fetch.result.Ok? ==> r.result == up.result)
      && (exist.result.Err? ==> r == Run(exist.calls, Err(exist.result.error)))
      && (exist.result.Ok? && fetch.result.Err? ==> r == Run(exist.calls + fetch.calls, fetch.result))
  {
  }

  /** The up script runs only after the deploy files pass their second check:
      a failed check ends the run with its own calls and error. The run ends
      `Ok` exactly when the script then exits 0. */
  lemma UpOk(env: Env, o: Oracle, t: seq<Call>, h: SshUserHost, root: string)
    ensures var check := CheckBackDeploy(env, o, t, h, root);
      var r := Up(env, o, t, h, root);
      && (r.result.Ok? <==> check.result.Ok? && Succeeded(o(t + check.calls, UpCall(env, h, root)).status))
      && (r.result.Ok? ==> r.calls == CheckCalls(env, h, root) + [UpCall(env, h, root)])
      && (check.result.Err? ==> r == Run(check.calls, Err(check.result.error)))
  {
    CheckBackDeployOk(env, o, t, h, root);
  }

  /** An existing checkout is pulled only after its deploy files pass the
      check: a failed check ends the run with its own calls and error. A
      failing pull names the reference. */
  lemma PullOk(env: Env, o: Oracle, t: seq<Call>, h: SshUserHost, root: string, d: Develop)
    ensures var check := CheckBackDeploy(env, o, t, h, root);
      var r := Pull(env, o, t, h, root, d);
      var status := o(t + check.calls, PullCall(env, h, root, d)).status;
      && (r.result.Ok? <==> check.result.Ok? && Succeeded(status))
      && (r.result.Ok? ==> r.calls == CheckCalls(env, h, root) + [PullCall(env, h, root, d)])
      && (check.result.Ok? && status !in {Exited(0), NotStarted} ==> r.result == Err(CannotPull(d.reference)))
      && (check.result.Err? ==> r == Run(check.calls, Err(check.result.error)))
  {
    CheckBackDeployOk(env, o, t, h, root);
  }

  /** In a pull the checkout and pull run exactly when `cd` succeeds: the
      `develop-down.sh` stage is wrapped in `|| true`, so its failure does not
      hold them back. In a clone nothing is checked out unless the clone
      succeeded. These are instances of `StartedIffPredecessorsSucceed` at
      fixed chain positions; `ok` is a hypothesis about the stages, not tied
      to the ssh call's exit status. */
  lemma StageOrder(env: Env, root: string, d: Develop, ok: nat -> bool)
    ensures ShellOutcomes(PullStages(env, root, d), ok) ==> (2 < Started(PullStages(env, root, d), ok) <==> ok(0))
    ensures 3 < Started(CloneStages(env, root, d), ok) <==> ok(0) && ok(1) && ok(2)
  {
    assert Forgiving(PullStages(env, root, d)[1]);
    StartedIffPredecessorsSucceed(PullStages(env, root, d), ok, 2);
    StartedIffPredecessorsSucceed(CloneStages(env, root, d), ok, 3);
  }
}

=== FILE: command.dfy ===
/** The closed set of lifecycle commands of the back-end control flow. */
module Commands {
  import opened Text

  datatype Command = Up | Stop | Down | Logs | DownAndUp

  /** The lower-case spellings the parser accepts for each command. */
  function Spellings(c: Command): set<string> {
    match c
    case Up => {"start", "up"}
    case Stop => {"stop"}
    case Down => {"down"}
    case Logs => {"log", "logs"}
    case DownAndUp => {"down_up", "restart"}
  }

  /** `Command::parse_str`: the input is lower-cased (ASCII only) and looked up
      among the spellings; anything else is an error. */
  function Parse(s: string): (r: Option<Command>)
    ensures r.Some? ==> ToAsciiLower(s) in Spellings(r.value)
    ensures r.None? ==> forall c: Command :: ToAsciiLower(s) !in Spellings(c)
  {
    var l := ToAsciiLower(s);
    if l == "start" || l == "up" then Some(Up)
    else if l == "stop" then Some(Stop)
    else if l == "down" then Some(Down)
    else if l == "log" || l == "logs" then Some(Logs)
    else if l == "down_up" || l == "restart" then Some(DownAndUp)
    else None
  }

  /** `Command::as_str`: the canonical name, written to the audit log. */
  function AsStr(c: Command): string {
    match c
    case Up => "up"
    case Stop => "stop"
    case Down => "down"
    case Logs => "logs"
    case DownAndUp => "down_up"
  }

  const UP_START: string := "docker-compose up -d --build"

  /** A best-effort, ten-second tail of the logs after starting. */
  const LOG_TAIL: string := "(timeout 10 docker-compose logs -f || true)"

  const UP_SNIPPET: string := UP_START + " && " + LOG_TAIL

  /** `Command::get_command_str`: the shell snippet run in the release directory. */
  function Snippet(c: Command): string {
    match c
    case Up | DownAndUp => UP_SNIPPET
    case Stop => "docker-compose stop"
    case Down => "docker-compose down"
    case Logs => "docker-compose logs"
  }

  /** Parsing the canonical name gives the command back. */
  lemma ParseAsStr(c: Command)
    ensures Parse(AsStr(c)) == Some(c)
  {
    var s := AsStr(c);
    assert ToAsciiLower(s) == s;
  }

  /** Distinct commands have distinct canonical names. */
  lemma AsStrInjective(a: Command, b: Command)
    requires AsStr(a) == AsStr(b)
    ensures a == b
  {
    ParseAsStr(a);
    ParseAsStr(b);
  }

  /** Parsing ignores ASCII case. */
  lemma ParseIgnoresCase(s: string, t: string)
    requires EqualIgnoringAsciiCase(s, t)
    ensures Parse(s) == Parse(t)
  {
    LowerOfCaseInsensitiveEqual(s, t);
  }

  /** For example `RESTART` and `Start`. */
  lemma ParseExamples()
    ensures Parse("RESTART") == Some(DownAndUp)
    ensures Parse("Start") == Some(Up)
    ensures Parse("restarts").None?
  {
    assert ToAsciiLower("RESTART") == "restart";
    assert ToAsciiLower("Start") == "start";
  }

  /** Every accepted spelling parses to its own command, and the spellings of
      different commands are disjoint. */
  lemma ParseSpellings(c: Command, s: string)
    requires s in Spellings(c)
    ensures Parse(s) == Some(c)
  {
    assert ToAsciiLower(s) == s;
  }

  /** Up and DownAndUp share the start-and-tail snippet; the other three run
      plain `docker-compose <name>`. */
  lemma SnippetShapes(c: Command)
    ensures c in {Up, DownAndUp} ==> Snippet(c) == Snippet(Up) && StartsWith(Snippet(c), UP_START)
    ensures c in {Up, DownAndUp} ==> EndsWith(Snippet(c), LOG_TAIL)
    ensures c !in {Up, DownAndUp} ==> Snippet(c) == "docker-compose " + AsStr(c)
  {
    assert (UP_START + " && " + LOG_TAIL)[..|UP_START|] == UP_START;
    assert (UP_START + " && " + LOG_TAIL)[|UP_START| + 4..] == LOG_TAIL;
  }
}

=== FILE: decimal.dfy ===
/** Unsigned decimal numbers: Rust's `Display` for integers and
    `u64::from_str` / `u16::from_str` on a token. */
module Decimal {
  import opened Text

  const U64_LIMIT: nat := 0x1_0000_0000_0000_0000
  const U16_LIMIT: nat := 0x1_0000

  function DigitChar(d: nat): (c: char)
    requires d < 10
    ensures IsAsciiDigit(c)
  {
    ('0' as int + d) as char
  }

  function DigitValue(c: char): (d: nat)
    requires IsAsciiDigit(c)
    ensures d < 10
  {
    c as int - '0' as int
  }

  /** The value of a run of ASCII digits, leading zeros allowed. */
  function DigitsValue(s: string): nat
    requires AllDigits(s)
  {
    if |s| == 0 then 0
    else DigitsValue(s[..|s| - 1]) * 10 + DigitValue(s[|s| - 1])
  }

  /** `n.to_string()`: shortest decimal rendering, no sign, no leading zero. */
  function NatToString(n: nat): (r: string)
    ensures |r| > 0 && AllDigits(r)
    ensures |r| > 1 ==> r[0] != '0'
  {
    if n < 10 then [DigitChar(n)]
    else NatToString(n / 10) + [DigitChar(n % 10)]
  }

  /** Rust's unsigned `from_str`: an optional `+`, then one or more ASCII
      digits, whose value must be below `limit`. */
  function ParseUnsigned(s: string, limit: nat): (r: Option<nat>)
    ensures r.Some? ==> r.value < limit
    ensures r.Some? <==> (exists k | 0 <= k <= 1 :: UnsignedShape(s, k) && DigitsValue(s[k..]) < limit)
  {
    var k := if |s| > 0 && s[0] == '+' then 1 else 0;
    assert !UnsignedShape(s, 1 - k);
    if UnsignedShape(s, k) && DigitsValue(s[k..]) < limit then Some(DigitsValue(s[k..])) else None
  }

  /** `s` is `+`-prefixed digits (k == 1) or bare digits (k == 0). */
  predicate UnsignedShape(s: string, k: nat) {
    && k <= 1
    && k < |s|
    && (k == 1 <==> s[0] == '+')
    && AllDigits(s[k..])
  }

  function ParseU64(s: string): Option<nat> {
    ParseUnsigned(s, U64_LIMIT)
  }

  /** Rendering a number and parsing it back gives the number. */
  lemma {:induction false} DigitsValueOfNatToString(n: nat)
    ensures DigitsValue(NatToString(n)) == n
  {
    if n >= 10 {
      var s := NatToString(n);
      assert s[..|s| - 1] == NatToString(n / 10);
      DigitsValueOfNatToString(n / 10);
    }
  }

  /** `from_str(n.to_string()) == Ok(n)` for every value of the target width. */
  lemma ParseUnsignedOfNatToString(n: nat, limit: nat)
    requires n < limit
    ensures ParseUnsigned(NatToString(n), limit) == Some(n)
  {
    var s := NatToString(n);
    DigitsValueOfNatToString(n);
    assert s[0..] == s;
    assert UnsignedShape(s, 0);
  }

  lemma ParseU64OfNatToString(n: nat)
    requires n < U64_LIMIT
    ensures ParseU64(NatToString(n)) == Some(n)
  {
    ParseUnsignedOfNatToString(n, U64_LIMIT);
  }

  /** The rendering has no leading zero, so distinct numbers render differently. */
  lemma NatToStringInjective(m: nat, n: nat)
    requires NatToString(m) == NatToString(n)
    ensures m == n
  {
    DigitsValueOfNatToString(m);
    DigitsValueOfNatToString(n);
  }
}

=== FILE: deploy_check.dfy ===
/** `check_back_deploy_via_ssh`: before a develop environment is brought up,
    the project checked out on the host must carry `deploy/build.sh`,
    `deploy/develop-up.sh`, `deploy/develop-down.sh`, a valid
    `deploy/image-name.txt`, and a `deploy/docker-compose.yml` with a line
    `image: <that name>`. */
module DeployCheck {
  import opened Text
  import opened Validators
  import opened SshUserHosts
  import opened Remote
  import opened Runs

  // ---------------------------------------------------------------------------
  // The `(?m)^ *image: +{IMAGE_NAME} *$` match.

  predicate Blank(s: string) {
    forall i | 0 <= i < |s| :: s[i] == ' '
  }

  /** How many `' '` the string starts with. */
  function LeadingSpaces(s: string): (k: nat)
    ensures k <= |s| && Blank(s[..k])
    ensures k < |s| ==> s[k] != ' '
  {
    if |s| > 0 && s[0] == ' ' then
      var k := 1 + LeadingSpaces(s[1..]);
      assert forall i | 1 <= i < k :: s[..k][i] == s[1..][..k - 1][i - 1];
      k
    else 0
  }

  /** The string without its leading spaces. */
  function AfterSpaces(s: string): string {
    s[LeadingSpaces(s)..]
  }

  /** One line matches: spaces, `image:`, at least one space, the image name,
      spaces, and nothing else. Spaces are `' '` only, as in the pattern. */
  predicate ImageLine(line: string, img: string) {
    var rest := AfterSpaces(line);
    StartsWith(rest, "image:") && ImageTail(rest[6..], img)
  }

  predicate ImageTail(after: string, img: string) {
    var body := AfterSpaces(after);
    LeadingSpaces(after) >= 1 && StartsWith(body, img) && Blank(body[|img|..])
  }

  /** The shape the pattern describes, with `a` leading spaces and `b >= 1`
      spaces after the colon. */
  ghost predicate ImageLineShape(line: string, img: string) {
    exists a, b | 0 <= a && 1 <= b && a + 6 + b + |img| <= |line| :: ShapeAt(line, img, a, b)
  }

  predicate ShapeAt(line: string, img: string, a: nat, b: nat)
    requires a + 6 + b + |img| <= |line|
  {
    var n := a + 6 + b;
    && Blank(line[..a])
    && line[a..a + 6] == "image:"
    && Blank(line[a + 6..n])
    && line[n..n + |img|] == img
    && Blank(line[n + |img|..])
  }

  lemma LeadingSpacesAt(s: string, a: nat)
    requires a < |s| && Blank(s[..a]) && s[a] != ' '
    ensures LeadingSpaces(s) == a
  {
    var k := LeadingSpaces(s);
    assert forall i | 0 <= i < a :: s[i] == s[..a][i];
    assert forall i | 0 <= i < k :: s[i] == s[..k][i];
  }

  lemma ImageLineHasShape(line: string, img: string)
    requires ImageLine(line, img)
    ensures ImageLineShape(line, img)
  {
    var a := LeadingSpaces(line);
    var after := line[a..][6..];
    var b := LeadingSpaces(after);
    assert after == line[a + 6..];
    assert after[..b] == line[a + 6..a + 6 + b];
    assert line[a..][..6] == line[a..a + 6];
    var n := a + 6 + b;
    assert AfterSpaces(after) == line[n..];
    assert line[n..][..|img|] == line[n..n + |img|];
    assert line[n..][|img|..] == line[n + |img|..];
    assert ShapeAt(line, img, a, b);
  }

  lemma ShapeIsImageLine(line: string, img: string, a: nat, b: nat)
    requires |img| > 0 && img[0] != ' ' && 1 <= b && a + 6 + b + |img| <= |line|
    requires ShapeAt(line, img, a, b)
    ensures ImageLine(line, img)
  {
    var n := a + 6 + b;
    assert line[a] == "image:"[0];
    LeadingSpacesAt(line, a);
    var after := line[a..][6..];
    assert after == line[a + 6..];
    assert after[..b] == line[a + 6..n];
    assert after[b] == img[0];
    LeadingSpacesAt(after, b);
    assert line[a..][..6] == line[a..a + 6];
    assert AfterSpaces(after) == line[n..];
    assert line[n..][..|img|] == line[n..n + |img|];
    assert line[n..][|img|..] == line[n + |img|..];
  }

  /** The line test accepts exactly the lines of the pattern's shape, for any
      name that does not start with a space (image names never do). */
  lemma ImageLineIffShape(line: string, img: string)
    requires |img| > 0 && img[0] != ' '
    ensures ImageLine(line, img) <==> ImageLineShape(line, img)
  {
    if ImageLine(line, img) {
      ImageLineHasShape(line, img);
    }
    if ImageLineShape(line, img) {
      var a, b :| 0 <= a && 1 <= b && a + 6 + b + |img| <= |line| && ShapeAt(line, img, a, b);
      ShapeIsImageLine(line, img, a, b);
    }
  }

  /** In multi-line mode `^` and `$` match at the ends of each `\n`-separated
      line, and no part of the pattern matches `\n`: the file matches exactly
      when one of its lines does. */
  predicate ComposeMatches(compose: string, img: string) {
    exists line | line in Split(compose, '\n') :: ImageLine(line, img)
  }

  lemma ImageNameUnpadded(img: ImageName)
    ensures |img| > 0 && img[0] != ' '
  {
    assert ImageNameChar(img[0]);
  }

  // ---------------------------------------------------------------------------
  // The check on the host.

  const REQUIRED_SCRIPTS: seq<string> := ["build.sh", "develop-up.sh", "develop-down.sh"]

  function DeployPath(root: string): string {
    root + "/deploy"
  }

  /** `test -f {deploy/script:?}`. */
  function ScriptCall(env: Env, h: SshUserHost, root: string, script: string): Call {
    SshCall(h, TestCommand(env, IsFile, DeployPath(root) + "/" + script))
  }

  /** `cat {deploy:?}/{file}`. */
  function CatCall(env: Env, h: SshUserHost, root: string, file: string): Call {
    SshCall(h, "cat " + env.quote(DeployPath(root)) + "/" + file)
  }

  /** The five calls of a check that gets to the end, in order. */
  function CheckCalls(env: Env, h: SshUserHost, root: string): (r: seq<Call>)
    ensures |r| == 5
  {
    [ ScriptCall(env, h, root, REQUIRED_SCRIPTS[0]),
      ScriptCall(env, h, root, REQUIRED_SCRIPTS[1]),
      ScriptCall(env, h, root, REQUIRED_SCRIPTS[2]),
      CatCall(env, h, root, "image-name.txt"),
      CatCall(env, h, root, "docker-compose.yml") ]
  }

  /** The reply to call `i` of the check, after the calls before it. */
  function ReplyAt(env: Env, o: Oracle, t: seq<Call>, h: SshUserHost, root: string, i: nat): Reply
    requires i < 5
  {
    var calls := CheckCalls(env, h, root);
    o(t + calls[..i], calls[i])
  }

  /** A required script: present, missing (naming itself), or an error. */
  function ScriptAnswer(s: Status, h: SshUserHost, root: string, script: string): (r: Result<(), Failure>)
    ensures r.Ok? <==> Succeeded(s)
    ensures s == Exited(1) ==> r == Err(MissingDeployFile(script))
    ensures s == NotStarted ==> r == Err(Io)
  {
    match ExistAnswer(s, h, DeployPath(root) + "/" + script)
    case Err(e) => Err(e)
    case Ok(false) => Err(MissingDeployFile(script))
    case Ok(true) => Ok(())
  }

  /** `cat` of a deploy file: exit 0 gives the trimmed output; any other exit
      code, or a signal, means the file is missing. */
  function CatAnswer(reply: Reply, file: string): (r: Result<string, Failure>)
    ensures r.Ok? <==> Succeeded(reply.status)
    ensures r.Ok? ==> r.value == Trim(reply.stdout)
    ensures r.Err? ==> r.error == if reply.status == NotStarted then Io else MissingDeployFile(file)
  {
    if reply.status == NotStarted then Err(Io)
    else if Succeeded(reply.status) then Ok(Trim(reply.stdout))
    else Err(MissingDeployFile(file))
  }

  /** The image name the check reads: trimmed `image-name.txt`, validated. */
  function CheckBackDeploy(env: Env, o: Oracle, t: seq<Call>, h: SshUserHost, root: string): (r: Run<ImageName>)
    ensures 0 < |r.calls| <= 5 && r.calls == CheckCalls(env, h, root)[..|r.calls|]
  {
    var calls := CheckCalls(env, h, root);
    assert calls[..5] == calls;
    match ScriptAnswer(ReplyAt(env, o, t, h, root, 0).status, h, root, REQUIRED_SCRIPTS[0])
    case Err(e) => Run(calls[..1], Err(e))
    case Ok(_) =>
    match ScriptAnswer(ReplyAt(env, o, t, h, root, 1).status, h, root, REQUIRED_SCRIPTS[1])
    case Err(e) => Run(calls[..2], Err(e))
    case Ok(_) =>
    match ScriptAnswer(ReplyAt(env, o, t, h, root, 2).status, h, root, REQUIRED_SCRIPTS[2])
    case Err(e) => Run(calls[..3], Err(e))
    case Ok(_) =>
    match CatAnswer(ReplyAt(env, o, t, h, root, 3), "image-name.txt")
    case Err(e) => Run(calls[..4], Err(e))
    case Ok(text) =>
    match ParseImageName(text)
    case None => Run(calls[..4], Err(IncorrectDeployFile("image-name.txt")))
    case Some(img) =>
    match CatAnswer(ReplyAt(env, o, t, h, root, 4), "docker-compose.yml")
    case Err(e) => Run(calls, Err(e))
    case Ok(compose) =>
      if ComposeMatches(compose, img) then Run(calls, Ok(img)) else Run(calls, Err(ComposeImageMismatch))
  }

  /** The check passes exactly when the three scripts exist, both files can be
      read, the trimmed `image-name.txt` is a valid image name, and
      `docker-compose.yml` has an `image:` line for it; it then names that
      image and has made all five calls. */
  lemma CheckBackDeployOk(env: Env, o: Oracle, t: seq<Call>, h: SshUserHost, root: string)
    ensures var r := CheckBackDeploy(env, o, t, h, root);
      var name := Trim(ReplyAt(env, o, t, h, root, 3).stdout);
      && (r.result.Ok? <==>
            && (forall i | 0 <= i < 5 :: Succeeded(ReplyAt(env, o, t, h, root, i).status))
            && IsImageName(name)
            && ComposeMatches(Trim(ReplyAt(env, o, t, h, root, 4).stdout), name))
      && (r.result.Ok? ==> r.result.value == name && r.calls == CheckCalls(env, h, root))
  {
    assert CheckCalls(env, h, root)[..5] == CheckCalls(env, h, root);
    var ok := i requires 0 <= i < 5 => Succeeded(ReplyAt(env, o, t, h, root, i).status);
    assert (forall i | 0 <= i < 5 :: Succeeded(ReplyAt(env, o, t, h, root, i).status)) <==>
      ok(0) && ok(1) && ok(2) && ok(3) && ok(4);
  }

  /** The first failing call names the failure: a missing script or file names
      itself, and only the calls up to it were made. */
  lemma CheckBackDeployMissing(env: Env, o: Oracle, t: seq<Call>, h: SshUserHost, root: string, i: nat)
    requires i < 5
    requires forall j | 0 <= j < i :: Succeeded(ReplyAt(env, o, t, h, root, j).status)
    requires i == 4 ==> IsImageName(Trim(ReplyAt(env, o, t, h, root, 3).stdout))
    requires ReplyAt(env, o, t, h, root, i).status == Exited(1)
    ensures var r := CheckBackDeploy(env, o, t, h, root);
      && r.calls == CheckCalls(env, h, root)[..i + 1]
      && r.result == Err(MissingDeployFile((REQUIRED_SCRIPTS + ["image-name.txt", "docker-compose.yml"])[i]))
  {
    assert CheckCalls(env, h, root)[..5] == CheckCalls(env, h, root);
  }
}

=== FILE: front_control.dfy ===
/** `front_control`: on every host of the phase, finds the archive
    `front_deploy` copied into the release directory, unpacks it, and
    replaces the html directory of the front-end's public name with it. */
module FrontControl {
  import opened Text
  import opened Validators
  import opened SshUserHosts
  import opened Remote
  import opened Runs
  import opened Layout

  // ---------------------------------------------------------------------------
  // From the path `find` prints to the public name.

  function DropTrailingSlashes(p: string): (r: string)
    ensures r <= p && (|r| == 0 || r[|r| - 1] != '/')
  {
    if |p| > 0 && p[|p| - 1] == '/' then DropTrailingSlashes(p[..|p| - 1]) else p
  }

  /** `Path::file_name`: the last component, or nothing when the path is
      empty, the root, `.`, or ends in `..`. A trailing `/.` is not a
      component of its own, so `d/x/.` names `x`. */
  function FileName(path: string): (r: Option<string>)
    ensures r.Some? ==> |r.value| > 0 && Excludes(r.value, '/') && r.value !in {".", ".."}
    decreases |path|
  {
    var p := DropTrailingSlashes(path);
    match LastIndexOf(p, '/')
    case None => if p in {"", ".", ".."} then None else Some(p)
    case Some(k) =>
      var last := p[k + 1..];
      if last == "." then FileName(p[..k])
      else if last in {"", ".."} then None else Some(last)
  }

  /** The archive's file name and the public name it carries; `None` where
      either `unwrap` in the tool panics. */
  function ArchiveName(path: string): (r: Option<(string, string)>)
    ensures r.Some? ==> r.value.0 == r.value.1 + ".tar.zst" && Excludes(r.value.0, '/')
    ensures r.Some? <==> FileName(path).Some? && EndsWith(FileName(path).value, ".tar.zst")
  {
    match FileName(path)
    case None => None
    case Some(name) =>
      match StripSuffix(name, ".tar.zst")
      case None => None
      case Some(public) => Some((name, public))
  }

  /** The file name of `{dir}/{name}` is `name`, for a plain name. */
  lemma FileNameOfJoined(dir: string, name: string)
    requires |name| > 0 && Excludes(name, '/') && name !in {".", ".."}
    ensures FileName(dir + "/" + name) == Some(name)
  {
    var p := dir + "/" + name;
    assert p[|p| - 1] == name[|name| - 1];
    assert DropTrailingSlashes(p) == p;
    assert p[|dir| + 1..] == name;
    LastOccurrence(p, '/', |dir|);
  }

  /** Reading back the path of the archive `front_deploy` copied gives its
      file name and the public name it was built for. */
  lemma ArchiveNameOfDeployed(dir: string, publicName: Name)
    ensures ArchiveName(dir + "/" + publicName + ".tar.zst") == Some((publicName + ".tar.zst", publicName))
  {
    var name := publicName + ".tar.zst";
    assert Excludes(name, '/') by {
      forall i | 0 <= i < |name| ensures name[i] != '/' {
        if i < |publicName| {
          assert NameChar(publicName[i]);
        }
      }
    }
    assert |name| > 2;
    assert dir + "/" + publicName + ".tar.zst" == dir + "/" + name;
    FileNameOfJoined(dir, name);
    assert name[|name| - 8..] == ".tar.zst";
    var stripped := StripSuffix(name, ".tar.zst");
    assert stripped.Some? && stripped.value + ".tar.zst" == name;
    assert stripped.value == name[..|publicName|] == publicName;
  }

  /** `find -iname '*.tar.zst'` also lists `SITE.TAR.ZST`, but the suffix is
      then stripped case-sensitively: such an archive makes the tool panic. */
  lemma UppercaseArchivePanics(dir: string, stem: string)
    requires Excludes(stem, '/')
    ensures ArchiveName(dir + "/" + stem + ".TAR.ZST") == None
  {
    var name := stem + ".TAR.ZST";
    assert Excludes(name, '/') by {
      assert forall i | 0 <= i < |stem| :: name[i] == stem[i];
    }
    assert |name| > 2;
    assert dir + "/" + stem + ".TAR.ZST" == dir + "/" + name;
    FileNameOfJoined(dir, name);
    assert name[|name| - 1] == 'T';
  }

  // ---------------------------------------------------------------------------
  // The calls on a host.

  function FindCall(env: Env, h: SshUserHost, dir: string): Call {
    SshCall(h, "find " + env.quote(dir) + " -mindepth 1 -maxdepth 1 -iname '*.tar.zst' | head -1")
  }

  /** The eight stages of the apply command: unpack the archive into
      `public`, replace the html directory with it, remove `public`, and log
      `{timestamp} apply {ref}-{short_sha}`. */
  function ApplyStages(env: Env, t: seq<Call>, dir: string, tarball: string, html: string, r: Release): (s: seq<string>)
    ensures |s| == 8
  {
    [ "cd " + env.quote(dir),
      "(([ ! -d public ] && mkdir public) || true)",
      "(zstd -T0 -d -c " + env.quote(tarball) + " | tar -xf - -C public)",
      "mkdir -p " + env.quote(html),
      "(([ -d " + env.quote(html) + " ] && rm -r " + env.quote(html) + ") || true)",
      "cp -r public " + env.quote(html),
      "rm -r public",
      "echo \"" + env.clock(t) + " apply " + ReleaseName(r) + "\" >> " + env.quote(dir) + "/../control.log" ]
  }

  function ApplyCall(env: Env, t: seq<Call>, h: SshUserHost, dir: string, tarball: string, html: string, r: Release): Call {
    SshCall(h, Chain(ApplyStages(env, t, dir, tarball, html, r)))
  }

  /** One host: home directory, `find`, then the apply command. */
  function HostRun(env: Env, o: Oracle, r: Release, t: seq<Call>, h: SshUserHost): (run: Run<()>)
    ensures |run.calls| > 0 && run.calls[0] == SshCall(h, "echo $HOME")
  {
    var home := GetSshHome(o, t, h);
    match home.result
    case Err(e) => Run(home.calls, Err(e))
    case Ok(dirHome) =>
      var dir := ReleaseDir(env, dirHome, r);
      var t1 := t + home.calls;
      var find := FindCall(env, h, dir);
      var reply := o(t1, find);
      if reply.status == NotStarted then Run(home.calls + [find], Err(Io))
      else if !Succeeded(reply.status) || Trim(reply.stdout) == "" then Run(home.calls + [find], Err(ArchiveNotFound(dir)))
      else match ArchiveName(Trim(reply.stdout))
        case None => Run(home.calls + [find], Err(Panicked))
        case Some((tarball, publicName)) =>
          var apply := ApplyCall(env, t1 + [find], h, dir, tarball, HtmlPath(env, dirHome, publicName), r);
          Run(home.calls + [find, apply], Outcome(o(t1 + [find], apply).status, Some(CannotApply)))
  }

  function OnHost(env: Env, o: Oracle, r: Release): HostStep {
    (t, h) => HostRun(env, o, r, t, h)
  }

  function FrontControl(env: Env, o: Oracle, hosts: seq<SshUserHost>, r: Release, t: seq<Call>): (run: Run<()>)
    ensures hosts == [] ==> run == Run([], Ok(()))
  {
    ForEachHost(hosts, OnHost(env, o, r), t)
  }

  /** A host ends `Ok` exactly when `find` names an archive whose file name
      ends in `.tar.zst` and the apply command exits 0; the html directory it
      replaces is the one of the public name in that file name. A failed or
      empty `find` names the release directory, and a name without the exact
      suffix panics. */
  lemma HostRunOutcomes(env: Env, o: Oracle, r: Release, t: seq<Call>, h: SshUserHost)
    requires GetSshHome(o, t, h).result.Ok?
    ensures var home := GetSshHome(o, t, h);
      var dir := ReleaseDir(env, home.result.value, r);
      var t1 := t + home.calls;
      var find := FindCall(env, h, dir);
      var reply := o(t1, find);
      var files := Trim(reply.stdout);
      var run := HostRun(env, o, r, t, h);
      && (reply.status !in {Exited(0), NotStarted} || (Succeeded(reply.status) && files == "") ==>
            run == Run(home.calls + [find], Err(ArchiveNotFound(dir))))
      && (Succeeded(reply.status) && files != "" && ArchiveName(files).None? ==>
            run == Run(home.calls + [find], Err(Panicked)))
      && (run.result.Ok? <==>
            && Succeeded(reply.status) && ArchiveName(files).Some?
            && var (tarball, publicName) := ArchiveName(files).value;
               Succeeded(o(t1 + [find], ApplyCall(env, t1 + [find], h, dir, tarball, HtmlPath(env, home.result.value, publicName), r)).status))
  {
    var home := GetSshHome(o, t, h);
    var reply := o(t + home.calls, FindCall(env, h, ReleaseDir(env, home.result.value, r)));
    if Trim(reply.stdout) == "" {
      assert FileName("").None?;
    }
  }

  /** Fed the path of the archive `front_deploy` copied, the apply command
      unpacks that archive and replaces the html directory of its public
      name. */
  lemma AppliesDeployedArchive(env: Env, o: Oracle, r: Release, t: seq<Call>, h: SshUserHost, publicName: Name)
    requires GetSshHome(o, t, h).result.Ok?
    requires var home := GetSshHome(o, t, h);
      var dir := ReleaseDir(env, home.result.value, r);
      var reply := o(t + home.calls, FindCall(env, h, dir));
      Succeeded(reply.status) && Trim(reply.stdout) == dir + "/" + publicName + ".tar.zst"
    ensures var home := GetSshHome(o, t, h);
      var dir := ReleaseDir(env, home.result.value, r);
      var t1 := t + home.calls + [FindCall(env, h, dir)];
      HostRun(env, o, r, t, h).calls ==
        home.calls + [FindCall(env, h, dir),
                      ApplyCall(env, t1, h, dir, publicName + ".tar.zst", HtmlPath(env, home.result.value, publicName), r)]
  {
    var home := GetSshHome(o, t, h);
    var dir := ReleaseDir(env, home.result.value, r);
    ArchiveNameOfDeployed(dir, publicName);
    HostRunApplies(env, o, r, t, h, publicName + ".tar.zst", publicName);
  }

  /** When `find` names an archive, the host's calls end with the apply
      command built from that archive's name. */
  lemma HostRunApplies(env: Env, o: Oracle, r: Release, t: seq<Call>, h: SshUserHost, tarball: string, publicName: string)
    requires GetSshHome(o, t, h).result.Ok?
    requires var home := GetSshHome(o, t, h);
      var dir := ReleaseDir(env, home.result.value, r);
      var reply := o(t + home.calls, FindCall(env, h, dir));
      Succeeded(reply.status) && ArchiveName(Trim(reply.stdout)) == Some((tarball, publicName))
    ensures var home := GetSshHome(o, t, h);
      var dir := ReleaseDir(env, home.result.value, r);
      var t1 := t + home.calls + [FindCall(env, h, dir)];
      HostRun(env, o, r, t, h).calls ==
        home.calls + [FindCall(env, h, dir), ApplyCall(env, t1, h, dir, tarball, HtmlPath(env, home.result.value, publicName), r)]
  {
    NoArchiveInEmptyPath();
  }

  lemma NoArchiveInEmptyPath()
    ensures ArchiveName("").None?
  {
    assert DropTrailingSlashes("") == "";
  }

  /** In the apply command the old html directory is removed only after the
      archive was unpacked, and the `apply` line is logged exactly when every
      earlier stage succeeded; since the two `|| true` stages always succeed,
      that is exactly when `cd`, the unpack, the `mkdir -p`, the copy and the
      removal of `public` succeed. These are instances of
      `StartedIffPredecessorsSucceed` at fixed chain positions; `ok` is a
      hypothesis about the stages, not tied to the ssh call's exit status. */
  lemma ApplyOrder(env: Env, t: seq<Call>, dir: string, tarball: string, html: string, r: Release, ok: nat -> bool)
    ensures var stages := ApplyStages(env, t, dir, tarball, html, r);
      && (4 < Started(stages, ok) ==> ok(2))
      && (7 < Started(stages, ok) <==> forall i | 0 <= i < 7 :: ok(i))
      && (ShellOutcomes(stages, ok) ==> (7 < Started(stages, ok) <==> ok(0) && ok(2) && ok(3) && ok(5) && ok(6)))
  {
    var stages := ApplyStages(env, t, dir, tarball, html, r);
    assert Forgiving(stages[1]) && Forgiving(stages[4]);
    StartedIffPredecessorsSucceed(stages, ok, 4);
    StartedIffPredecessorsSucceed(stages, ok, 7);
  }

  /** A successful control has, on every host, found an archive and run the
      apply command for it with exit 0. */
  lemma AppliedEverywhere(env: Env, o: Oracle, hosts: seq<SshUserHost>, r: Release, t: seq<Call>, i: nat)
    requires i < |hosts|
    requires FrontControl(env, o, hosts, r, t).result.Ok?
    ensures var t0 := t + CallsBefore(hosts, OnHost(env, o, r), t, i);
      var home := GetSshHome(o, t0, hosts[i]);
      && home.result.Ok?
      && var dir := ReleaseDir(env, home.result.value, r);
         var reply := o(t0 + home.calls, FindCall(env, hosts[i], dir));
         && Succeeded(reply.status) && ArchiveName(Trim(reply.stdout)).Some?
         && var (tarball, publicName) := ArchiveName(Trim(reply.stdout)).value;
            var t1 := t0 + home.calls + [FindCall(env, hosts[i], dir)];
            Succeeded(o(t1, ApplyCall(env, t1, hosts[i], dir, tarball, HtmlPath(env, home.result.value, publicName), r)).status)
  {
    var step := OnHost(env, o, r);
    ForEachHostOk(hosts, step, t);
    var t0 := t + CallsBefore(hosts, step, t, i);
    assert step(t0, hosts[i]).result.Ok?;
    HostRunOutcomes(env, o, r, t0, hosts[i]);
  }
}

=== FILE: front_deploy.dfy ===
/** `front_deploy`: the public files of a front-end project are built once on
    this machine into `deploy/{public_name}.tar.zst`, then every host of the
    phase gets a release directory holding a copy of that archive. The archive
    is unpacked into place later, by `front_control`. */
module FrontDeploy {
  import opened Text
  import opened Validators
  import opened SshUserHosts
  import opened Remote
  import opened Runs
  import opened Layout

  /** `deploy/{public}.tar.zst`, relative to the temporary directory. */
  function LocalArchive(publicName: Name): string {
    "deploy/" + publicName + ".tar.zst"
  }

  function RemoteArchive(dir: string, publicName: Name): string {
    dir + "/" + publicName + ".tar.zst"
  }

  /** The two calls made on a host once its home directory is known. */
  function Steps(env: Env, r: Release, publicName: Name, h: SshUserHost, home: string): (s: seq<Step>)
    ensures |s| == 2 && AllFatal(s)
  {
    var dir := ReleaseDir(env, home, r);
    [ Step(SshCall(h, "mkdir -p " + env.quote(dir)), Some(CannotCreateDirectory(dir))),
      Step(Call(ScpArgv(h, LocalArchive(publicName), RemoteArchive(dir, publicName)), Inherited),
           Some(CannotCopy(LocalArchive(publicName), RemoteArchive(dir, publicName)))) ]
  }

  function StepsFor(env: Env, r: Release, publicName: Name): (SshUserHost, string) -> seq<Step> {
    (h, home) => Steps(env, r, publicName, h, home)
  }

  function OnHost(env: Env, o: Oracle, r: Release, publicName: Name): HostStep {
    HomeStep(o, StepsFor(env, r, publicName))
  }

  /** `prepared` is the public name `check_front_deploy` read, or the failure
      of the download, the check or the build. */
  function FrontDeploy(env: Env, o: Oracle, hosts: seq<SshUserHost>, r: Release, prepared: Result<Name, Failure>, t: seq<Call>): (run: Run<()>)
    ensures hosts == [] ==> run == Run([], Ok(()))
    ensures hosts != [] && prepared.Err? ==> run == Run([], Err(prepared.error))
  {
    Deploy(hosts, prepared, p => OnHost(env, o, r, p), t)
  }

  /** The copy keeps the archive's file name and lands inside the directory
      the first call created, on the host the loop is at. */
  lemma StepsShape(env: Env, r: Release, publicName: Name, h: SshUserHost, home: string)
    ensures var s := Steps(env, r, publicName, h, home);
      var dir := ReleaseDir(env, home, r);
      && s[0].call.argv[7] == UserHost(h)
      && s[1].call.argv[7] == LocalArchive(publicName)
      && s[1].call.argv[8] == UserHost(h) + ":" + RemoteArchive(dir, publicName)
      && RemoteArchive(dir, publicName) == dir + "/" + LocalArchive(publicName)[|"deploy/"|..]
  {
    var dir := ReleaseDir(env, home, r);
    SshArgvFields(h, "mkdir -p " + env.quote(dir));
    ScpArgvFields(h, LocalArchive(publicName), RemoteArchive(dir, publicName));
    assert LocalArchive(publicName)[|"deploy/"|..] == publicName + ".tar.zst";
  }

  /** A host whose directory cannot be created stops the deployment there,
      naming the directory; the archive is not copied to it. */
  lemma MkdirFailureStops(env: Env, o: Oracle, r: Release, publicName: Name, t: seq<Call>, h: SshUserHost)
    requires GetSshHome(o, t, h).result.Ok?
    requires var home := GetSshHome(o, t, h);
      var mkdir := Steps(env, r, publicName, h, home.result.value)[0].call;
      o(t + home.calls, mkdir).status !in {Exited(0), NotStarted}
    ensures var home := GetSshHome(o, t, h);
      var dir := ReleaseDir(env, home.result.value, r);
      OnHost(env, o, r, publicName)(t, h) ==
        Run(home.calls + [Steps(env, r, publicName, h, home.result.value)[0].call], Err(CannotCreateDirectory(dir)))
  {
  }

  /** A successful deployment has, on every host, read the home directory,
      created the release directory and copied the archive into it, both
      calls exiting 0. */
  lemma DeployedEverywhere(env: Env, o: Oracle, hosts: seq<SshUserHost>, r: Release, publicName: Name, t: seq<Call>, i: nat)
    requires i < |hosts|
    requires FrontDeploy(env, o, hosts, r, Ok(publicName), t).result.Ok?
    ensures var before := CallsBefore(hosts, OnHost(env, o, r, publicName), t, i);
      var home := GetSshHome(o, t + before, hosts[i]);
      && home.result.Ok?
      && before + home.calls + CallsOf(Steps(env, r, publicName, hosts[i], home.result.value))
           <= FrontDeploy(env, o, hosts, r, Ok(publicName), t).calls
      && var list := CallsOf(Steps(env, r, publicName, hosts[i], home.result.value));
         forall k | 0 <= k < |list| :: Succeeded(StatusAt(o, t + before + home.calls, list, k))
  {
    HomeLoopDone(o, hosts, StepsFor(env, r, publicName), t, i);
  }
}

=== FILE: layout.dfy ===
/** Where things live on a remote host, relative to the home directory that
    `get_ssh_home` reports:
      release directory  {home}/{PROJECT_DIRECTORY}/{name}-{id}/{ref}-{short_sha}
      develop root       {home}/{PROJECT_DIRECTORY}/{name}-{id}
      html directory     {home}/{SERVICE_DIRECTORY}/{public_name}/html */
module Layout {
  import opened Text
  import opened Decimal
  import opened Validators
  import opened Remote

  /** The arguments every release-addressed flow shares. The reference name is
      validated with the same pattern as the project name. */
  datatype Release = Release(name: Name, projectId: nat, reference: Name, sha: CommitSha)

  /** `{name}-{id}`: one directory per project. */
  function ProjectFolder(name: Name, projectId: nat): string {
    name + "-" + NatToString(projectId)
  }

  /** `{ref}-{short_sha}`: what `last-up` and the audit lines record. */
  function ReleaseName(r: Release): string {
    r.reference + "-" + ShortSha(r.sha)
  }

  /** `{home}/{PROJECT_DIRECTORY}/{name}-{id}`: the develop root, and the parent
      of every release directory of the project. */
  function ProjectDir(env: Env, home: string, name: Name, projectId: nat): string {
    home + "/" + env.projectDirectory + "/" + ProjectFolder(name, projectId)
  }

  function ReleaseDir(env: Env, home: string, r: Release): string {
    ProjectDir(env, home, r.name, r.projectId) + "/" + ReleaseName(r)
  }

  /** Built from the home directory, not from the project directory. */
  function HtmlPath(env: Env, home: string, publicName: string): string {
    home + "/" + env.serviceDirectory + "/" + publicName + "/html"
  }

  /** The directory part of a path: everything before its last `/`. */
  function DirName(path: string): (r: Option<string>)
    ensures r.Some? ==> StartsWith(path, r.value + "/") && Excludes(path[|r.value| + 1..], '/')
    ensures r.None? <==> Excludes(path, '/')
  {
    match LastIndexOf(path, '/')
    case None => None
    case Some(k) =>
      assert path[..k + 1] == path[..k] + "/";
      Some(path[..k])
  }

  /** The folder suffix `-{id}` is all digits, so the last `-` of a project
      folder separates the name from the id: different (name, id) pairs never
      share a directory. */
  lemma ProjectFolderInjective(n1: Name, i1: nat, n2: Name, i2: nat)
    requires ProjectFolder(n1, i1) == ProjectFolder(n2, i2)
    ensures n1 == n2 && i1 == i2
  {
    var d1, d2 := NatToString(i1), NatToString(i2);
    var s := ProjectFolder(n1, i1);
    LastDashBeforeDigits(n1, d1);
    LastDashBeforeDigits(n2, d2);
    assert n1 == s[..|n1|] && n2 == s[..|n2|];
    assert d1 == s[|n1| + 1..] && d2 == s[|n2| + 1..];
    NatToStringInjective(i1, i2);
  }

  lemma LastDashBeforeDigits(n: string, d: string)
    requires AllDigits(d)
    ensures LastIndexOf(n + "-" + d, '-') == Some(|n|)
  {
    var s := n + "-" + d;
    assert s[|n| + 1..] == d;
    LastOccurrence(s, '-', |n|);
  }

  /** Within one project, release directories coincide exactly when the
      reference names and the first eight characters of the SHAs do. */
  lemma ReleaseDirDeterminedByShortSha(env: Env, home: string, a: Release, b: Release)
    requires a.name == b.name && a.projectId == b.projectId
    ensures ReleaseDir(env, home, a) == ReleaseDir(env, home, b) <==>
      a.reference == b.reference && a.sha[..8] == b.sha[..8]
  {
    var p := ProjectDir(env, home, a.name, a.projectId);
    if ReleaseDir(env, home, a) == ReleaseDir(env, home, b) {
      assert ReleaseName(a) == ReleaseDir(env, home, a)[|p| + 1..];
      assert ReleaseName(b) == ReleaseDir(env, home, b)[|p| + 1..];
      assert |ReleaseName(a)| == |a.reference| + 9 && |ReleaseName(b)| == |b.reference| + 9;
      assert a.reference == ReleaseName(a)[..|a.reference|];
      assert b.reference == ReleaseName(b)[..|b.reference|];
      assert ShortSha(a.sha) == ReleaseName(a)[|a.reference| + 1..];
      assert ShortSha(b.sha) == ReleaseName(b)[|b.reference| + 1..];
    }
  }

  /** A release name has no `/` and no blank: both of its parts are names
      or alphanumeric. */
  lemma ReleaseNameClean(r: Release)
    ensures Excludes(ReleaseName(r), '/') && NoSpace(ReleaseName(r))
  {
    var n := ReleaseName(r);
    var s := ShortSha(r.sha);
    NameBoundaries(r.reference);
    forall i | 0 <= i < |n| ensures n[i] != '/' && !IsSpace(n[i]) {
      if i > |r.reference| {
        assert n[i] == s[i - |r.reference| - 1];
      } else if i < |r.reference| {
        assert n[i] == r.reference[i];
      }
    }
  }

  /** A project folder has no `/`. */
  lemma ProjectFolderClean(name: Name, projectId: nat)
    ensures Excludes(ProjectFolder(name, projectId), '/')
  {
    var f := ProjectFolder(name, projectId);
    var d := NatToString(projectId);
    NameBoundaries(name);
    forall i | 0 <= i < |f| ensures f[i] != '/' {
      if i > |name| {
        assert f[i] == d[i - |name| - 1];
      } else if i < |name| {
        assert f[i] == name[i];
      }
    }
  }

  /** `{dir}/..` is the project directory, where `last-up` and `control.log`
      live: the release name adds exactly one path component. */
  lemma ParentOfReleaseDir(env: Env, home: string, r: Release)
    ensures DirName(ReleaseDir(env, home, r)) == Some(ProjectDir(env, home, r.name, r.projectId))
  {
    var p := ProjectDir(env, home, r.name, r.projectId);
    var d := ReleaseDir(env, home, r);
    var n := ReleaseName(r);
    ReleaseNameClean(r);
    assert d == p + "/" + n;
    assert d[|p| + 1..] == n;
    LastOccurrence(d, '/', |p|);
    assert d[..|p|] == p;
  }

  lemma LastOccurrence(s: string, c: char, k: nat)
    requires k < |s| && s[k] == c && Excludes(s[k + 1..], c)
    ensures LastIndexOf(s, c) == Some(k)
  {
  }

  /** Two folders without `/`, each followed by `/`: one path can start with
      the other only when the folders are the same. */
  lemma SameFolder(fa: string, fb: string, rest: string)
    requires Excludes(fa, '/') && Excludes(fb, '/')
    requires StartsWith(fa + "/" + rest, fb + "/")
    ensures fa == fb
  {
    var x := fa + "/" + rest;
    assert x[|fa|] == '/' && x[|fb|] == x[..|fb| + 1][|fb|] == '/';
    assert forall i | 0 <= i < |fa| :: x[i] == fa[i] != '/';
    assert forall i | 0 <= i < |fb| :: x[i] == x[..|fb| + 1][i] == fb[i] != '/';
    assert |fa| == |fb|;
    assert fa == x[..|fb| + 1][..|fb|];
  }

  /** A release directory lies inside the directory of its own project and of
      no other: `{home}/{PROJECT_DIRECTORY}/{name}-{id}/` prefixes it exactly
      when `(name, id)` is the release's project. */
  lemma ReleaseDirInsideProjectDir(env: Env, home: string, r: Release, name: Name, projectId: nat)
    ensures StartsWith(ReleaseDir(env, home, r), ProjectDir(env, home, name, projectId) + "/")
      <==> r.name == name && r.projectId == projectId
  {
    var base := home + "/" + env.projectDirectory + "/";
    var fa := ProjectFolder(r.name, r.projectId);
    var fb := ProjectFolder(name, projectId);
    var d := ReleaseDir(env, home, r);
    var q := ProjectDir(env, home, name, projectId) + "/";
    assert d == base + (fa + "/" + ReleaseName(r));
    assert q == base + (fb + "/");
    if StartsWith(d, q) {
      ProjectFolderClean(r.name, r.projectId);
      ProjectFolderClean(name, projectId);
      assert d[|base|..][..|fb| + 1] == d[..|q|][|base|..];
      assert d[|base|..] == fa + "/" + ReleaseName(r);
      SameFolder(fa, fb, ReleaseName(r));
      ProjectFolderInjective(r.name, r.projectId, name, projectId);
    }
    if r.name == name && r.projectId == projectId {
      assert d[..|q|] == q;
    }
  }

  /** Distinct public names get distinct html directories on a host, so one
      front-end never replaces another's. */
  lemma HtmlPathInjective(env: Env, home: string, p: string, q: string)
    ensures HtmlPath(env, home, p) == HtmlPath(env, home, q) <==> p == q
  {
    var pre := home + "/" + env.serviceDirectory + "/";
    if HtmlPath(env, home, p) == HtmlPath(env, home, q) {
      var x := HtmlPath(env, home, p);
      assert x == pre + p + "/html" == pre + q + "/html";
      assert |p| == |q|;
      assert p == x[|pre|..|pre| + |p|];
    }
  }
}

=== FILE: phase_file.dfy ===
/** `find_ssh_user_hosts`: the phase file `~/{PHASE_DIRECTORY}/{phase}` lists,
    one line per project, a project id followed by the `user@host[:port]`
    literals of its hosts. Text from the first `#` is a comment, blank lines
    are skipped, and a later line for the same id replaces an earlier one. */
module PhaseFile {
  import opened Text
  import opened Decimal
  import opened Validators
  import opened SshUserHosts
  import opened Remote

  /** What opening and reading the phase file gives: not found, another I/O
      error, or its lines (without line terminators). */
  datatype PhaseFileRead = Missing | Unreadable | Lines(lines: seq<string>)

  datatype Entry = Entry(projectId: nat, hosts: set<SshUserHost>)

  /** How a host literal is read. The tool uses `SshUserHost::parse_str`
      (`SshUserHosts.Parse`); the fold below holds for any literal parser. */
  type LiteralParser = string -> Option<SshUserHost>

  /** The line up to its first `#`. */
  function StripComment(line: string): (r: string)
    ensures StartsWith(line, r) && Excludes(r, '#')
    ensures r == line || line[|r|] == '#'
  {
    match IndexOf(line, '#')
    case None => line
    case Some(k) => line[..k]
  }

  /** The hosts the literals of one line denote, leaving out literals that do
      not parse. */
  function ParsedHosts(literal: LiteralParser, toks: seq<string>): set<SshUserHost> {
    set i | 0 <= i < |toks| && literal(toks[i]).Some? :: literal(toks[i]).value
  }

  /** Every literal parses, and none denotes a host already in `seen` or one
      denoted by an earlier literal. */
  predicate WellFormedHosts(literal: LiteralParser, toks: seq<string>, seen: set<SshUserHost>) {
    && (forall i | 0 <= i < |toks| :: literal(toks[i]).Some?)
    && (forall i | 0 <= i < |toks| :: literal(toks[i]).value !in seen)
    && (forall i, j | 0 <= i < j < |toks| :: literal(toks[i]).value != literal(toks[j]).value)
  }

  /** The `while let Some(user_host) = sc.next()?` loop: parse each literal and
      insert it, failing on the first literal that does not parse or whose
      host is already in the set. */
  function ParseHosts(literal: LiteralParser, toks: seq<string>, lineNo: nat, seen: set<SshUserHost>): (r: Result<set<SshUserHost>, Failure>)
    decreases |toks|
  {
    if |toks| == 0 then Ok(seen)
    else match literal(toks[0])
      case None => Err(BadHostFormat(lineNo, toks[0]))
      case Some(v) =>
        if v in seen then Err(DuplicatedHost(lineNo, toks[0]))
        else ParseHosts(literal, toks[1..], lineNo, seen + {v})
  }

  /** An error about the content of line `lineNo`. */
  predicate LineError(e: Failure, lineNo: nat) {
    (e.BadProjectId? || e.BadHostFormat? || e.DuplicatedHost?) && e.line == lineNo
  }

  /** One line: `Ok(None)` for a line with no token outside its comment, an
      entry otherwise, or the error naming the 1-based line number. */
  function ParseLine(literal: LiteralParser, line: string, lineNo: nat): (r: Result<Option<Entry>, Failure>)
    ensures r.Err? ==> LineError(r.error, lineNo)
  {
    ParseTokens(literal, Words(StripComment(line)), lineNo)
  }

  /** The tokens of one line: a `u64` project id, then the host literals. */
  function ParseTokens(literal: LiteralParser, toks: seq<string>, lineNo: nat): (r: Result<Option<Entry>, Failure>)
    ensures r.Err? ==> LineError(r.error, lineNo)
  {
    if |toks| == 0 then Ok(None)
    else match ParseU64(toks[0])
      case None => Err(BadProjectId(lineNo))
      case Some(id) =>
        ParseHostsLine(literal, toks[1..], lineNo);
        match ParseHosts(literal, toks[1..], lineNo, {})
        case Err(e) => Err(e)
        case Ok(hosts) => Ok(Some(Entry(id, hosts)))
  }

  lemma ParseHostsLine(literal: LiteralParser, toks: seq<string>, lineNo: nat)
    ensures ParseHosts(literal, toks, lineNo, {}).Err? ==> LineError(ParseHosts(literal, toks, lineNo, {}).error, lineNo)
  {
    ParseHostsSpec(literal, toks, lineNo, {});
  }

  type LineResult = Result<Option<Entry>, Failure>

  /** `f` applied to each line and its 1-based number. */
  function Numbered<T>(f: (string, nat) -> T, lines: seq<string>): (r: seq<T>)
    ensures |r| == |lines|
  {
    if |lines| == 0 then []
    else Numbered(f, lines[..|lines| - 1]) + [f(lines[|lines| - 1], |lines|)]
  }

  lemma {:induction false} NumberedAt<T>(f: (string, nat) -> T, lines: seq<string>, k: nat)
    requires k < |lines|
    ensures Numbered(f, lines)[k] == f(lines[k], k + 1)
  {
    var n := |lines| - 1;
    if k < n {
      NumberedAt(f, lines[..n], k);
      assert lines[..n][k] == lines[k];
    }
  }

  function LineParser(literal: LiteralParser): (string, nat) -> LineResult {
    (line: string, n: nat) => ParseLine(literal, line, n)
  }

  /** Each line read, with its 1-based number. */
  function ParsedLines(literal: LiteralParser, lines: seq<string>): (r: seq<LineResult>)
    ensures |r| == |lines|
  {
    Numbered(LineParser(literal), lines)
  }

  /** Entry `k` of the parsed lines is line `k` parsed with number `k + 1`. */
  lemma ParsedLinesAt(literal: LiteralParser, lines: seq<string>, k: nat)
    requires k < |lines|
    ensures ParsedLines(literal, lines)[k] == ParseLine(literal, lines[k], k + 1)
  {
    NumberedAt(LineParser(literal), lines, k);
  }

  /** The lines read so far folded into `map[id] := hosts`; the first bad line
      stops the fold. */
  function Fold(parsed: seq<LineResult>): Result<map<nat, set<SshUserHost>>, Failure>
  {
    if |parsed| == 0 then Ok(map[])
    else match Fold(parsed[..|parsed| - 1])
      case Err(e) => Err(e)
      case Ok(m) =>
        match parsed[|parsed| - 1]
        case Err(e) => Err(e)
        case Ok(None) => Ok(m)
        case Ok(Some(entry)) => Ok(m[entry.projectId := entry.hosts])
  }

  /** Line `k` (0-based) of the file parsed as line number `k + 1`. */
  function LineAt(lines: seq<string>, k: nat): LineResult
    requires k < |lines|
  {
    ParseLine(SshUserHosts.Parse, lines[k], k + 1)
  }

  /** Line `k` (0-based) of the file is a good line naming `projectId`. */
  predicate LineDefines(lines: seq<string>, k: nat, projectId: nat)
    requires k < |lines|
  {
    LineAt(lines, k).Ok? && LineAt(lines, k).value.Some? && LineAt(lines, k).value.value.projectId == projectId
  }

  /** The answer from the lines of a readable file: the hosts of the last
      line that names the project, `ProjectNotSet` when no line does, or the
      error of the first bad line, even one after the lines naming the
      project. */
  predicate AnswersFromLines(lines: seq<string>, projectId: nat, r: Result<set<SshUserHost>, Failure>) {
    && (r.Ok? <==> ((forall k | 0 <= k < |lines| :: LineAt(lines, k).Ok?) &&
                    exists k | 0 <= k < |lines| :: LineDefines(lines, k, projectId)))
    && ((forall k | 0 <= k < |lines| :: LineAt(lines, k).Ok?) && r.Err? ==> r == Err(ProjectNotSet(projectId)))
    && (forall k | 0 <= k < |lines| && LineAt(lines, k).Err? && (forall j | 0 <= j < k :: LineAt(lines, j).Ok?) ::
          r == Err(LineAt(lines, k).error))
    && ((forall j | 0 <= j < |lines| :: LineAt(lines, j).Ok?) ==>
          forall k | 0 <= k < |lines| && LineDefines(lines, k, projectId) &&
              (forall j | k < j < |lines| :: !LineDefines(lines, j, projectId)) ::
            r == Ok(LineAt(lines, k).value.value.hosts))
  }

  /** `find_ssh_user_hosts(phase, project_id)`: no file means the phase is
      not supported, and a readable file answers from its lines. */
  function Resolve(file: PhaseFileRead, phase: Phase, projectId: nat): (r: Result<set<SshUserHost>, Failure>)
    ensures file.Missing? ==> r == Err(NotSupportedPhase(phase))
    ensures file.Unreadable? ==> r == Err(PhaseFileUnreadable)
    ensures file.Lines? ==> AnswersFromLines(file.lines, projectId, r)
  {
    match file
    case Missing => Err(NotSupportedPhase(phase))
    case Unreadable => Err(PhaseFileUnreadable)
    case Lines(lines) =>
      LookupAnswersFromLines(lines, projectId);
      Lookup(ParsedLines(SshUserHosts.Parse, lines), projectId)
  }

  /** The hosts the folded lines give the project. */
  function Lookup(parsed: seq<LineResult>, projectId: nat): Result<set<SshUserHost>, Failure> {
    match Fold(parsed)
    case Err(e) => Err(e)
    case Ok(m) => if projectId in m then Ok(m[projectId]) else Err(ProjectNotSet(projectId))
  }

  // ---------------------------------------------------------------------------
  // Host literals of one line.

  lemma WellFormedHostsCons(literal: LiteralParser, toks: seq<string>, seen: set<SshUserHost>)
    requires |toks| > 0
    ensures WellFormedHosts(literal, toks, seen) <==>
      && literal(toks[0]).Some?
      && literal(toks[0]).value !in seen
      && WellFormedHosts(literal, toks[1..], seen + {literal(toks[0]).value})
  {
    var tail := toks[1..];
    assert forall i | 0 < i < |toks| :: toks[i] == tail[i - 1];
    if literal(toks[0]).Some? && WellFormedHosts(literal, tail, seen + {literal(toks[0]).value}) {
      forall i, j | 0 <= i < j < |toks|
        ensures literal(toks[i]).value != literal(toks[j]).value
      {
        if i > 0 {
          assert toks[i] == tail[i - 1] && toks[j] == tail[j - 1];
        } else {
          assert toks[j] == tail[j - 1];
        }
      }
    }
  }

  lemma ParsedHostsCons(literal: LiteralParser, toks: seq<string>)
    requires |toks| > 0 && literal(toks[0]).Some?
    ensures ParsedHosts(literal, toks) == {literal(toks[0]).value} + ParsedHosts(literal, toks[1..])
  {
    var tail := toks[1..];
    forall v | v in ParsedHosts(literal, toks) ensures v in {literal(toks[0]).value} + ParsedHosts(literal, tail) {
      var i :| 0 <= i < |toks| && literal(toks[i]).Some? && v == literal(toks[i]).value;
      if i > 0 {
        assert toks[i] == tail[i - 1];
      }
    }
    forall v | v in ParsedHosts(literal, tail) ensures v in ParsedHosts(literal, toks) {
      var i :| 0 <= i < |tail| && literal(tail[i]).Some? && v == literal(tail[i]).value;
      assert tail[i] == toks[i + 1];
    }
  }

  /** The host literals of a line are accepted exactly when they are well
      formed, giving the hosts they denote; otherwise the error names the
      line and the first literal that does not parse or repeats a host. */
  lemma ParseHostsSpec(literal: LiteralParser, toks: seq<string>, lineNo: nat, seen: set<SshUserHost>)
    ensures var r := ParseHosts(literal, toks, lineNo, seen);
      && (r.Ok? <==> WellFormedHosts(literal, toks, seen))
      && (r.Ok? ==> r.value == seen + ParsedHosts(literal, toks))
      && (r.Err? ==> exists k | 0 <= k < |toks| ::
            && WellFormedHosts(literal, toks[..k], seen)
            && (literal(toks[k]).None? ==> r.error == BadHostFormat(lineNo, toks[k]))
            && (literal(toks[k]).Some? ==>
                  literal(toks[k]).value in seen + ParsedHosts(literal, toks[..k]) &&
                  r.error == DuplicatedHost(lineNo, toks[k])))
  {
    ParseHostsOk(literal, toks, lineNo, seen);
    ParseHostsFirstError(literal, toks, lineNo, seen);
  }

  lemma {:induction false} ParseHostsOk(literal: LiteralParser, toks: seq<string>, lineNo: nat, seen: set<SshUserHost>)
    ensures var r := ParseHosts(literal, toks, lineNo, seen);
      && (r.Ok? <==> WellFormedHosts(literal, toks, seen))
      && (r.Ok? ==> r.value == seen + ParsedHosts(literal, toks))
    decreases |toks|
  {
    if |toks| == 0 {
      assert ParsedHosts(literal, toks) == {};
    } else {
      WellFormedHostsCons(literal, toks, seen);
      match literal(toks[0])
      case None =>
      case Some(v) =>
        if v !in seen {
          ParseHostsOk(literal, toks[1..], lineNo, seen + {v});
          ParsedHostsCons(literal, toks);
        }
    }
  }

  lemma {:induction false} ParseHostsFirstError(literal: LiteralParser, toks: seq<string>, lineNo: nat, seen: set<SshUserHost>)
    ensures var r := ParseHosts(literal, toks, lineNo, seen);
      r.Err? ==> exists k | 0 <= k < |toks| ::
        && WellFormedHosts(literal, toks[..k], seen)
        && (literal(toks[k]).None? ==> r.error == BadHostFormat(lineNo, toks[k]))
        && (literal(toks[k]).Some? ==>
              literal(toks[k]).value in seen + ParsedHosts(literal, toks[..k]) &&
              r.error == DuplicatedHost(lineNo, toks[k]))
    decreases |toks|
  {
    if |toks| > 0 {
      assert toks[..0] == [];
      assert ParsedHosts(literal, toks[..0]) == {};
      assert WellFormedHosts(literal, toks[..0], seen);
      match literal(toks[0])
      case None =>
      case Some(v) =>
        if v !in seen {
          var tail := toks[1..];
          var seen' := seen + {v};
          ParseHostsFirstError(literal, tail, lineNo, seen');
          var r := ParseHosts(literal, tail, lineNo, seen');
          if r.Err? {
            var k :| 0 <= k < |tail| && WellFormedHosts(literal, tail[..k], seen') &&
              (literal(tail[k]).None? ==> r.error == BadHostFormat(lineNo, tail[k])) &&
              (literal(tail[k]).Some? ==>
                 literal(tail[k]).value in seen' + ParsedHosts(literal, tail[..k]) &&
                 r.error == DuplicatedHost(lineNo, tail[k]));
            var pre := toks[..k + 1];
            assert pre[1..] == tail[..k] && pre[0] == toks[0];
            WellFormedHostsCons(literal, pre, seen);
            ParsedHostsCons(literal, pre);
            assert toks[k + 1] == tail[k];
          }
        }
    }
  }

  // ---------------------------------------------------------------------------
  // Lines.

  /** Everything from the first `#` on is ignored. */
  lemma CommentIgnored(literal: LiteralParser, line: string, comment: string, lineNo: nat)
    requires Excludes(line, '#')
    ensures ParseLine(literal, line + "#" + comment, lineNo) == ParseLine(literal, line, lineNo)
  {
    var s := line + "#" + comment;
    assert s[|line|] == '#';
    assert s[..|line|] == line;
    assert StripComment(s) == line;
    assert StripComment(line) == line;
  }

  /** A line that is blank outside its comment is skipped without error. */
  lemma BlankLineSkipped(literal: LiteralParser, line: string, lineNo: nat)
    requires AllSpace(StripComment(line))
    ensures ParseLine(literal, line, lineNo) == Ok(None)
  {
    WordsEmptyIffBlank(StripComment(line));
  }

  /** A line whose first token is not a `u64` is rejected with its line number. */
  lemma BadProjectIdNamesLine(literal: LiteralParser, line: string, lineNo: nat)
    requires |Words(StripComment(line))| > 0 && ParseU64(Words(StripComment(line))[0]).None?
    ensures ParseLine(literal, line, lineNo) == Err(BadProjectId(lineNo))
  {
  }

  /** A line holding only a project id maps that project to no hosts. */
  lemma IdOnlyLine(literal: LiteralParser, projectId: nat, lineNo: nat)
    requires projectId < U64_LIMIT
    ensures ParseLine(literal, NatToString(projectId), lineNo) == Ok(Some(Entry(projectId, {})))
  {
    var s := NatToString(projectId);
    DigitsAreOneToken(s);
    IdOnlyTokens(literal, s, projectId, lineNo);
  }

  /** A run of digits has no comment and is a single token. */
  lemma DigitsAreOneToken(s: string)
    requires |s| > 0 && AllDigits(s)
    ensures StripComment(s) == s && Words(s) == [s]
  {
    assert Excludes(s, '#') by {
      forall i | 0 <= i < |s| ensures s[i] != '#' {
        assert IsAsciiDigit(s[i]);
      }
    }
    DigitsNoSpace(s);
    WordsOfToken(s);
  }

  lemma IdOnlyTokens(literal: LiteralParser, s: string, projectId: nat, lineNo: nat)
    requires projectId < U64_LIMIT && s == NatToString(projectId)
    ensures ParseTokens(literal, [s], lineNo) == Ok(Some(Entry(projectId, {})))
  {
    ParseU64OfNatToString(projectId);
    assert [s][1..] == [];
  }

  /** A repeated literal on one line is reported as duplicated. */
  lemma RepeatedHostRejected(literal: LiteralParser, tok: string, lineNo: nat)
    requires literal(tok).Some?
    ensures ParseHosts(literal, [tok, tok], lineNo, {}) == Err(DuplicatedHost(lineNo, tok))
  {
    assert [tok, tok][1..] == [tok];
  }

  // ---------------------------------------------------------------------------
  // The whole file.

  /** Line `k` (0-based) defines `projectId`. */
  predicate Defines(parsed: seq<LineResult>, k: nat, projectId: nat)
    requires k < |parsed|
  {
    parsed[k].Ok? && parsed[k].value.Some? && parsed[k].value.value.projectId == projectId
  }

  /** The fold fails exactly when some line is bad, and then with the error of
      the first bad line. */
  lemma {:induction false} FoldFailsAtFirstBadLine(parsed: seq<LineResult>)
    ensures Fold(parsed).Ok? <==> forall k | 0 <= k < |parsed| :: parsed[k].Ok?
    ensures Fold(parsed).Err? ==> exists k | 0 <= k < |parsed| ::
      && (forall j | 0 <= j < k :: parsed[j].Ok?)
      && parsed[k].Err? && Fold(parsed).error == parsed[k].error
    decreases |parsed|
  {
    if |parsed| > 0 {
      var n := |parsed| - 1;
      var pre := parsed[..n];
      FoldFailsAtFirstBadLine(pre);
      assert forall k | 0 <= k < n :: pre[k] == parsed[k];
      if Fold(pre).Err? {
        var k :| 0 <= k < n && (forall j | 0 <= j < k :: pre[j].Ok?) && pre[k].Err? && Fold(pre).error == pre[k].error;
        assert Fold(parsed) == Fold(pre);
        assert forall j | 0 <= j < k :: parsed[j].Ok?;
      } else if parsed[n].Err? {
        assert Fold(parsed) == Err(parsed[n].error);
        assert forall j | 0 <= j < n :: parsed[j].Ok?;
      }
    }
  }

  /** On a file without bad lines, a project is set exactly when some line
      defines it, and its hosts are those of the last line that does. */
  lemma {:induction false} LastDefinitionWins(parsed: seq<LineResult>, projectId: nat)
    requires Fold(parsed).Ok?
    ensures projectId in Fold(parsed).value <==> exists k | 0 <= k < |parsed| :: Defines(parsed, k, projectId)
    ensures forall k | 0 <= k < |parsed| && Defines(parsed, k, projectId) &&
        (forall j | k < j < |parsed| :: !Defines(parsed, j, projectId)) ::
      projectId in Fold(parsed).value && Fold(parsed).value[projectId] == parsed[k].value.value.hosts
    decreases |parsed|
  {
    if |parsed| > 0 {
      var n := |parsed| - 1;
      var pre := parsed[..n];
      LastDefinitionWins(pre, projectId);
      assert forall k | 0 <= k < n :: pre[k] == parsed[k];
      assert forall k | 0 <= k < n :: Defines(pre, k, projectId) == Defines(parsed, k, projectId);
      if !Defines(parsed, n, projectId) {
        assert projectId in Fold(parsed).value <==> projectId in Fold(pre).value;
        if projectId in Fold(parsed).value {
          assert Fold(parsed).value[projectId] == Fold(pre).value[projectId];
        }
      }
    }
  }

  /** The answer for the project: the hosts of the last line that names it,
      `ProjectNotSet` when no line does, or the first bad line's error. */
  lemma LookupSpec(parsed: seq<LineResult>, projectId: nat)
    ensures var r := Lookup(parsed, projectId);
      && (r.Ok? <==> (forall k | 0 <= k < |parsed| :: parsed[k].Ok?) && exists k | 0 <= k < |parsed| :: Defines(parsed, k, projectId))
      && ((forall k | 0 <= k < |parsed| :: parsed[k].Ok?) && r.Err? ==> r == Err(ProjectNotSet(projectId)))
      && (forall k | 0 <= k < |parsed| && !parsed[k].Ok? && (forall j | 0 <= j < k :: parsed[j].Ok?) ::
            r == Err(parsed[k].error))
      && ((forall k | 0 <= k < |parsed| :: parsed[k].Ok?) ==>
            forall k | 0 <= k < |parsed| && Defines(parsed, k, projectId) &&
                (forall j | k < j < |parsed| :: !Defines(parsed, j, projectId)) ::
              r == Ok(parsed[k].value.value.hosts))
  {
    FoldFailsAtFirstBadLine(parsed);
    if Fold(parsed).Ok? {
      LastDefinitionWins(parsed, projectId);
    } else {
      var k :| 0 <= k < |parsed| && (forall j | 0 <= j < k :: parsed[j].Ok?) && parsed[k].Err? && Fold(parsed).error == parsed[k].error;
      forall k' | 0 <= k' < |parsed| && !parsed[k'].Ok? && (forall j | 0 <= j < k' :: parsed[j].Ok?)
        ensures k' == k
      {
        assert !(k' < k) && !(k < k');
      }
    }
  }

  /** The lookup over the numbered, parsed lines answers as `AnswersFromLines`
      says. */
  lemma LookupAnswersFromLines(lines: seq<string>, projectId: nat)
    ensures AnswersFromLines(lines, projectId, Lookup(ParsedLines(SshUserHosts.Parse, lines), projectId))
  {
    var parsed := ParsedLines(SshUserHosts.Parse, lines);
    ParsedLinesAll(lines);
    LookupSpec(parsed, projectId);
    LinesOk(lines, projectId);
    LinesFirstError(lines, projectId);
    LinesLastDefinition(lines, projectId);
  }

  lemma ParsedLinesAll(lines: seq<string>)
    ensures forall k | 0 <= k < |lines| :: ParsedLines(SshUserHosts.Parse, lines)[k] == LineAt(lines, k)
  {
    forall k | 0 <= k < |lines|
      ensures ParsedLines(SshUserHosts.Parse, lines)[k] == LineAt(lines, k)
    {
      ParsedLinesAt(SshUserHosts.Parse, lines, k);
    }
  }

  lemma LinesOk(lines: seq<string>, projectId: nat)
    ensures var r := Lookup(ParsedLines(SshUserHosts.Parse, lines), projectId);
      && ((forall k | 0 <= k < |lines| :: LineAt(lines, k).Ok?) <==> forall k | 0 <= k < |lines| :: ParsedLines(SshUserHosts.Parse, lines)[k].Ok?)
      && (r.Ok? <==> ((forall k | 0 <= k < |lines| :: LineAt(lines, k).Ok?) &&
                      exists k | 0 <= k < |lines| :: LineDefines(lines, k, projectId)))
  {
    var parsed := ParsedLines(SshUserHosts.Parse, lines);
    ParsedLinesAll(lines);
    assert forall k | 0 <= k < |lines| :: Defines(parsed, k, projectId) == LineDefines(lines, k, projectId);
    LookupSpec(parsed, projectId);
  }

  lemma LinesFirstError(lines: seq<string>, projectId: nat)
    ensures var r := Lookup(ParsedLines(SshUserHosts.Parse, lines), projectId);
      forall k | 0 <= k < |lines| && LineAt(lines, k).Err? && (forall j | 0 <= j < k :: LineAt(lines, j).Ok?) ::
        r == Err(LineAt(lines, k).error)
  {
    var parsed := ParsedLines(SshUserHosts.Parse, lines);
    ParsedLinesAll(lines);
    LookupSpec(parsed, projectId);
  }

  lemma LinesLastDefinition(lines: seq<string>, projectId: nat)
    ensures var r := Lookup(ParsedLines(SshUserHosts.Parse, lines), projectId);
      (forall j | 0 <= j < |lines| :: LineAt(lines, j).Ok?) ==>
        forall k | 0 <= k < |lines| && LineDefines(lines, k, projectId) &&
            (forall j | k < j < |lines| :: !LineDefines(lines, j, projectId)) ::
          r == Ok(LineAt(lines, k).value.value.hosts)
  {
    var parsed := ParsedLines(SshUserHosts.Parse, lines);
    ParsedLinesAll(lines);
    assert forall k | 0 <= k < |lines| :: Defines(parsed, k, projectId) == LineDefines(lines, k, projectId);
    LookupSpec(parsed, projectId);
  }
}

=== FILE: remote.dfy ===
/** Remote execution as the tool sees it: every `ssh`/`scp` process is a
    `Call` (its argument vector and what feeds its standard input), and an
    `Oracle` stands for the remote side, answering each call, given the
    calls made before it, with an exit status and the captured output. */
module Remote {
  import opened Text
  import opened Decimal
  import opened SshUserHosts

  /** What the tool can report about a failed run. */
  datatype Failure =
    | NotSupportedPhase(phase: string)            // the phase file does not exist
    | PhaseFileUnreadable                         // any other error opening or reading it
    | BadProjectId(line: nat)                     // 1-based line number
    | BadHostFormat(line: nat, token: string)
    | DuplicatedHost(line: nat, token: string)
    | ProjectNotSet(projectId: nat)
    | Io                                          // a process could not be started
    | CannotGetHome(target: SshUserHost)
    | CannotCheckExistence(path: string, target: SshUserHost)
    | MissingDeployFile(file: string)             // `deploy/<file> cannot be found in the project.`
    | IncorrectDeployFile(file: string)           // `deploy/<file> is not correct`
    | ComposeImageMismatch
    | ControlFailed
    | ArchiveNotFound(dir: string)
    | Panicked                                    // an `unwrap` of a missing value
    | CannotApply
    | CannotCreateDirectory(dir: string)
    | CannotCreateComposeFile(path: string)
    | CannotCopy(from: string, to: string)
    | CannotDeployImage
    | CannotDeployProject
    | CannotPull(reference: string)
    | CannotClone(url: string, reference: string)
    | DevelopUpFailed
    | LocalStepFailed                             // download, validation or build on this machine

  /** How a process ended: `Exited(code)`, killed by a signal (no code), or never started. */
  datatype Status = Exited(code: int) | Killed | NotStarted

  predicate Succeeded(s: Status) {
    s == Exited(0)
  }

  datatype Reply = Reply(status: Status, stdout: string)

  /** What a process reads on its standard input. */
  datatype Input =
    | Inherited
    | Text(body: string)                 // written from memory
    | LocalFile(path: string)            // read from a file on this machine
    | PipedFrom(local: seq<string>)      // the standard output of a local process

  datatype Call = Call(argv: seq<string>, stdin: Input)

  /** The remote side: the reply to a call, given every call issued before it. */
  type Oracle = (seq<Call>, Call) -> Reply

  /** The constants and helpers the model treats as opaque: the directory names
      under the remote home, Rust's `{:?}` quoting, and the clock (read as a
      function of the calls issued so far). */
  datatype Env = Env(
    projectDirectory: string,
    serviceDirectory: string,
    quote: string -> string,
    clock: seq<Call> -> string)

  /** The calls issued, in order, and the outcome. */
  datatype Run<+T> = Run(calls: seq<Call>, result: Result<T, Failure>)

  const SSH_OPTIONS: seq<string> := ["-o", "StrictHostKeyChecking=no", "-o", "BatchMode=yes"]

  /** `create_ssh_command`. */
  function SshArgv(h: SshUserHost, command: string): seq<string> {
    ["ssh"] + SSH_OPTIONS + ["-p", NatToString(GetPort(h)), UserHost(h), command]
  }

  /** `create_scp_command`: note `-P` for the port and `user@host:to` as the destination. */
  function ScpArgv(h: SshUserHost, from: string, to: string): seq<string> {
    ["scp"] + SSH_OPTIONS + ["-P", NatToString(GetPort(h)), from, UserHost(h) + ":" + to]
  }

  function SshCall(h: SshUserHost, command: string): Call {
    Call(SshArgv(h, command), Inherited)
  }

  lemma SshArgvFields(h: SshUserHost, command: string)
    ensures var a := SshArgv(h, command);
      && |a| == 9 && a[0] == "ssh" && a[5] == "-p" && a[6] == NatToString(GetPort(h))
      && a[7] == UserHost(h) && a[8] == command
  {
  }

  lemma ScpArgvFields(h: SshUserHost, from: string, to: string)
    ensures var a := ScpArgv(h, from, to);
      && |a| == 9 && a[0] == "scp" && a[5] == "-P" && a[6] == NatToString(GetPort(h))
      && a[7] == from && a[8] == UserHost(h) + ":" + to
  {
  }

  /** The ssh argument vector names its target faithfully: parsing the port and
      the `user@host` arguments back gives the host's port, user and host. */
  lemma SshArgvNamesTarget(literal: string, h: SshUserHost, command: string)
    requires SshUserHosts.Parse(literal) == Some(h)
    ensures var a := SshArgv(h, command);
      && |a| == 9 && a[0] == "ssh" && a[5] == "-p" && a[8] == command
      && ParseUnsigned(a[6], U16_LIMIT) == Some(GetPort(h))
      && SshUserHosts.Parse(a[7]) == Some(SshUserHost(h.user, h.host, None))
  {
    SshArgvFields(h, command);
    ReparseUserHost(literal);
    ParseUnsignedOfNatToString(GetPort(h), U16_LIMIT);
  }

  /** The scp destination is `user@host:` followed by the remote path, and the
      port travels as `-P`. */
  lemma ScpArgvNamesTarget(literal: string, h: SshUserHost, from: string, to: string)
    requires SshUserHosts.Parse(literal) == Some(h)
    ensures var a := ScpArgv(h, from, to);
      && |a| == 9 && a[0] == "scp" && a[5] == "-P" && a[7] == from
      && ParseUnsigned(a[6], U16_LIMIT) == Some(GetPort(h))
      && a[8] == UserHost(h) + ":" + to
      && SshUserHosts.Parse(UserHost(h)) == Some(SshUserHost(h.user, h.host, None))
  {
    ScpArgvFields(h, from, to);
    ReparseUserHost(literal);
    ParseUnsignedOfNatToString(GetPort(h), U16_LIMIT);
  }

  /** `delete_end_slash_in_place`: drops one trailing `/`, but never empties `/`. */
  function DeleteEndSlash(s: string): (r: string)
    ensures r == s || (|s| > 1 && s == r + "/")
  {
    if |s| > 1 && s[|s| - 1] == '/' then s[..|s| - 1] else s
  }

  /** `get_ssh_home`: `echo $HOME` on the host; the answer is trimmed and loses
      one trailing slash. */
  function GetSshHome(o: Oracle, t: seq<Call>, h: SshUserHost): (r: Run<string>)
    ensures r.calls == [SshCall(h, "echo $HOME")]
    ensures var reply := o(t, SshCall(h, "echo $HOME"));
      && (r.result.Ok? <==> Succeeded(reply.status))
      && (r.result.Ok? ==> var trimmed := Trim(reply.stdout);
            r.result.value == trimmed || (|trimmed| > 1 && trimmed == r.result.value + "/"))
      && (reply.status == NotStarted ==> r.result == Err(Io))
  {
    var c := SshCall(h, "echo $HOME");
    var reply := o(t, c);
    Run([c],
      if reply.status == NotStarted then Err(Io)
      else if Succeeded(reply.status) then Ok(DeleteEndSlash(Trim(reply.stdout)))
      else Err(CannotGetHome(h)))
  }

  /** `test -f` or `test -d` on the host, as `check_file_exist` and
      `check_directory_exist` run it. */
  datatype TestKind = IsFile | IsDirectory

  function TestCommand(env: Env, kind: TestKind, path: string): string {
    (match kind case IsFile => "test -f " case IsDirectory => "test -d ") + env.quote(path)
  }

  /** Exit 0 means the path exists, exit 1 that it does not; any other code, or
      a signal, is an error naming the path. */
  function ExistAnswer(s: Status, h: SshUserHost, path: string): (r: Result<bool, Failure>)
    ensures r == Ok(true) <==> s == Exited(0)
    ensures r == Ok(false) <==> s == Exited(1)
    ensures r.Err? ==> r.error == if s == NotStarted then Io else CannotCheckExistence(path, h)
  {
    match s
    case NotStarted => Err(Io)
    case Exited(0) => Ok(true)
    case Exited(1) => Ok(false)
    case _ => Err(CannotCheckExistence(path, h))
  }

  function CheckExist(env: Env, o: Oracle, t: seq<Call>, h: SshUserHost, kind: TestKind, path: string): (r: Run<bool>)
    ensures r.calls == [SshCall(h, TestCommand(env, kind, path))]
  {
    var c := SshCall(h, TestCommand(env, kind, path));
    Run([c], ExistAnswer(o(t, c).status, h, path))
  }

  // ---------------------------------------------------------------------------
  // `a && b && c`: the remote shell runs each stage only if every earlier one succeeded.

  function Chain(stages: seq<string>): string {
    Join(stages, " && ")
  }

  /** The stages a `&&` chain starts, given which stages would succeed. */
  function Started(stages: seq<string>, ok: nat -> bool): (r: nat)
    ensures r <= |stages|
    ensures |stages| > 0 ==> r > 0
    ensures forall i | 0 <= i < r - 1 :: ok(i)
    ensures r < |stages| ==> r > 0 && !ok(r - 1)
  {
    StartedFrom(stages, ok, 0)
  }

  function StartedFrom(stages: seq<string>, ok: nat -> bool, k: nat): (r: nat)
    requires k <= |stages|
    requires forall i | 0 <= i < k :: ok(i)
    ensures k <= r <= |stages|
    ensures |stages| > k ==> r > k
    ensures forall i | 0 <= i < r - 1 :: ok(i)
    ensures r < |stages| ==> r > 0 && !ok(r - 1)
    decreases |stages| - k
  {
    if k == |stages| then k
    else if !ok(k) then k + 1
    else StartedFrom(stages, ok, k + 1)
  }

  /** `(… || true)` exits 0 whatever the command inside it does. */
  predicate Forgiving(stage: string) {
    EndsWith(stage, "|| true)")
  }

  /** Stage outcomes the shell can produce: every forgiving stage succeeds. */
  predicate ShellOutcomes(stages: seq<string>, ok: nat -> bool) {
    forall i | 0 <= i < |stages| && Forgiving(stages[i]) :: ok(i)
  }

  /** Stage `j` of a chain starts exactly when all stages before it succeed. */
  lemma StartedIffPredecessorsSucceed(stages: seq<string>, ok: nat -> bool, j: nat)
    requires j < |stages|
    ensures j < Started(stages, ok) <==> forall i | 0 <= i < j :: ok(i)
  {
  }
}

=== FILE: runs.dfy ===
/** Sequencing remote calls. Every flow is a series of steps that stops at the
    first failure (`if let Some(0) = status { } else { return Err(..) }`),
    and every multi-host flow repeats its per-host series over the hosts in
    order, stopping at the first host that fails, with nothing undone. */
module Runs {
  import opened Text
  import opened SshUserHosts
  import opened Remote

  /** One remote call and what its failure means: `Some(e)` stops the run
      with `e`; `None` marks a call whose failure only warns. A call that
      cannot be started stops the run with `Io` either way. */
  datatype Step = Step(call: Call, onFailure: Option<Failure>)

  function CallsOf(steps: seq<Step>): (r: seq<Call>)
    ensures |r| == |steps| && forall i | 0 <= i < |steps| :: r[i] == steps[i].call
  {
    seq(|steps|, i requires 0 <= i < |steps| => steps[i].call)
  }

  /** The status the oracle gives `calls[i]` after `t` and the calls before it. */
  function StatusAt(o: Oracle, t: seq<Call>, calls: seq<Call>, i: nat): Status
    requires i < |calls|
  {
    o(t + calls[..i], calls[i]).status
  }

  /** What one call's status means for the run. */
  function Outcome(s: Status, onFailure: Option<Failure>): (r: Result<(), Failure>)
    ensures r.Ok? <==> Succeeded(s) || (onFailure.None? && s != NotStarted)
    ensures s == NotStarted ==> r == Err(Io)
  {
    if s == NotStarted then Err(Io)
    else if Succeeded(s) || onFailure.None? then Ok(())
    else Err(onFailure.value)
  }

  /** Issue the steps in order until one fails. */
  function RunSteps(o: Oracle, t: seq<Call>, steps: seq<Step>): (r: Run<()>)
    ensures |r.calls| <= |steps| && r.calls == CallsOf(steps)[..|r.calls|]
    ensures |steps| > 0 ==> |r.calls| > 0
    decreases |steps|
  {
    if |steps| == 0 then Run([], Ok(()))
    else
      var c := steps[0].call;
      var first := Outcome(o(t, c).status, steps[0].onFailure);
      if first.Err? then Run([c], first)
      else
        var rest := RunSteps(o, t + [c], steps[1..]);
        Run([c] + rest.calls, rest.result)
  }

  lemma StatusAtCons(o: Oracle, t: seq<Call>, c: Call, rest: seq<Call>, i: nat)
    requires i <= |rest|
    ensures StatusAt(o, t, [c] + rest, 0) == o(t, c).status
    ensures i < |rest| ==> StatusAt(o, t, [c] + rest, i + 1) == StatusAt(o, t + [c], rest, i)
  {
    var calls := [c] + rest;
    assert calls[..0] == [] && t + [] == t;
    assert calls[..i + 1] == [c] + rest[..i];
    assert t + ([c] + rest[..i]) == (t + [c]) + rest[..i];
  }

  /** Every call but the last was `Ok` by its step's rule; the run is `Ok`
      exactly when all steps were issued and the last was `Ok` too; and a
      failed run carries the failure of its last call. */
  lemma RunStepsOutcomes(o: Oracle, t: seq<Call>, steps: seq<Step>)
    ensures var r := RunSteps(o, t, steps);
      && (forall i | 0 <= i < |r.calls| - 1 :: Outcome(StatusAt(o, t, r.calls, i), steps[i].onFailure).Ok?)
      && (r.result.Ok? <==>
            |r.calls| == |steps| &&
            (|steps| == 0 || Outcome(StatusAt(o, t, r.calls, |steps| - 1), steps[|steps| - 1].onFailure).Ok?))
      && (r.result.Err? ==> r.result == Outcome(StatusAt(o, t, r.calls, |r.calls| - 1), steps[|r.calls| - 1].onFailure))
  {
    EarlierStepsOk(o, t, steps);
    LastStepDecides(o, t, steps);
    FailedRunCause(o, t, steps);
  }

  lemma {:induction false} EarlierStepsOk(o: Oracle, t: seq<Call>, steps: seq<Step>)
    ensures var r := RunSteps(o, t, steps);
      forall i | 0 <= i < |r.calls| - 1 :: Outcome(StatusAt(o, t, r.calls, i), steps[i].onFailure).Ok?
    decreases |steps|
  {
    if |steps| > 0 {
      var c := steps[0].call;
      var r := RunSteps(o, t, steps);
      if Outcome(o(t, c).status, steps[0].onFailure).Ok? {
        var tail := steps[1..];
        var rest := RunSteps(o, t + [c], tail);
        EarlierStepsOk(o, t + [c], tail);
        FirstStepPasses(o, t, steps);
        forall i | 0 < i < |r.calls| - 1
          ensures Outcome(StatusAt(o, t, r.calls, i), steps[i].onFailure).Ok?
        {
          assert StatusAt(o, t + [c], rest.calls, i - 1) == StatusAt(o, t, r.calls, i);
          assert steps[1..][i - 1] == steps[i];
        }
      }
    }
  }

  /** A run whose first step fails is that one call. */
  lemma FirstStepFails(o: Oracle, t: seq<Call>, steps: seq<Step>)
    requires |steps| > 0 && Outcome(o(t, steps[0].call).status, steps[0].onFailure).Err?
    ensures var r := RunSteps(o, t, steps);
      && r == Run([steps[0].call], Outcome(o(t, steps[0].call).status, steps[0].onFailure))
      && StatusAt(o, t, r.calls, 0) == o(t, steps[0].call).status
  {
    StatusAtCons(o, t, steps[0].call, [], 0);
    assert [steps[0].call] + [] == [steps[0].call];
  }

  /** A run whose first step passes is that call followed by the run of the
      other steps, each seeing the first call in its history. */
  lemma FirstStepPasses(o: Oracle, t: seq<Call>, steps: seq<Step>)
    requires |steps| > 0 && Outcome(o(t, steps[0].call).status, steps[0].onFailure).Ok?
    ensures var c := steps[0].call;
      var r := RunSteps(o, t, steps);
      var rest := RunSteps(o, t + [c], steps[1..]);
      && r == Run([c] + rest.calls, rest.result)
      && StatusAt(o, t, r.calls, 0) == o(t, c).status
      && (forall k | 0 <= k < |rest.calls| :: StatusAt(o, t, r.calls, k + 1) == StatusAt(o, t + [c], rest.calls, k))
      && (forall k | 0 <= k < |steps| - 1 :: steps[k + 1] == steps[1..][k])
  {
    var c := steps[0].call;
    var rest := RunSteps(o, t + [c], steps[1..]);
    StatusAtCons(o, t, c, rest.calls, 0);
    forall k | 0 <= k < |rest.calls|
      ensures StatusAt(o, t, [c] + rest.calls, k + 1) == StatusAt(o, t + [c], rest.calls, k)
    {
      StatusAtCons(o, t, c, rest.calls, k);
    }
  }

  lemma {:induction false} LastStepDecides(o: Oracle, t: seq<Call>, steps: seq<Step>)
    ensures var r := RunSteps(o, t, steps);
      r.result.Ok? <==>
        |r.calls| == |steps| &&
        (|steps| == 0 || Outcome(StatusAt(o, t, r.calls, |steps| - 1), steps[|steps| - 1].onFailure).Ok?)
    decreases |steps|
  {
    if |steps| > 0 {
      var c := steps[0].call;
      var r := RunSteps(o, t, steps);
      if Outcome(o(t, c).status, steps[0].onFailure).Err? {
        FirstStepFails(o, t, steps);
      } else {
        var tail := steps[1..];
        var rest := RunSteps(o, t + [c], tail);
        LastStepDecides(o, t + [c], tail);
        FirstStepPasses(o, t, steps);
        if |tail| > 0 && |rest.calls| == |tail| {
          assert StatusAt(o, t + [c], rest.calls, |tail| - 1) == StatusAt(o, t, r.calls, |tail|);
          assert tail[|tail| - 1] == steps[|tail|];
        }
      }
    }
  }

  lemma {:induction false} FailedRunCause(o: Oracle, t: seq<Call>, steps: seq<Step>)
    ensures var r := RunSteps(o, t, steps);
      r.result.Err? ==> r.result == Outcome(StatusAt(o, t, r.calls, |r.calls| - 1), steps[|r.calls| - 1].onFailure)
    decreases |steps|
  {
    if |steps| > 0 {
      var c := steps[0].call;
      var r := RunSteps(o, t, steps);
      if Outcome(o(t, c).status, steps[0].onFailure).Err? {
        FirstStepFails(o, t, steps);
      } else {
        var tail := steps[1..];
        var rest := RunSteps(o, t + [c], tail);
        FailedRunCause(o, t + [c], tail);
        FirstStepPasses(o, t, steps);
        if rest.result.Err? {
          assert StatusAt(o, t + [c], rest.calls, |rest.calls| - 1) == StatusAt(o, t, r.calls, |rest.calls|);
          assert tail[|rest.calls| - 1] == steps[|rest.calls|];
        }
      }
    }
  }

  /** A single step's run is that call and its outcome, whatever the rule. */
  lemma SingleStep(o: Oracle, t: seq<Call>, s: Step)
    ensures RunSteps(o, t, [s]) == Run([s.call], Outcome(o(t, s.call).status, s.onFailure))
  {
    assert [s][1..] == [];
    assert [s.call] + [] == [s.call];
  }

  /** With every failure fatal, a run is `Ok` exactly when every step was
      issued and exited 0. */
  lemma AllFatalRunOk(o: Oracle, t: seq<Call>, steps: seq<Step>)
    requires forall i | 0 <= i < |steps| :: steps[i].onFailure.Some?
    ensures var r := RunSteps(o, t, steps);
      r.result.Ok? <==> r.calls == CallsOf(steps) && forall i | 0 <= i < |steps| :: Succeeded(StatusAt(o, t, r.calls, i))
  {
    var r := RunSteps(o, t, steps);
    if r.result.Ok? {
      FatalOkAllSucceeded(o, t, steps);
    }
    if r.calls == CallsOf(steps) && forall i | 0 <= i < |steps| :: Succeeded(StatusAt(o, t, r.calls, i)) {
      LastStepDecides(o, t, steps);
    }
  }

  lemma FatalOkAllSucceeded(o: Oracle, t: seq<Call>, steps: seq<Step>)
    requires forall i | 0 <= i < |steps| :: steps[i].onFailure.Some?
    requires RunSteps(o, t, steps).result.Ok?
    ensures var r := RunSteps(o, t, steps);
      r.calls == CallsOf(steps) && forall i | 0 <= i < |steps| :: Succeeded(StatusAt(o, t, r.calls, i))
  {
    var r := RunSteps(o, t, steps);
    EarlierStepsOk(o, t, steps);
    LastStepDecides(o, t, steps);
    var n := |steps|;
    assert |r.calls| == n;
    assert CallsOf(steps)[..n] == CallsOf(steps);
    forall i | 0 <= i < n ensures Succeeded(StatusAt(o, t, r.calls, i)) {
      var s := StatusAt(o, t, r.calls, i);
      assert Outcome(s, steps[i].onFailure).Ok? by {
        if i < n - 1 {
          assert Outcome(StatusAt(o, t, r.calls, i), steps[i].onFailure).Ok?;
        }
      }
      assert steps[i].onFailure.Some?;
    }
  }

  /** The per-host part of a flow: the calls issued so far and the host. */
  type HostStep = (seq<Call>, SshUserHost) -> Run<()>

  /** `for ssh_user_host in ssh_user_hosts.iter() { ..? }`: hosts in order,
      stopping at the first failure. */
  function ForEachHost(hosts: seq<SshUserHost>, step: HostStep, t: seq<Call>): (r: Run<()>)
    ensures hosts == [] ==> r == Run([], Ok(()))
    decreases |hosts|
  {
    if |hosts| == 0 then Run([], Ok(()))
    else
      var first := step(t, hosts[0]);
      if first.result.Err? then first
      else
        var rest := ForEachHost(hosts[1..], step, t + first.calls);
        Run(first.calls + rest.calls, rest.result)
  }

  /** Splitting the host list splits the loop: the second part runs only if
      the first part finished `Ok`, continuing from its calls. */
  lemma {:induction false} ForEachHostAppend(a: seq<SshUserHost>, b: seq<SshUserHost>, step: HostStep, t: seq<Call>)
    ensures var ra := ForEachHost(a, step, t);
      ForEachHost(a + b, step, t) ==
        if ra.result.Err? then ra
        else var rb := ForEachHost(b, step, t + ra.calls); Run(ra.calls + rb.calls, rb.result)
    decreases |a|
  {
    if |a| > 0 {
      assert (a + b)[1..] == a[1..] + b;
      var first := step(t, a[0]);
      if first.result.Ok? {
        ForEachHostAppend(a[1..], b, step, t + first.calls);
        var ra := ForEachHost(a[1..], step, t + first.calls);
        assert t + first.calls + ra.calls == t + (first.calls + ra.calls);
      }
    } else {
      assert a + b == b;
      assert t + [] == t;
    }
  }

  /** No rollback: whatever was done for the first hosts stays the opening
      part of the trace, whatever happens to later hosts; and once a host
      fails, no later host is contacted. */
  lemma NoRollbackFailFast(a: seq<SshUserHost>, b: seq<SshUserHost>, step: HostStep, t: seq<Call>)
    ensures ForEachHost(a, step, t).calls <= ForEachHost(a + b, step, t).calls
    ensures ForEachHost(a, step, t).result.Err? ==> ForEachHost(a + b, step, t) == ForEachHost(a, step, t)
  {
    ForEachHostAppend(a, b, step, t);
    var ra := ForEachHost(a, step, t);
    if ra.result.Ok? {
      var rb := ForEachHost(b, step, t + ra.calls);
      assert (ra.calls + rb.calls)[..|ra.calls|] == ra.calls;
    }
  }

  /** The calls issued before host `i` is reached. */
  function CallsBefore(hosts: seq<SshUserHost>, step: HostStep, t: seq<Call>, i: nat): seq<Call>
    requires i <= |hosts|
  {
    ForEachHost(hosts[..i], step, t).calls
  }

  /** Past a first host that ends `Ok`, the loop is the loop over the other
      hosts, started after the first host's calls. */
  lemma ForEachHostShift(hosts: seq<SshUserHost>, step: HostStep, t: seq<Call>)
    requires |hosts| > 0 && step(t, hosts[0]).result.Ok?
    ensures var t1 := t + step(t, hosts[0]).calls;
      var tail := hosts[1..];
      && ForEachHost(hosts, step, t).result == ForEachHost(tail, step, t1).result
      && (forall k | 0 <= k < |tail| :: t + CallsBefore(hosts, step, t, k + 1) == t1 + CallsBefore(tail, step, t1, k))
      && (forall k | 0 <= k < |tail| :: hosts[k + 1] == tail[k])
  {
    var tail := hosts[1..];
    var t1 := t + step(t, hosts[0]).calls;
    forall k | 0 <= k < |tail|
      ensures t + CallsBefore(hosts, step, t, k + 1) == t1 + CallsBefore(tail, step, t1, k)
    {
      assert hosts[..k + 1] == [hosts[0]] + tail[..k];
      ForEachHostAppend([hosts[0]], tail[..k], step, t);
      assert [hosts[0]][1..] == [];
    }
  }

  /** Host 0 is reached with nothing issued before it. */
  lemma NothingBeforeFirst(hosts: seq<SshUserHost>, step: HostStep, t: seq<Call>)
    ensures t + CallsBefore(hosts, step, t, 0) == t
  {
    assert hosts[..0] == [];
  }

  /** A loop ends `Ok` exactly when every host's own steps end `Ok`, each
      started after the calls of the hosts before it; otherwise its error is
      the first failing host's error. */
  lemma ForEachHostOk(hosts: seq<SshUserHost>, step: HostStep, t: seq<Call>)
    ensures ForEachHost(hosts, step, t).result.Ok? <==>
      forall i | 0 <= i < |hosts| :: step(t + CallsBefore(hosts, step, t, i), hosts[i]).result.Ok?
    ensures ForEachHost(hosts, step, t).result.Err? ==>
      exists i | 0 <= i < |hosts| ::
        && (forall j | 0 <= j < i :: step(t + CallsBefore(hosts, step, t, j), hosts[j]).result.Ok?)
        && ForEachHost(hosts, step, t).result == step(t + CallsBefore(hosts, step, t, i), hosts[i]).result
  {
    ForEachHostAllOk(hosts, step, t);
    ForEachHostFirstError(hosts, step, t);
  }

  lemma {:induction false} ForEachHostAllOk(hosts: seq<SshUserHost>, step: HostStep, t: seq<Call>)
    ensures ForEachHost(hosts, step, t).result.Ok? <==>
      forall i | 0 <= i < |hosts| :: step(t + CallsBefore(hosts, step, t, i), hosts[i]).result.Ok?
    decreases |hosts|
  {
    if |hosts| > 0 {
      NothingBeforeFirst(hosts, step, t);
      var first := step(t, hosts[0]);
      if first.result.Ok? {
        var tail := hosts[1..];
        var t1 := t + first.calls;
        ForEachHostAllOk(tail, step, t1);
        ForEachHostShift(hosts, step, t);
        if forall k | 0 <= k < |tail| :: step(t1 + CallsBefore(tail, step, t1, k), tail[k]).result.Ok? {
          forall i | 0 < i < |hosts| ensures step(t + CallsBefore(hosts, step, t, i), hosts[i]).result.Ok? {
            assert step(t1 + CallsBefore(tail, step, t1, i - 1), tail[i - 1]).result.Ok?;
          }
        }
      }
    }
  }

  lemma {:induction false} ForEachHostFirstError(hosts: seq<SshUserHost>, step: HostStep, t: seq<Call>)
    ensures ForEachHost(hosts, step, t).result.Err? ==>
      exists i | 0 <= i < |hosts| ::
        && (forall j | 0 <= j < i :: step(t + CallsBefore(hosts, step, t, j), hosts[j]).result.Ok?)
        && ForEachHost(hosts, step, t).result == step(t + CallsBefore(hosts, step, t, i), hosts[i]).result
    decreases |hosts|
  {
    if |hosts| > 0 {
      NothingBeforeFirst(hosts, step, t);
      var first := step(t, hosts[0]);
      if first.result.Ok? {
        var tail := hosts[1..];
        var t1 := t + first.calls;
        ForEachHostFirstError(tail, step, t1);
        ForEachHostShift(hosts, step, t);
        if ForEachHost(hosts, step, t).result.Err? {
          var k :| 0 <= k < |tail| &&
            (forall j | 0 <= j < k :: step(t1 + CallsBefore(tail, step, t1, j), tail[j]).result.Ok?) &&
            ForEachHost(tail, step, t1).result == step(t1 + CallsBefore(tail, step, t1, k), tail[k]).result;
          assert step(t + CallsBefore(hosts, step, t, k + 1), hosts[k + 1]) == step(t1 + CallsBefore(tail, step, t1, k), tail[k]);
          forall j | 0 < j < k + 1 ensures step(t + CallsBefore(hosts, step, t, j), hosts[j]).result.Ok? {
            assert step(t1 + CallsBefore(tail, step, t1, j - 1), tail[j - 1]).result.Ok?;
          }
        }
      } else {
        assert step(t + CallsBefore(hosts, step, t, 0), hosts[0]) == first;
      }
    }
  }

  /** Once the loop ends `Ok`, the calls are those of every host, one host
      after another: host `i`'s own calls follow the calls before it. */
  lemma {:induction false} ForEachHostCalls(hosts: seq<SshUserHost>, step: HostStep, t: seq<Call>, i: nat)
    requires i < |hosts|
    requires ForEachHost(hosts, step, t).result.Ok?
    ensures CallsBefore(hosts, step, t, i + 1) ==
      CallsBefore(hosts, step, t, i) + step(t + CallsBefore(hosts, step, t, i), hosts[i]).calls
    ensures CallsBefore(hosts, step, t, i + 1) <= ForEachHost(hosts, step, t).calls
  {
    var a := hosts[..i + 1];
    assert hosts == a + hosts[i + 1..];
    NoRollbackFailFast(a, hosts[i + 1..], step, t);
    assert a == hosts[..i] + [hosts[i]];
    ForEachHostAppend(hosts[..i], [hosts[i]], step, t);
    var ra := ForEachHost(hosts[..i], step, t);
    var first := step(t + ra.calls, hosts[i]);
    assert [hosts[i]][1..] == [];
    assert first.calls + [] == first.calls;
  }

  /** The per-host part of most flows: ask for the home directory, then run
      the steps that depend on the host and on it. */
  function WithHome(o: Oracle, t: seq<Call>, h: SshUserHost, steps: (SshUserHost, string) -> seq<Step>): (r: Run<()>)
    ensures |r.calls| > 0 && r.calls[0] == SshCall(h, "echo $HOME")
  {
    var home := GetSshHome(o, t, h);
    match home.result
    case Err(e) => Run(home.calls, Err(e))
    case Ok(dir) =>
      var rest := RunSteps(o, t + home.calls, steps(h, dir));
      Run(home.calls + rest.calls, rest.result)
  }

  function HomeStep(o: Oracle, steps: (SshUserHost, string) -> seq<Step>): HostStep {
    (t, h) => WithHome(o, t, h, steps)
  }

  /** A step list whose every failure is fatal. */
  predicate AllFatal(steps: seq<Step>) {
    forall i | 0 <= i < |steps| :: steps[i].onFailure.Some?
  }

  /** With fatal steps only, a host ends `Ok` exactly when its home directory
      is read and every step then exits 0; all the steps were then issued. */
  lemma WithHomeOk(o: Oracle, t: seq<Call>, h: SshUserHost, steps: (SshUserHost, string) -> seq<Step>)
    ensures var home := GetSshHome(o, t, h);
      home.result.Ok? && AllFatal(steps(h, home.result.value)) ==>
        var list := steps(h, home.result.value);
        var rest := RunSteps(o, t + home.calls, list);
        && (WithHome(o, t, h, steps).result.Ok? <==>
              rest.calls == CallsOf(list) && forall i | 0 <= i < |list| :: Succeeded(StatusAt(o, t + home.calls, rest.calls, i)))
        && (WithHome(o, t, h, steps).result.Ok? ==> WithHome(o, t, h, steps).calls == home.calls + CallsOf(list))
    ensures GetSshHome(o, t, h).result.Err? ==> WithHome(o, t, h, steps) == Run(GetSshHome(o, t, h).calls, Err(GetSshHome(o, t, h).result.error))
  {
    var home := GetSshHome(o, t, h);
    if home.result.Ok? && AllFatal(steps(h, home.result.value)) {
      AllFatalRunOk(o, t + home.calls, steps(h, home.result.value));
    }
  }

  /** When a loop of such hosts ends `Ok`, every host read its home directory
      and then issued all its steps, each exiting 0, and those calls sit, in
      order, in the loop's calls right after the calls of the hosts before
      it. */
  lemma HomeLoopDone(o: Oracle, hosts: seq<SshUserHost>, steps: (SshUserHost, string) -> seq<Step>, t: seq<Call>, i: nat)
    requires i < |hosts|
    requires forall h, d :: AllFatal(steps(h, d))
    requires ForEachHost(hosts, HomeStep(o, steps), t).result.Ok?
    ensures var before := CallsBefore(hosts, HomeStep(o, steps), t, i);
      var home := GetSshHome(o, t + before, hosts[i]);
      && home.result.Ok?
      && before + home.calls + CallsOf(steps(hosts[i], home.result.value)) <= ForEachHost(hosts, HomeStep(o, steps), t).calls
      && var list := CallsOf(steps(hosts[i], home.result.value));
         forall k | 0 <= k < |list| :: Succeeded(StatusAt(o, t + before + home.calls, list, k))
  {
    var step := HomeStep(o, steps);
    ForEachHostOk(hosts, step, t);
    ForEachHostCalls(hosts, step, t, i);
    var before := CallsBefore(hosts, step, t, i);
    WithHomeOk(o, t + before, hosts[i], steps);
    var home := GetSshHome(o, t + before, hosts[i]);
    assert step(t + before, hosts[i]).result.Ok?;
    PrefixOfPrefix(before, home.calls, CallsOf(steps(hosts[i], home.result.value)),
      CallsBefore(hosts, step, t, i + 1), ForEachHost(hosts, step, t).calls);
  }

  lemma PrefixOfPrefix(before: seq<Call>, a: seq<Call>, b: seq<Call>, upTo: seq<Call>, all: seq<Call>)
    requires upTo == before + (a + b) && upTo <= all
    ensures before + a + b <= all
  {
    assert before + a + b == before + (a + b);
  }

  /** `if ssh_user_hosts.is_empty() { return Ok(()) }`, then the local
      preparation (download, validation, build), then the host loop. */
  function Deploy<A>(hosts: seq<SshUserHost>, prepared: Result<A, Failure>, step: A -> HostStep, t: seq<Call>): (r: Run<()>)
    ensures hosts == [] ==> r == Run([], Ok(()))
    ensures hosts != [] && prepared.Err? ==> r == Run([], Err(prepared.error))
  {
    if hosts == [] then Run([], Ok(()))
    else match prepared
      case Err(e) => Run([], Err(e))
      case Ok(a) => ForEachHost(hosts, step(a), t)
  }
}

=== FILE: simple_control.dfy ===
/** `simple_control`: runs an arbitrary command on every host of the phase,
    optionally with the release directory injected as its first argument,
    and then appends an audit line to `control.log`. */
module SimpleControl {
  import opened Text
  import opened Validators
  import opened SshUserHosts
  import opened Remote
  import opened Runs
  import opened Layout

  /** The command as the remote shell receives it. With injection, the quoted
      directory goes after the program, or after the program that follows
      `sudo`; a lone `sudo` gets no directory. The command line always has at
      least one word. */
  function CommandInSsh(command: seq<string>, inject: bool, quotedDir: string): string
    requires |command| > 0
  {
    if !inject then Join(command, " ")
    else if command[0] == "sudo" then
      "sudo " + if |command| > 1 then command[1] + " " + quotedDir + " " + Join(command[2..], " ") else ""
    else command[0] + " " + quotedDir + " " + Join(command[1..], " ")
  }

  /** The position the directory is injected at. */
  function InjectAt(command: seq<string>): (k: nat)
    requires |command| > 0
    ensures k == 1 || k == 2
  {
    if command[0] == "sudo" then 2 else 1
  }

  lemma JoinCons(x: string, rest: seq<string>, sep: string)
    ensures Join([x] + rest, sep) == x + if |rest| == 0 then "" else sep + Join(rest, sep)
  {
    assert ([x] + rest)[1..] == rest;
  }

  /** Injection adds exactly one word, the quoted directory, at the injection
      position of the word list and leaves every other word as it was; when no
      word follows that position the line keeps a trailing blank. Without
      injection the words are joined unchanged. */
  lemma {:induction false} InjectedArguments(command: seq<string>, quotedDir: string)
    requires |command| > 0
    ensures var k := InjectAt(command);
      |command| >= k ==>
        CommandInSsh(command, true, quotedDir) ==
          Join(command[..k] + [quotedDir] + command[k..], " ") + if |command| == k then " " else ""
    ensures command == ["sudo"] ==> CommandInSsh(command, true, quotedDir) == "sudo "
    ensures CommandInSsh(command, false, quotedDir) == Join(command, " ")
  {
    var k := InjectAt(command);
    if |command| >= k {
      var tail := command[k..];
      var after := Join(tail, " ");
      JoinCons(quotedDir, tail, " ");
      var inner := [quotedDir] + tail;
      if k == 1 {
        assert command[..k] + [quotedDir] + tail == [command[0]] + inner;
        JoinCons(command[0], inner, " ");
      } else {
        assert command[..k] + [quotedDir] + tail == [command[0]] + ([command[1]] + inner);
        JoinCons(command[1], inner, " ");
        JoinCons(command[0], [command[1]] + inner, " ");
      }
      if |tail| == 0 {
        assert after == "";
      }
    }
  }

  /** `{timestamp} {command_string:?} {ref}-{short_sha}`. */
  function AuditLine(env: Env, t: seq<Call>, r: Release, command: seq<string>): string {
    env.clock(t) + " " + env.quote(Join(command, " ")) + " " + ReleaseName(r)
  }

  function RunCall(h: SshUserHost, dir: string, command: seq<string>, inject: bool, env: Env): Call
    requires |command| > 0
  {
    SshCall(h, CommandInSsh(command, inject, env.quote(dir)))
  }

  /** `cd {dir:?} && echo "{audit line}" >> {dir:?}/../control.log`. */
  function AuditCall(env: Env, t: seq<Call>, h: SshUserHost, dir: string, r: Release, command: seq<string>): Call {
    SshCall(h, Chain(["cd " + env.quote(dir),
      "echo \"" + AuditLine(env, t, r, command) + "\" >> " + env.quote(dir) + "/../control.log"]))
  }

  /** The command, then the audit line; either failing stops the run with
      `ControlFailed`. The timestamp is read after the command has run. */
  function ControlSteps(env: Env, t: seq<Call>, h: SshUserHost, dir: string, r: Release, command: seq<string>, inject: bool): (s: seq<Step>)
    requires |command| > 0
    ensures |s| == 2 && AllFatal(s)
  {
    var run := RunCall(h, dir, command, inject, env);
    [ Step(run, Some(ControlFailed)),
      Step(AuditCall(env, t + [run], h, dir, r, command), Some(ControlFailed)) ]
  }

  function HostRun(env: Env, o: Oracle, r: Release, command: seq<string>, inject: bool, t: seq<Call>, h: SshUserHost): (run: Run<()>)
    requires |command| > 0
    ensures |run.calls| > 0 && run.calls[0] == SshCall(h, "echo $HOME")
  {
    var home := GetSshHome(o, t, h);
    match home.result
    case Err(e) => Run(home.calls, Err(e))
    case Ok(dirHome) =>
      var dir := ReleaseDir(env, dirHome, r);
      var rest := RunSteps(o, t + home.calls, ControlSteps(env, t + home.calls, h, dir, r, command, inject));
      Run(home.calls + rest.calls, rest.result)
  }

  function OnHost(env: Env, o: Oracle, r: Release, command: seq<string>, inject: bool): HostStep
    requires |command| > 0
  {
    (t, h) => HostRun(env, o, r, command, inject, t, h)
  }

  function SimpleControl(env: Env, o: Oracle, hosts: seq<SshUserHost>, r: Release, command: seq<string>, inject: bool, t: seq<Call>): (run: Run<()>)
    requires |command| > 0
    ensures hosts == [] ==> run == Run([], Ok(()))
  {
    ForEachHost(hosts, OnHost(env, o, r, command, inject), t)
  }

  /** Once the home directory is known, a host's run is the home query and
      the run of the two control steps. */
  lemma AfterHome(env: Env, o: Oracle, r: Release, command: seq<string>, inject: bool, t: seq<Call>, h: SshUserHost)
    requires |command| > 0
    requires GetSshHome(o, t, h).result.Ok?
    ensures var home := GetSshHome(o, t, h);
      var t1 := t + home.calls;
      var rest := RunSteps(o, t1, ControlSteps(env, t1, h, ReleaseDir(env, home.result.value, r), r, command, inject));
      HostRun(env, o, r, command, inject, t, h) == Run(home.calls + rest.calls, rest.result)
  {
  }

  /** The two control steps on their own: the command, then, if it exited 0,
      the audit append; either failing stops them with `ControlFailed`. */
  lemma ControlStepsRun(env: Env, o: Oracle, t1: seq<Call>, h: SshUserHost, dir: string, r: Release, command: seq<string>, inject: bool)
    requires |command| > 0
    ensures var run := RunCall(h, dir, command, inject, env);
      var audit := AuditCall(env, t1 + [run], h, dir, r, command);
      var s0 := o(t1, run).status;
      RunSteps(o, t1, ControlSteps(env, t1, h, dir, r, command, inject)) ==
        if !Succeeded(s0) then Run([run], Outcome(s0, Some(ControlFailed)))
        else Run([run, audit], Outcome(o(t1 + [run], audit).status, Some(ControlFailed)))
  {
    var steps := ControlSteps(env, t1, h, dir, r, command, inject);
    var run := steps[0].call;
    if Succeeded(o(t1, run).status) {
      FirstStepPasses(o, t1, steps);
      assert steps[1..] == [steps[1]];
      SingleStep(o, t1 + [run], steps[1]);
      assert [run] + [steps[1].call] == [run, steps[1].call];
    } else {
      FirstStepFails(o, t1, steps);
    }
  }

  /** A host ends `Ok` exactly when the command and then the audit append both
      exit 0; both were then issued, in that order, after the home query. */
  lemma HostRunOk(env: Env, o: Oracle, r: Release, command: seq<string>, inject: bool, t: seq<Call>, h: SshUserHost)
    requires |command| > 0
    requires GetSshHome(o, t, h).result.Ok?
    ensures var home := GetSshHome(o, t, h);
      var t1 := t + home.calls;
      var dir := ReleaseDir(env, home.result.value, r);
      var run := RunCall(h, dir, command, inject, env);
      var audit := AuditCall(env, t1 + [run], h, dir, r, command);
      var result := HostRun(env, o, r, command, inject, t, h);
      && (result.result.Ok? <==> Succeeded(o(t1, run).status) && Succeeded(o(t1 + [run], audit).status))
      && (result.result.Ok? ==> result.calls == home.calls + [run, audit])
  {
    var home := GetSshHome(o, t, h);
    var t1 := t + home.calls;
    AfterHome(env, o, r, command, inject, t, h);
    ControlStepsRun(env, o, t1, h, ReleaseDir(env, home.result.value, r), r, command, inject);
  }

  /** A command that fails leaves no audit line: the host stops right after
      it with `ControlFailed`. */
  lemma CommandFailureSkipsAudit(env: Env, o: Oracle, r: Release, command: seq<string>, inject: bool, t: seq<Call>, h: SshUserHost)
    requires |command| > 0
    requires GetSshHome(o, t, h).result.Ok?
    requires var home := GetSshHome(o, t, h);
      var run := RunCall(h, ReleaseDir(env, home.result.value, r), command, inject, env);
      o(t + home.calls, run).status !in {Exited(0), NotStarted}
    ensures var home := GetSshHome(o, t, h);
      var run := RunCall(h, ReleaseDir(env, home.result.value, r), command, inject, env);
      HostRun(env, o, r, command, inject, t, h) == Run(home.calls + [run], Err(ControlFailed))
  {
    var home := GetSshHome(o, t, h);
    AfterHome(env, o, r, command, inject, t, h);
    ControlStepsRun(env, o, t + home.calls, h, ReleaseDir(env, home.result.value, r), r, command, inject);
  }

  /** A successful control has, on every host, run the command and appended
      its audit line, both with exit 0. */
  lemma ControlledEverywhere(env: Env, o: Oracle, hosts: seq<SshUserHost>, r: Release, command: seq<string>, inject: bool, t: seq<Call>, i: nat)
    requires |command| > 0
    requires i < |hosts|
    requires SimpleControl(env, o, hosts, r, command, inject, t).result.Ok?
    ensures var t0 := t + CallsBefore(hosts, OnHost(env, o, r, command, inject), t, i);
      var home := GetSshHome(o, t0, hosts[i]);
      && home.result.Ok?
      && var run := RunCall(hosts[i], ReleaseDir(env, home.result.value, r), command, inject, env);
         && Succeeded(o(t0 + home.calls, run).status)
         && Succeeded(o(t0 + home.calls + [run], AuditCall(env, t0 + home.calls + [run], hosts[i], ReleaseDir(env, home.result.value, r), r, command)).status)
  {
    var step := OnHost(env, o, r, command, inject);
    ForEachHostOk(hosts, step, t);
    var t0 := t + CallsBefore(hosts, step, t, i);
    assert step(t0, hosts[i]).result.Ok?;
    HostRunOk(env, o, r, command, inject, t0, hosts[i]);
  }
}

=== FILE: simple_deploy.dfy ===
/** `simple_deploy`: the source archive of a commit is downloaded once to this
    machine, then unpacked on every host of the phase into a fresh release
    directory. */
module SimpleDeploy {
  import opened Text
  import opened Validators
  import opened SshUserHosts
  import opened Remote
  import opened Runs
  import opened Layout

  /** The two calls made on a host once its home directory is known. `tar`
      reads the downloaded archive (a local file) on its standard input and
      drops the archive's top-level folder. */
  function Steps(env: Env, r: Release, archive: string, h: SshUserHost, home: string): (s: seq<Step>)
    ensures |s| == 2 && AllFatal(s)
  {
    var dir := ReleaseDir(env, home, r);
    [ Step(SshCall(h, "mkdir -p " + env.quote(dir)), Some(CannotCreateDirectory(dir))),
      Step(Call(SshArgv(h, UnpackCommand(env, dir)), LocalFile(archive)), Some(CannotDeployProject)) ]
  }

  function UnpackCommand(env: Env, dir: string): string {
    "tar --strip-components 1 -x -v -f - -C " + env.quote(dir)
  }

  function StepsFor(env: Env, r: Release, archive: string): (SshUserHost, string) -> seq<Step> {
    (h, home) => Steps(env, r, archive, h, home)
  }

  function OnHost(env: Env, o: Oracle, r: Release, archive: string): HostStep {
    HomeStep(o, StepsFor(env, r, archive))
  }

  /** `prepared` is the path of the downloaded archive, or the download's
      failure. */
  function SimpleDeploy(env: Env, o: Oracle, hosts: seq<SshUserHost>, r: Release, prepared: Result<string, Failure>, t: seq<Call>): (run: Run<()>)
    ensures hosts == [] ==> run == Run([], Ok(()))
    ensures hosts != [] && prepared.Err? ==> run == Run([], Err(prepared.error))
  {
    Deploy(hosts, prepared, a => OnHost(env, o, r, a), t)
  }

  /** Both calls go to the host at hand and name the same directory: the one
      `mkdir` creates is the one `tar` unpacks into, and the archive is the
      only input `tar` reads. */
  lemma StepsShape(env: Env, r: Release, archive: string, h: SshUserHost, home: string)
    ensures var s := Steps(env, r, archive, h, home);
      var dir := ReleaseDir(env, home, r);
      && s[0].call.argv[7] == UserHost(h) && s[1].call.argv[7] == UserHost(h)
      && EndsWith(s[0].call.argv[8], env.quote(dir)) && EndsWith(s[1].call.argv[8], env.quote(dir))
      && s[1].call.stdin == LocalFile(archive)
  {
    var dir := ReleaseDir(env, home, r);
    var mk := "mkdir -p " + env.quote(dir);
    var un := UnpackCommand(env, dir);
    SshArgvFields(h, mk);
    SshArgvFields(h, un);
    assert mk[|mk| - |env.quote(dir)|..] == env.quote(dir);
    assert un[|un| - |env.quote(dir)|..] == env.quote(dir);
  }

  /** A host whose archive does not unpack stops the deployment with
      `CannotDeployProject`, after both its calls. */
  lemma UnpackFailureStops(env: Env, o: Oracle, r: Release, archive: string, t: seq<Call>, h: SshUserHost)
    requires GetSshHome(o, t, h).result.Ok?
    requires var home := GetSshHome(o, t, h);
      var s := Steps(env, r, archive, h, home.result.value);
      && Succeeded(o(t + home.calls, s[0].call).status)
      && o(t + home.calls + [s[0].call], s[1].call).status !in {Exited(0), NotStarted}
    ensures var home := GetSshHome(o, t, h);
      var s := Steps(env, r, archive, h, home.result.value);
      OnHost(env, o, r, archive)(t, h) == Run(home.calls + CallsOf(s), Err(CannotDeployProject))
  {
    var home := GetSshHome(o, t, h);
    var s := Steps(env, r, archive, h, home.result.value);
    var t' := t + home.calls;
    assert s[1..][0] == s[1];
    assert RunSteps(o, t' + [s[0].call], s[1..]) == Run([s[1].call], Err(CannotDeployProject));
    assert RunSteps(o, t', s) == Run([s[0].call, s[1].call], Err(CannotDeployProject));
    assert CallsOf(s) == [s[0].call, s[1].call];
    assert OnHost(env, o, r, archive)(t, h) == WithHome(o, t, h, StepsFor(env, r, archive));
  }

  /** A successful deployment has, on every host, read the home directory,
      created the release directory and unpacked the archive into it, both
      calls exiting 0. */
  lemma DeployedEverywhere(env: Env, o: Oracle, hosts: seq<SshUserHost>, r: Release, archive: string, t: seq<Call>, i: nat)
    requires i < |hosts|
    requires SimpleDeploy(env, o, hosts, r, Ok(archive), t).result.Ok?
    ensures var before := CallsBefore(hosts, OnHost(env, o, r, archive), t, i);
      var home := GetSshHome(o, t + before, hosts[i]);
      && home.result.Ok?
      && before + home.calls + CallsOf(Steps(env, r, archive, hosts[i], home.result.value))
           <= SimpleDeploy(env, o, hosts, r, Ok(archive), t).calls
      && var list := CallsOf(Steps(env, r, archive, hosts[i], home.result.value));
         forall k | 0 <= k < |list| :: Succeeded(StatusAt(o, t + before + home.calls, list, k))
  {
    HomeLoopDone(o, hosts, StepsFor(env, r, archive), t, i);
  }
}

=== FILE: ssh_user_host.dfy ===
/** `SshUserHost`: a `user@host[:port]` literal as the phase file and the
    command line give it, parsed with the pattern
    `^([^/\s]+)@([^/\s:]+)(?::([0-9]{1,5}))?$` and a 16-bit port check. */
module SshUserHosts {
  import opened Text
  import opened Decimal
  import opened Validators

  type Port = n: nat | n < U16_LIMIT

  const DEFAULT_PORT: Port := 22

  /** Equality is structural: `a@h` and `a@h:22` are different values. */
  datatype SshUserHost = SshUserHost(user: string, host: string, port: Option<Port>)

  /** `get_port`. */
  function GetPort(v: SshUserHost): Port {
    match v.port
    case None => DEFAULT_PORT
    case Some(p) => p
  }

  /** `user_host`: the user and host joined by `@`, without the port. */
  function UserHost(v: SshUserHost): string {
    v.user + "@" + v.host
  }

  /** The position of the `@` the pattern's greedy first group settles on:
      the last one, below `n`, at which the whole pattern matches. */
  function GreedySplit(s: string, n: nat): (r: Option<nat>)
    requires n <= |s|
    ensures r.Some? ==> r.value < n && MatchAt(s, r.value, DigitPort)
    ensures r.Some? ==> forall i | r.value < i < n :: !MatchAt(s, i, DigitPort)
    ensures r.None? ==> forall i | 0 <= i < n :: !MatchAt(s, i, DigitPort)
  {
    if n == 0 then None
    else if MatchAt(s, n - 1, DigitPort) then Some(n - 1)
    else GreedySplit(s, n - 1)
  }

  /** Some `:` is followed, up to the end, by one to five digits worth more than a `u16`. */
  predicate PortOverflow(s: string) {
    exists k | 0 <= k < |s| :: s[k] == ':' && PortPart(DigitPort, s[k + 1..]) && DigitsValue(s[k + 1..]) >= U16_LIMIT
  }

  /** The user, host and port the pattern's groups capture when its `@` is at `i`;
      `None` when the port does not fit in 16 bits. */
  predicate Captures(s: string, v: SshUserHost) {
    var n := |UserHost(v)|;
    && UserPart(v.user) && HostPart(v.host)
    && StartsWith(s, UserHost(v))
    && (v.port.None? <==> |s| == n)
    && (v.port.Some? ==>
          n < |s| && s[n] == ':' && PortPart(DigitPort, s[n + 1..]) && DigitsValue(s[n + 1..]) == v.port.value)
  }

  function Capture(s: string, i: nat): (r: Option<SshUserHost>)
    requires MatchAt(s, i, DigitPort)
    ensures r.Some? ==> Captures(s, r.value) && |r.value.user| == i
    ensures r.None? <==> PortOverflow(s)
  {
    var tail := s[i + 1..];
    match IndexOf(tail, ':')
    case None =>
      CaptureWithoutPort(s, i);
      Some(SshUserHost(s[..i], tail, None))
    case Some(j) =>
      CaptureWithPort(s, i, j);
      var v := DigitsValue(tail[j + 1..]);
      if v < U16_LIMIT then Some(SshUserHost(s[..i], tail[..j], Some(v))) else None
  }

  lemma CaptureWithoutPort(s: string, i: nat)
    requires MatchAt(s, i, DigitPort) && Excludes(s[i + 1..], ':')
    ensures Captures(s, SshUserHost(s[..i], s[i + 1..], None))
    ensures !PortOverflow(s)
  {
    var tail := s[i + 1..];
    TailWithoutColon(tail, DigitPort);
    NoOverflowWithoutColon(s, i);
    assert s == s[..i] + "@" + tail;
  }

  lemma CaptureWithPort(s: string, i: nat, j: nat)
    requires MatchAt(s, i, DigitPort)
    requires j < |s[i + 1..]| && s[i + 1..][j] == ':' && Excludes(s[i + 1..][..j], ':')
    ensures PortPart(DigitPort, s[i + 1..][j + 1..])
    ensures PortOverflow(s) <==> DigitsValue(s[i + 1..][j + 1..]) >= U16_LIMIT
    ensures DigitsValue(s[i + 1..][j + 1..]) < U16_LIMIT ==>
      Captures(s, SshUserHost(s[..i], s[i + 1..][..j], Some(DigitsValue(s[i + 1..][j + 1..]))))
  {
    TailSplitsAtFirstColon(s[i + 1..], DigitPort, j);
    OverflowIsTheCapturedPort(s, i, j);
    if DigitsValue(s[i + 1..][j + 1..]) < U16_LIMIT {
      CapturesWithPort(s, i, j);
    }
  }

  lemma CapturesWithPort(s: string, i: nat, j: nat)
    requires i < |s| && s[i] == '@' && UserPart(s[..i])
    requires j < |s[i + 1..]| && s[i + 1..][j] == ':' && HostPart(s[i + 1..][..j])
    requires PortPart(DigitPort, s[i + 1..][j + 1..]) && DigitsValue(s[i + 1..][j + 1..]) < U16_LIMIT
    ensures Captures(s, SshUserHost(s[..i], s[i + 1..][..j], Some(DigitsValue(s[i + 1..][j + 1..]))))
  {
    SliceOfSuffix(s, i + 1, j);
    SliceOfSuffix(s, i + 1, j + 1);
    var n := i + 1 + j;
    assert s[..n] == s[..i] + "@" + s[i + 1..][..j];
    assert s[n] == s[i + 1..][j];
  }

  /** `SshUserHost::parse_str`. On success the input is the user, `@`, the host
      and, when a port was captured, `:` and its digits; the user is the
      longest one the pattern allows. It fails exactly when the pattern does
      not match or the captured port does not fit in 16 bits. */
  function Parse(s: string): (r: Option<SshUserHost>)
    ensures r.Some? ==> Captures(s, r.value)
    ensures r.Some? ==> forall i | |r.value.user| < i < |s| :: !MatchAt(s, i, DigitPort)
    ensures r.None? <==> !UserHostMatches(s, DigitPort) || PortOverflow(s)
  {
    match GreedySplit(s, |s|)
    case None => None
    case Some(i) => Capture(s, i)
  }

  /** Digits after a `:` that run to the end lie after the matched `@`. */
  lemma OverflowAfterAt(s: string, i: nat, k: nat)
    requires MatchAt(s, i, DigitPort)
    requires k < |s| && s[k] == ':' && PortPart(DigitPort, s[k + 1..])
    ensures i < k
  {
  }

  lemma NoOverflowWithoutColon(s: string, i: nat)
    requires MatchAt(s, i, DigitPort) && Excludes(s[i + 1..], ':')
    ensures !PortOverflow(s)
  {
    if PortOverflow(s) {
      var k :| 0 <= k < |s| && s[k] == ':' && PortPart(DigitPort, s[k + 1..]) && DigitsValue(s[k + 1..]) >= U16_LIMIT;
      OverflowAfterAt(s, i, k);
    }
  }

  /** Between `lo` and a `:` followed by digits only, no other `:` occurs. */
  lemma OnlyColonBeforePort(s: string, lo: nat, k0: nat, k: nat)
    requires lo <= k0 < |s| && lo <= k < |s| && s[k] == ':'
    requires Excludes(s[lo..k0], ':') && AllDigits(s[k0 + 1..])
    ensures k == k0
  {
    forall m | lo <= m < |s| && m != k0
      ensures s[m] != ':'
    {
      if m < k0 {
        assert s[m] == s[lo..k0][m - lo];
      } else {
        assert s[m] == s[k0 + 1..][m - k0 - 1];
      }
    }
  }

  lemma OverflowIsTheCapturedPort(s: string, i: nat, j: nat)
    requires MatchAt(s, i, DigitPort)
    requires j < |s[i + 1..]| && s[i + 1..][j] == ':' && Excludes(s[i + 1..][..j], ':')
    requires PortPart(DigitPort, s[i + 1..][j + 1..])
    ensures PortOverflow(s) <==> DigitsValue(s[i + 1..][j + 1..]) >= U16_LIMIT
  {
    var k0 := i + 1 + j;
    SliceOfSuffix(s, i + 1, j + 1);
    SliceOfSuffix(s, i + 1, j);
    assert s[k0] == s[i + 1..][j];
    forall k | 0 <= k < i + 1
      ensures !(s[k] == ':' && PortPart(DigitPort, s[k + 1..]))
    {
      if s[k] == ':' && PortPart(DigitPort, s[k + 1..]) {
        OverflowAfterAt(s, i, k);
      }
    }
    PortOverflowAt(s, i + 1, k0);
    assert s[i + 1..][j + 1..] == s[k0 + 1..];
  }

  /** With no port-like `:` before `lo`, no `:` between `lo` and `k0`, and
      digits only after `k0`, the overflow test looks at `k0` alone. */
  lemma PortOverflowAt(s: string, lo: nat, k0: nat)
    requires lo <= k0 < |s| && s[k0] == ':' && Excludes(s[lo..k0], ':') && PortPart(DigitPort, s[k0 + 1..])
    requires forall k | 0 <= k < lo :: !(s[k] == ':' && PortPart(DigitPort, s[k + 1..]))
    ensures PortOverflow(s) <==> DigitsValue(s[k0 + 1..]) >= U16_LIMIT
  {
    if PortOverflow(s) {
      var k :| 0 <= k < |s| && s[k] == ':' && PortPart(DigitPort, s[k + 1..]) && DigitsValue(s[k + 1..]) >= U16_LIMIT;
      assert lo <= k;
      OnlyColonBeforePort(s, lo, k0, k);
    }
  }

  // ---------------------------------------------------------------------------
  // Properties of parsing.

  /** `get_port` is the captured port, or 22 when the literal gave none. */
  lemma ParsedPort(s: string)
    requires Parse(s).Some?
    ensures var v := Parse(s).value; var n := |UserHost(v)|;
      GetPort(v) == if n == |s| then DEFAULT_PORT else DigitsValue(s[n + 1..])
  {
  }

  /** A `@` that matches inside `user_host()` of a parsed value would also match
      in the original literal, further right than its captured `@`. */
  lemma MatchInUserHostLifts(s: string, v: SshUserHost, i: nat)
    requires Captures(s, v)
    requires |v.user| < i && MatchAt(UserHost(v), i, DigitPort)
    ensures MatchAt(s, i, DigitPort)
  {
    var t := UserHost(v);
    var n := |t|;
    var tt := t[i + 1..];
    assert tt == v.host[i - |v.user|..];
    assert Excludes(tt, ':');
    TailWithoutColon(tt, DigitPort);
    assert s[..n] == t;
    assert s[..i] == t[..i];
    var st := s[i + 1..];
    if n == |s| {
      assert st == tt;
    } else {
      assert st == tt + s[n..];
      assert st[|tt|] == ':' && st[..|tt|] == tt && st[|tt| + 1..] == s[n + 1..];
    }
  }

  /** Parsing `user_host()` of a parsed literal gives back the same user and
      host, with no port (so `get_port` falls back to 22). */
  lemma ReparseUserHost(s: string)
    requires Parse(s).Some?
    ensures Parse(UserHost(Parse(s).value)) == Some(SshUserHost(Parse(s).value.user, Parse(s).value.host, None))
  {
    var v := Parse(s).value;
    var t := UserHost(v);
    var u := |v.user|;
    assert t[..u] == v.user && t[u + 1..] == v.host;
    assert MatchAt(t, u, DigitPort);
    forall i | u < i < |t|
      ensures !MatchAt(t, i, DigitPort)
    {
      if MatchAt(t, i, DigitPort) {
        MatchInUserHostLifts(s, v, i);
      }
    }
    assert GreedySplit(t, |t|) == Some(u) by {
      GreedySplitIsLast(t, |t|, u);
    }
  }

  /** `GreedySplit` finds the last matching `@`. */
  lemma {:induction false} GreedySplitIsLast(s: string, n: nat, k: nat)
    requires n <= |s| && k < n && MatchAt(s, k, DigitPort)
    requires forall i | k < i < n :: !MatchAt(s, i, DigitPort)
    ensures GreedySplit(s, n) == Some(k)
    decreases n
  {
    if k < n - 1 {
      GreedySplitIsLast(s, n - 1, k);
    }
  }

  /** A literal `SshUserHost` accepts is also a valid older `SshUrlPrefix`
      (the patterns agree apart from the scheme and the port range check). */
  lemma ParsedIsSshUrlPrefix(s: string)
    requires Parse(s).Some?
    ensures IsSshUrlPrefix(s)
  {
  }

  /** `:99999` has the right shape but does not fit in 16 bits. */
  lemma RejectsLargePort()
    ensures Parse("a@h:99999").None?
  {
    var s := "a@h:99999";
    var p := s[4..];
    assert s[3] == ':' && p == "99999";
    FiveNines(p);
    assert PortPart(DigitPort, p);
    assert PortOverflow(s);
  }

  lemma FiveNines(p: string)
    requires p == "99999"
    ensures AllDigits(p) && DigitsValue(p) == 99999
  {
    assert forall i | 0 <= i < |p| :: p[i] == '9';
    var a, b, c, d := p[..1], p[..2], p[..3], p[..4];
    assert a[..0] == [] && b[..1] == a && c[..2] == b && d[..3] == c && p[..4] == d;
    assert DigitsValue(a) == 9;
    assert DigitsValue(b) == 99;
    assert DigitsValue(c) == 999;
    assert DigitsValue(d) == 9999;
  }

  /** The user is the longest the pattern allows, so it may contain `@`. */
  lemma GreedyUser()
    ensures Parse("a@b@c") == Some(SshUserHost("a@b", "c", None))
  {
    var s := "a@b@c";
    MatchWithoutPort("a@b", "c");
    assert "a@b" + "@" + "c" == s;
    GreedySplitIsLast(s, |s|, 3);
    assert s[..3] == "a@b" && s[4..] == "c";
  }

  lemma MatchWithoutPort(u: string, h: string)
    requires UserPart(u) && HostPart(h)
    ensures MatchAt(u + "@" + h, |u|, DigitPort)
  {
    var s := u + "@" + h;
    assert s[..|u|] == u && s[|u| + 1..] == h;
  }
}

=== FILE: text.dfy ===
/** Strings, optional values and the few text operations the deploy tool
    relies on: Unicode whitespace, trimming, splitting, joining, ASCII case
    folding and unsigned decimal numbers. */
module Text {

  datatype Option<+T> = None | Some(value: T)

  datatype Result<+T, +E> = Ok(value: T) | Err(error: E)

  /** The Unicode White_Space property: what Rust's `char::is_whitespace`,
      `str::trim` and the regex class `\s` treat as blank. */
  predicate IsSpace(c: char) {
    || c == ' '
    || '\t' <= c <= '\r'
    || c == '\U{0085}' || c == '\U{00A0}' || c == '\U{1680}'
    || '\U{2000}' <= c <= '\U{200A}'
    || c == '\U{2028}' || c == '\U{2029}' || c == '\U{202F}'
    || c == '\U{205F}' || c == '\U{3000}'
  }

  predicate NoSpace(s: string) {
    forall i | 0 <= i < |s| :: !IsSpace(s[i])
  }

  predicate AllSpace(s: string) {
    forall i | 0 <= i < |s| :: IsSpace(s[i])
  }

  predicate IsAsciiDigit(c: char) { '0' <= c <= '9' }

  predicate IsAsciiLower(c: char) { 'a' <= c <= 'z' }

  predicate IsAsciiUpper(c: char) { 'A' <= c <= 'Z' }

  predicate IsAsciiAlphanumeric(c: char) {
    IsAsciiDigit(c) || IsAsciiLower(c) || IsAsciiUpper(c)
  }

  predicate AllDigits(s: string) {
    forall i | 0 <= i < |s| :: IsAsciiDigit(s[i])
  }

  predicate Excludes(s: string, c: char) {
    forall i | 0 <= i < |s| :: s[i] != c
  }

  predicate StartsWith(s: string, prefix: string) {
    |prefix| <= |s| && s[..|prefix|] == prefix
  }

  predicate EndsWith(s: string, suffix: string) {
    |suffix| <= |s| && s[|s| - |suffix|..] == suffix
  }

  /** Rust's `str::strip_suffix`: case-sensitive, exact. */
  function StripSuffix(s: string, suffix: string): (r: Option<string>)
    ensures r.Some? <==> EndsWith(s, suffix)
    ensures r.Some? ==> r.value + suffix == s
  {
    if EndsWith(s, suffix) then
      assert s == s[..|s| - |suffix|] + s[|s| - |suffix|..];
      Some(s[..|s| - |suffix|])
    else None
  }

  /** Position of the first occurrence of `c`, as `str::find` reports it. */
  function IndexOf(s: string, c: char): (r: Option<nat>)
    ensures r.None? <==> Excludes(s, c)
    ensures r.Some? ==> r.value < |s| && s[r.value] == c && Excludes(s[..r.value], c)
  {
    if |s| == 0 then None
    else if s[0] == c then Some(0)
    else match IndexOf(s[1..], c)
      case None => None
      case Some(k) => Some(k + 1)
  }

  /** Position of the last occurrence of `c`. */
  function LastIndexOf(s: string, c: char): (r: Option<nat>)
    ensures r.None? <==> Excludes(s, c)
    ensures r.Some? ==> r.value < |s| && s[r.value] == c && Excludes(s[r.value + 1..], c)
  {
    if |s| == 0 then None
    else if s[|s| - 1] == c then Some(|s| - 1)
    else LastIndexOf(s[..|s| - 1], c)
  }

  /** `str::trim_start`. */
  function TrimStart(s: string): (r: string)
    ensures |r| <= |s| && r == s[|s| - |r|..]
    ensures AllSpace(s[..|s| - |r|])
    ensures |r| == 0 || !IsSpace(r[0])
  {
    if |s| > 0 && IsSpace(s[0]) then TrimStart(s[1..]) else s
  }

  /** `str::trim_end`. */
  function TrimEnd(s: string): (r: string)
    ensures |r| <= |s| && r == s[..|r|]
    ensures AllSpace(s[|r|..])
    ensures |r| == 0 || !IsSpace(r[|r| - 1])
  {
    if |s| > 0 && IsSpace(s[|s| - 1]) then
      var r := TrimEnd(s[..|s| - 1]);
      assert s[..|s| - 1][..|r|] == s[..|r|];
      assert s[|r|..] == s[..|s| - 1][|r|..] + [s[|s| - 1]];
      r
    else s
  }

  /** `str::trim` (and the `trim_in_place` the tool calls on captured output). */
  function Trim(s: string): string {
    TrimEnd(TrimStart(s))
  }

  /** Slicing a suffix again is slicing the original further on. */
  lemma SliceOfSuffix(s: string, a: nat, b: nat)
    requires a + b <= |s|
    ensures s[a..][b..] == s[a + b..] && s[a..][..b] == s[a..a + b]
  {
  }

  /** Trimming removes only blanks from both ends and leaves no blank there. */
  lemma TrimIsInfix(s: string)
    ensures exists i, j | 0 <= i <= j <= |s| :: Trim(s) == s[i..j] && AllSpace(s[..i]) && AllSpace(s[j..])
    ensures |Trim(s)| == 0 || (!IsSpace(Trim(s)[0]) && !IsSpace(Trim(s)[|Trim(s)| - 1]))
  {
    var i, j := TrimBounds(s);
    TrimEndsNotBlank(s);
  }

  lemma TrimBounds(s: string) returns (i: nat, j: nat)
    ensures i <= j <= |s| && Trim(s) == s[i..j] && AllSpace(s[..i]) && AllSpace(s[j..])
  {
    InfixOfSuffix(s, TrimStart(s), Trim(s));
    i := |s| - |TrimStart(s)|;
    j := i + |Trim(s)|;
  }

  /** A blank-padded prefix of a blank-padded suffix is a blank-padded infix. */
  lemma InfixOfSuffix(s: string, a: string, b: string)
    requires |a| <= |s| && a == s[|s| - |a|..] && AllSpace(s[..|s| - |a|])
    requires |b| <= |a| && b == a[..|b|] && AllSpace(a[|b|..])
    ensures var i := |s| - |a|;
      b == s[i..i + |b|] && AllSpace(s[..i]) && AllSpace(s[i + |b|..])
  {
    SliceOfSuffix(s, |s| - |a|, |b|);
  }

  lemma TrimEndsNotBlank(s: string)
    ensures |Trim(s)| == 0 || (!IsSpace(Trim(s)[0]) && !IsSpace(Trim(s)[|Trim(s)| - 1]))
  {
    UnblankEnds(TrimStart(s), Trim(s));
  }

  lemma UnblankEnds(a: string, b: string)
    requires |a| == 0 || !IsSpace(a[0])
    requires |b| <= |a| && b == a[..|b|]
    requires |b| == 0 || !IsSpace(b[|b| - 1])
    ensures |b| == 0 || (!IsSpace(b[0]) && !IsSpace(b[|b| - 1]))
  {
    assert |b| > 0 ==> b[0] == a[0];
  }

  /** A string with no blank at either end is its own trim. */
  lemma TrimOfTrimmed(s: string)
    requires |s| == 0 || (!IsSpace(s[0]) && !IsSpace(s[|s| - 1]))
    ensures Trim(s) == s
  {
  }

  /** Length of the leading run of non-blank characters. */
  function WordLength(s: string): (k: nat)
    ensures k <= |s| && NoSpace(s[..k])
    ensures k < |s| ==> IsSpace(s[k])
  {
    if |s| == 0 || IsSpace(s[0]) then 0
    else
      var k := WordLength(s[1..]);
      assert s[1..][..k] == s[1..k + 1];
      1 + k
  }

  /** `str::split_whitespace`: the maximal runs of non-blank characters, in order. */
  function Words(s: string): (r: seq<string>)
    ensures forall w | w in r :: |w| > 0 && NoSpace(w)
    decreases |s|
  {
    var t := TrimStart(s);
    if |t| == 0 then []
    else
      var k := WordLength(t);
      [t[..k]] + Words(t[k..])
  }

  /** A blank string has no words, and a non-blank string has at least one. */
  lemma {:induction false} WordsEmptyIffBlank(s: string)
    ensures Words(s) == [] <==> AllSpace(s)
  {
    var t := TrimStart(s);
    if |t| == 0 {
      assert s[..|s|] == s;
    } else {
      assert !IsSpace(s[|s| - |t|]);
    }
  }

  /** A single run of non-blank characters, padded by blanks, is one word. */
  lemma {:induction false} WordsOfPadded(a: string, w: string, b: string)
    requires AllSpace(a) && AllSpace(b) && |w| > 0 && NoSpace(w)
    ensures Words(a + w + b) == [w]
  {
    var s := a + w + b;
    TrimStartOfPadded(a, w + b);
    assert a + w + b == a + (w + b);
    var t := TrimStart(s);
    assert t == w + b;
    WordLengthOf(w, b);
    assert t[..|w|] == w;
    assert t[|w|..] == b;
    TrimStartOfBlank(b);
  }

  lemma {:induction false} TrimStartOfPadded(a: string, rest: string)
    requires AllSpace(a)
    requires |rest| == 0 || !IsSpace(rest[0])
    ensures TrimStart(a + rest) == rest
    decreases |a|
  {
    if |a| > 0 {
      assert (a + rest)[1..] == a[1..] + rest;
      TrimStartOfPadded(a[1..], rest);
    } else {
      assert a + rest == rest;
    }
  }

  lemma TrimStartOfBlank(b: string)
    requires AllSpace(b)
    ensures TrimStart(b) == []
  {
    TrimStartOfPadded(b, []);
    assert b + [] == b;
  }

  lemma {:induction false} WordLengthOf(w: string, b: string)
    requires NoSpace(w)
    requires |b| == 0 || IsSpace(b[0])
    ensures WordLength(w + b) == |w|
    decreases |w|
  {
    if |w| > 0 {
      assert (w + b)[1..] == w[1..] + b;
      WordLengthOf(w[1..], b);
    } else {
      assert w + b == b;
    }
  }

  /** A nonempty string without blanks is one word. */
  lemma WordsOfToken(w: string)
    requires |w| > 0 && NoSpace(w)
    ensures Words(w) == [w]
  {
    assert !IsSpace(w[0]);
    assert TrimStart(w) == w;
    WordLengthOf(w, []);
    assert w + [] == w;
    assert w[..|w|] == w && w[|w|..] == [];
    assert TrimStart([]) == [];
  }

  /** ASCII digits are not blanks. */
  lemma DigitsNoSpace(s: string)
    requires AllDigits(s)
    ensures NoSpace(s)
  {
    forall i | 0 <= i < |s| ensures !IsSpace(s[i]) {
      assert IsAsciiDigit(s[i]);
    }
  }

  /** `parts.join(sep)`. */
  function Join(parts: seq<string>, sep: string): string {
    if |parts| == 0 then ""
    else if |parts| == 1 then parts[0]
    else parts[0] + sep + Join(parts[1..], sep)
  }

  /** `str::split(c)`: the pieces between occurrences of `c`; never empty. */
  function Split(s: string, c: char): (r: seq<string>)
    ensures |r| > 0
    ensures forall p | p in r :: Excludes(p, c)
    ensures Join(r, [c]) == s
  {
    match IndexOf(s, c)
    case None => [s]
    case Some(k) =>
      var rest := Split(s[k + 1..], c);
      assert s == s[..k] + [c] + s[k + 1..];
      [s[..k]] + rest
  }

  /** `str::to_ascii_lowercase` on one character. */
  function LowerChar(c: char): (r: char)
    ensures IsAsciiUpper(c) ==> IsAsciiLower(r)
    ensures !IsAsciiUpper(c) ==> r == c
  {
    if IsAsciiUpper(c) then (c as int - 'A' as int + 'a' as int) as char else c
  }

  /** `str::to_ascii_lowercase`. */
  function ToAsciiLower(s: string): (r: string)
    ensures |r| == |s|
    ensures forall i | 0 <= i < |s| :: r[i] == LowerChar(s[i])
  {
    seq(|s|, i requires 0 <= i < |s| => LowerChar(s[i]))
  }

  /** ASCII case-insensitive equality, `str::eq_ignore_ascii_case`. */
  predicate EqualIgnoringAsciiCase(s: string, t: string) {
    |s| == |t| && forall i | 0 <= i < |s| :: LowerChar(s[i]) == LowerChar(t[i])
  }

  lemma LowerOfCaseInsensitiveEqual(s: string, t: string)
    requires EqualIgnoringAsciiCase(s, t)
    ensures ToAsciiLower(s) == ToAsciiLower(t)
  {
  }
}

=== FILE: validators.dfy ===
/** The regex-defined token types: each one is a string accepted by one
    anchored pattern, stored unchanged (so its `as_ref` is the identity). */
module Validators {
  import opened Text

  /** `[a-zA-Z0-9\-_.]` */
  predicate NameChar(c: char) {
    IsAsciiAlphanumeric(c) || c == '-' || c == '_' || c == '.'
  }

  /** `[a-zA-Z0-9-_]`; the `-` after the range `0-9` is a literal. */
  predicate PublicNameChar(c: char) {
    IsAsciiAlphanumeric(c) || c == '-' || c == '_'
  }

  /** `[a-z0-9\-_]` */
  predicate ImageNameChar(c: char) {
    IsAsciiLower(c) || IsAsciiDigit(c) || c == '-' || c == '_'
  }

  /** `^[a-zA-Z0-9\-_.]{1,80}$` */
  predicate IsName(s: string) {
    1 <= |s| <= 80 && forall i | 0 <= i < |s| :: NameChar(s[i])
  }

  /** `^[a-zA-Z0-9-_]{1,80}$` */
  predicate IsPublicName(s: string) {
    1 <= |s| <= 80 && forall i | 0 <= i < |s| :: PublicNameChar(s[i])
  }

  /** `^[a-z0-9\-_]{1,80}$` */
  predicate IsImageName(s: string) {
    1 <= |s| <= 80 && forall i | 0 <= i < |s| :: ImageNameChar(s[i])
  }

  /** `^\S+$` */
  predicate IsApiToken(s: string) {
    |s| >= 1 && NoSpace(s)
  }

  /** `^[a-zA-Z0-9]{40}$` */
  predicate IsCommitSha(s: string) {
    |s| == 40 && forall i | 0 <= i < |s| :: IsAsciiAlphanumeric(s[i])
  }

  /** Project names, reference names and (with the same pattern) phases. */
  type Name = s: string | IsName(s) witness "a"
  type Phase = s: string | IsName(s) witness "a"
  type PublicName = s: string | IsPublicName(s) witness "a"
  /** Image names and (with the same pattern) build targets. */
  type ImageName = s: string | IsImageName(s) witness "a"
  type BuildTarget = s: string | IsImageName(s) witness "a"
  type ApiToken = s: string | IsApiToken(s) witness "a"
  type CommitSha = s: string | IsCommitSha(s)
    witness "0000000000000000000000000000000000000000"

  // ---------------------------------------------------------------------------
  // The `user@host[:port]` shape shared by `SshUserHost` and `SshUrlPrefix`.

  /** `[^/\s]+`: the user part, which may itself hold `@` and `:`. */
  predicate UserPart(u: string) {
    |u| > 0 && Excludes(u, '/') && NoSpace(u)
  }

  /** `[^/\s:]+`: the host part. */
  predicate HostPart(h: string) {
    UserPart(h) && Excludes(h, ':')
  }

  /** What may follow the `:` after the host. */
  datatype PortRule =
    | DigitPort  // `[0-9]{1,5}`
    | FreePort   // `[^/\s]+`

  predicate PortPart(rule: PortRule, p: string) {
    match rule
    case DigitPort => 1 <= |p| <= 5 && AllDigits(p)
    case FreePort => UserPart(p)
  }

  /** `[^/\s:]+(?::PORT)?$` on what follows the `@`. */
  predicate TailMatches(t: string, rule: PortRule) {
    || HostPart(t)
    || exists j | 0 <= j < |t| :: t[j] == ':' && HostPart(t[..j]) && PortPart(rule, t[j + 1..])
  }

  /** `^[^/\s]+@[^/\s:]+(?::PORT)?$` with the `@` at position `i`. */
  predicate MatchAt(s: string, i: int, rule: PortRule) {
    0 <= i < |s| && s[i] == '@' && UserPart(s[..i]) && TailMatches(s[i + 1..], rule)
  }

  predicate UserHostMatches(s: string, rule: PortRule) {
    exists i | 0 <= i < |s| :: MatchAt(s, i, rule)
  }

  const SCHEME: string := "ssh://"

  /** `^(ssh://)?[^/\s]+@[^/\s:]+(?::[0-9]{1,5})?$`, the older pattern. */
  predicate IsSshUrlPrefix(s: string) {
    UserHostMatches(s, DigitPort) || (StartsWith(s, SCHEME) && UserHostMatches(s[|SCHEME|..], DigitPort))
  }

  /** `^(ssh://)?[^/\s]+@[^/\s:]+(?::[^/\s]+)?$`, the newer pattern. */
  predicate IsSshUrlPrefixV2(s: string) {
    UserHostMatches(s, FreePort) || (StartsWith(s, SCHEME) && UserHostMatches(s[|SCHEME|..], FreePort))
  }

  // ---------------------------------------------------------------------------
  // Parsing a validated type keeps the input unchanged.

  function ParseImageName(s: string): (r: Option<ImageName>)
    ensures r.Some? <==> IsImageName(s)
    ensures r.Some? ==> r.value == s
  {
    if IsImageName(s) then Some(s) else None
  }

  // ---------------------------------------------------------------------------
  // Properties of the patterns.

  /** Names are 1 to 80 characters; `/` and blanks never occur; `.` and `..` are names. */
  lemma NameBoundaries(s: string)
    ensures !IsName("")
    ensures |s| > 80 ==> !IsName(s)
    ensures IsName(s) ==> Excludes(s, '/') && NoSpace(s)
    ensures IsName(".") && IsName("..")
  {
  }

  /** Every public name is a name, and no public name holds a `.`. */
  lemma PublicNameIsDotFreeName(s: string)
    ensures IsPublicName(s) <==> IsName(s) && Excludes(s, '.')
  {
  }

  /** Image names are exactly the public names without upper-case letters. */
  lemma ImageNameIsLowerPublicName(s: string)
    ensures IsImageName(s) <==> IsPublicName(s) && forall i | 0 <= i < |s| :: !IsAsciiUpper(s[i])
  {
  }

  /** Every name is an API token, but API tokens have no length bound. */
  lemma ApiTokenUnbounded(n: nat)
    requires n >= 1
    ensures IsApiToken(seq(n, _ => 'x'))
    ensures n > 80 ==> !IsName(seq(n, _ => 'x'))
    ensures forall s | IsName(s) :: IsApiToken(s)
  {
  }

  /** A commit SHA need not be hexadecimal: any 40 ASCII letters or digits will do. */
  lemma CommitShaNotHex()
    ensures IsCommitSha(seq(40, _ => 'z'))
    ensures !IsCommitSha(seq(39, _ => 'a')) && !IsCommitSha(seq(41, _ => 'a'))
  {
  }

  /** `get_short_sha`: the first eight characters; in range because a SHA has 40. */
  function ShortSha(sha: CommitSha): (r: string)
    ensures |r| == 8 && StartsWith(sha, r)
    ensures forall i | 0 <= i < |r| :: IsAsciiAlphanumeric(r[i])
  {
    sha[..8]
  }


  /** What the older pattern accepts, the newer one accepts too. */
  lemma SshUrlPrefixWidened(s: string)
    requires IsSshUrlPrefix(s)
    ensures IsSshUrlPrefixV2(s)
  {
    forall t | UserHostMatches(t, DigitPort)
      ensures UserHostMatches(t, FreePort)
    {
      var i :| 0 <= i < |t| && MatchAt(t, i, DigitPort);
      TailWidened(t[i + 1..]);
      assert MatchAt(t, i, FreePort);
    }
  }

  lemma TailWidened(tail: string)
    requires TailMatches(tail, DigitPort)
    ensures TailMatches(tail, FreePort)
  {
    if !HostPart(tail) {
      var j :| 0 <= j < |tail| && tail[j] == ':' && HostPart(tail[..j]) && PortPart(DigitPort, tail[j + 1..]);
      DigitPortIsFree(tail[j + 1..]);
    }
  }

  lemma DigitPortIsFree(p: string)
    requires PortPart(DigitPort, p)
    ensures PortPart(FreePort, p)
  {
    forall k | 0 <= k < |p| ensures p[k] != '/' && !IsSpace(p[k]) {
      assert IsAsciiDigit(p[k]);
    }
  }

  /** The port part never holds `/` or a blank, whichever rule applies. */
  lemma PortPartClean(rule: PortRule, p: string)
    requires PortPart(rule, p)
    ensures Excludes(p, '/') && NoSpace(p)
  {
  }

  /** Whatever follows the `@` of a match holds no `/` and no blank. */
  lemma TailClean(t: string, rule: PortRule)
    requires TailMatches(t, rule)
    ensures Excludes(t, '/') && NoSpace(t)
  {
    if !HostPart(t) {
      var j :| 0 <= j < |t| && t[j] == ':' && HostPart(t[..j]) && PortPart(rule, t[j + 1..]);
      PortPartClean(rule, t[j + 1..]);
      forall k | 0 <= k < |t|
        ensures t[k] != '/' && !IsSpace(t[k])
      {
        if k < j {
          assert t[k] == t[..j][k];
        } else if k > j {
          assert t[k] == t[j + 1..][k - j - 1];
        }
      }
    }
  }

  /** After the optional scheme an accepted prefix holds no `/` and no blank anywhere. */
  lemma SshUrlPrefixHasNoPath(s: string, rule: PortRule)
    requires UserHostMatches(s, rule)
    ensures Excludes(s, '/') && NoSpace(s)
  {
    var i :| 0 <= i < |s| && MatchAt(s, i, rule);
    var tail := s[i + 1..];
    TailClean(tail, rule);
    forall k | 0 <= k < |s|
      ensures s[k] != '/' && !IsSpace(s[k])
    {
      if k < i {
        assert s[k] == s[..i][k];
      } else if k > i {
        assert s[k] == tail[k - i - 1];
      }
    }
  }

  /** A tail with no `:` is all host. */
  lemma TailWithoutColon(t: string, rule: PortRule)
    requires TailMatches(t, rule) && Excludes(t, ':')
    ensures HostPart(t)
  {
  }

  /** A tail with a `:` splits at its first one: the host before it, the port after it. */
  lemma TailSplitsAtFirstColon(t: string, rule: PortRule, k: nat)
    requires TailMatches(t, rule)
    requires k < |t| && t[k] == ':' && Excludes(t[..k], ':')
    ensures HostPart(t[..k]) && PortPart(rule, t[k + 1..])
  {
    assert !Excludes(t, ':');
    assert !HostPart(t);
    var j :| 0 <= j < |t| && t[j] == ':' && HostPart(t[..j]) && PortPart(rule, t[j + 1..]);
    assert forall i | 0 <= i < k :: t[..k][i] == t[i];
    assert forall i | 0 <= i < j :: t[..j][i] == t[i];
    assert !(j < k) && !(k < j);
  }

  /** `user@host:port` with well-formed parts matches at the `@` after the user. */
  lemma MatchWithPort(u: string, h: string, p: string, rule: PortRule)
    requires UserPart(u) && HostPart(h) && PortPart(rule, p)
    ensures MatchAt(u + "@" + h + ":" + p, |u|, rule)
  {
    var s := u + "@" + h + ":" + p;
    var tail := s[|u| + 1..];
    assert tail == h + ":" + p;
    assert tail[..|h|] == h && tail[|h| + 1..] == p;
    assert s[..|u|] == u;
  }

  /** The older pattern does not range-check the port: `a@h:99999` passes. */
  lemma SshUrlPrefixUncheckedPort()
    ensures IsSshUrlPrefix("a@h:99999")
  {
    MatchWithPort("a", "h", "99999", DigitPort);
    assert "a" + "@" + "h" + ":" + "99999" == "a@h:99999";
  }

  /** The `ssh://` scheme is optional. */
  lemma SshUrlPrefixWithScheme()
    ensures IsSshUrlPrefix("ssh://git@host:22")
  {
    var u := "ssh://git@host:22";
    MatchWithPort("git", "host", "22", DigitPort);
    assert "git" + "@" + "host" + ":" + "22" == u[6..];
    assert StartsWith(u, SCHEME);
  }

  /** A free-form suffix such as `git@host:group` passes only the newer pattern. */
  lemma SshUrlPrefixFreeSuffix()
    ensures !IsSshUrlPrefix("git@host:group") && IsSshUrlPrefixV2("git@host:group")
  {
    var g := "git@host:group";
    MatchWithPort("git", "host", "group", FreePort);
    assert "git" + "@" + "host" + ":" + "group" == g;
    assert !StartsWith(g, SCHEME) by { assert g[0] != 's'; }
    forall i | 0 <= i < |g|
      ensures !MatchAt(g, i, DigitPort)
    {
      NoDigitPortMatch(g, i);
    }
  }

  lemma NoDigitPortMatch(g: string, i: int)
    requires g == "git@host:group"
    ensures !MatchAt(g, i, DigitPort)
  {
    if MatchAt(g, i, DigitPort) {
      assert i == 3;
      var tail := g[4..];
      assert tail[4] == ':' && tail[..4] == "host" && !IsAsciiDigit(tail[5..][0]);
      TailSplitsAtFirstColon(tail, DigitPort, 4);
      assert false;
    }
  }
}
